=== FILE: README.md ===
# auto-check: a verified model of the scrapers and the query engine

auto-check collects car listings from two Armenian classifieds sites and serves them through a
small web API. This project models the core of it in Dafny and proves properties of that model.
The model has four parts.

- **The auto.am search crawl** (`autoAM/scrapping/scrap_pages.py`, module `Crawl`). Each price
  bracket of `PRICE_RANGES` is crawled over result pages 1..200. On a page where no
  card raises, every card with a `click-for-gtag` link becomes a row of the `cars` table, in
  card order. A linked card without its `div.card-loc` or `span.grey-text` raises, and the
  whole page then yields no rows. The currency is the first word of the
  price text, and `taxed` records whether the card shows the green tax label. Rows are written
  `INSERT OR REPLACE` on the car id. The thread pool's completion order is an input that lists
  every page exactly once. The proofs show that the table, the bracket's car total and the
  empty-page streak are those of the pages in that order, and that the total does not depend on
  the order.
- **The auto.am detail scraper** (`autoAM/scrapping/scrap_listings.py`, module `Enrichment`).
  The pending cars are the cars without any tag row. A detail page yields `None`, `[]` or tag
  rows. Hidden elements (a style containing "none") are pruned before the value text is taken,
  and only two-cell rows produce tags. Tags are stored `INSERT OR IGNORE` under
  `UNIQUE(car_id, attribute)`. The proofs show that after a run a car leaves the pending set
  exactly when it got at least one stored tag.
- **The list.am crawl** (`listAM/scrap.py`, module `ListAm`). This part covers the page-URL
  rule, item-id extraction from the link's href, image-URL normalisation and the "N/A" defaults.
  The rows of each page are collected in link order and saved `INSERT OR REPLACE` on the item
  id.
- **The query engine** (`app.py`, modules `Extractors`, `FilterOptions`, `Vehicles`). The text
  extractors work on prices, distances, fuel, titles and attributes. `/api/filter-options`
  builds a make → model tree. `/api/vehicles` turns its filters into `AND` clauses. The scan
  SQLite performs over the registered Python functions is modelled in stored row order, with
  short-circuit `AND`, `LIMIT 24` and the page's `OFFSET`. The display records are then built
  from the returned rows.

Shared modules: `Wrappers` (Option), `PyStrings` (the Python string operations the code uses:
`find`, `in`, `split`, `join`, `strip`, `lower`, `replace(',', '')`, `isdigit`, decimal and
thousands formatting), `StrOrder` (Python's string ordering and `sorted` on keys), `Schema`
(the rows of the `items`, `cars` and `tags` tables) and `Tables` (`INSERT OR REPLACE` on a
keyed table as a map, `INSERT OR IGNORE` under a unique key as a row sequence).

Where a Python function raises inside the scan, SQLite aborts the statement and the request
fails. The model returns `None` for it. This happens in `GET_KM` when the `[\d,]+` group of the
distance pattern matches commas only: `float('')` raises. An example is an attributes text like
"Yerevan, mileage", because the unit is not bounded to a whole word.

A title whose first token is not all digits, such as "Unknown SUV", still takes its second
token as the make; only the year becomes 0, so it decomposes to `(0, "SUV", "", "")`
(`app.py:93-94`, `Extractors.UnknownSuvExample`). The `(0, "Other", text, "")` fallback is
reached only when the main part has no second token.

## Model

| member | source | states |
|---|---|---|
| Extractors.UsdDivisor | app.py:44-52 | dividing by the rate of a currency is always defined for a valid rate table, and USD is not divided |
| Extractors.FirstDigitRun | app.py:38 | `re.search(r'(\d+)')` finds nothing exactly when the text has no digit, and otherwise returns a non-empty all-digit string |
| Extractors.FirstDigitRunAfter | app.py:38 | after a digit-free prefix, the search returns the whole maximal digit block that follows |
| Extractors.DigitRunPrefix | app.py:38 | the greedy `\d+` stops exactly at the first non-digit |
| Extractors.ParsePrice | app.py:73-84 | empty text and text containing "N/A" read as `(0, "USD")`, and any other reading needs a digit in the text |
| Extractors.GetPriceInUsd | app.py:30-52 | the USD value used for price filters is the amount `parse_price` displays, divided by the rate of the currency it displays, so both read 0 from the same texts |
| Extractors.PriceZeroCases | app.py:35-39 | empty text, text containing "N/A" and digit-free text give 0 USD and `(0, "USD")` |
| Extractors.CleanPriceCurrency | app.py:80-83 | a price text shows the sign of its currency, and the currency found is that currency |
| Extractors.ParsePriceText | app.py:73-84 | a price written with thousands separators and its sign (first or last) parses back to its amount and currency |
| Extractors.PriceRoundTrip | app.py:30-52 | the same price text converts to amount / rate of its currency in USD |
| Extractors.SearchDistanceFrom | app.py:56 | the distance search returns the leftmost position where the pattern matches, and none before it matches |
| Extractors.MatchDistanceIsRegexMatch | app.py:56 | the matcher at a position succeeds exactly when digits/commas, optional whitespace and a unit word (any case) follow there, and then the number is that digit/comma block and the unit is km exactly when the word is km |
| Extractors.SpanIsGreedy | app.py:56 | every match of the pattern at a position has the greedy number end and whitespace end |
| Extractors.MilesUnit | app.py:59-61 | a unit is converted from miles ("mi" in the lower-cased unit) exactly when it is not km |
| Extractors.GetKm | app.py:54-61 | a text in which the distance pattern matches nowhere reads as 0 km (the value of the leftmost match is stated by GetKmAfter) |
| Extractors.GetKmAfter | app.py:54-61 | when the pattern matches nowhere before a number, whitespace and a unit, the distance is that number without commas, converted and truncated for miles; a commas-only number raises |
| Extractors.GetKmAtStart | app.py:54-61 | a leading distance gives its comma-free number, converted and truncated for miles; a commas-only number raises |
| Extractors.GetKmAfterLocation | app.py:54-61 | after a location with no digit and no comma and the ", " that ends it, the distance is read as if it started the text, miles and the commas-only raise included |
| Extractors.GetKmOfListing | app.py:54-61 | "location, n km…", with n written with thousands separators, reads as n km |
| Extractors.YerevanExample | app.py:54-61 | "Yerevan, 150,000 km, Diesel" reads as 150000 km |
| Extractors.MileageRoundTrip | app.py:111 | the displayed mileage `f"{km:,} km"` reads back as the same kilometres |
| Extractors.MilesRoundTrip | app.py:60 | "N miles", written with thousands separators, reads as int(N × 1.60934) km |
| Extractors.HundredMiles | app.py:60 | "100 miles" reads as 160 km |
| Extractors.AnyTermInIff | app.py:68-70 | the loop over the fuel terms succeeds exactly when some lower-cased term occurs in the lower-cased text |
| Extractors.CheckFuelMatch | app.py:63-70 | the fuel filter matches exactly when the desired list is empty, or the text is non-empty and contains one of its comma-separated terms, ignoring case |
| Extractors.TrailingCommaMatchesAll | app.py:66-69 | a desired list ending in a comma has an empty term, which matches every non-empty text |
| Extractors.ParseLText | app.py:86-98 | the make is a single token (it holds no space) and the spec holds no comma |
| Extractors.ParseLTextFallback | app.py:92-98 | a title whose main part has no second token falls back to `(0, "Other", text, "")` |
| Extractors.ParseLTextByPosition | app.py:86-96 | when the stripped text before the first comma holds a space: the year is the value of the text before its first space when that is all digits (else 0), the make runs to the next space, the model is everything after that space, and the spec is the stripped text between the first and the second comma ("" without a comma) |
| Extractors.TwoWords | app.py:86-96 | a two-word title without a comma gives the year (or 0), the make and empty model and spec |
| Extractors.UnknownSuvExample | app.py:93-94 | "Unknown SUV" decomposes to `(0, "SUV", "", "")` |
| Extractors.TitleRoundTrip | app.py:86-96 | a title written as "year make model, spec" decomposes back to its four fields |
| Extractors.ToyotaExample | app.py:86-96 | "2020 Toyota Camry, 2.5L" decomposes to `(2020, "Toyota", "Camry", "2.5L")` |
| Extractors.FuelIndex | app.py:103-109 | the first keyword in vocabulary order that the text contains, none before it occurring |
| Extractors.FuelOf | app.py:103-109 | the fuel is "Other" or a keyword of the list that the text contains |
| Extractors.FuelOfSpec | app.py:103-109 | the fuel is "Other" exactly when no keyword occurs, and otherwise it is the earliest keyword of the list that occurs |
| Extractors.StripShape | app.py:110 | stripping removes whitespace at both ends only and keeps the contiguous middle |
| Extractors.ParseAtText | app.py:100-111 | the attributes are read exactly when the distance reads; the displayed mileage then reads back as the same kilometres, and the fuel is the keyword choice of app.py:103-109 |
| Extractors.ParseAtTextSpec | app.py:100-111 | for a text whose distance reads, the displayed mileage reads back as the filter's kilometres, the location is the text before the first comma, stripped, so it has no comma and no surrounding whitespace, and the fuel is "Other" exactly when no keyword occurs, otherwise the first keyword in list order that occurs |
| FilterOptions.Pairs | app.py:136-137 | one (make, model) pair per stored title, in row order, each from `parse_l_text` |
| FilterOptions.CountSnoc | app.py:138-141 | one more row adds one to its make's count and to its (make, model) count only |
| FilterOptions.Tally | app.py:135-141 | the tree holds exactly the makes and the models that occur, each with its number of rows |
| FilterOptions.TallyStep | app.py:138-141 | creating or incrementing the entries of one row keeps the tree exact |
| FilterOptions.CountModelBound | app.py:138-141 | no model count exceeds its make's count |
| FilterOptions.ListModels | app.py:145-147 | a make's model list is in ascending name order and holds exactly its models with their counts |
| FilterOptions.ListMake | app.py:144-148 | one make entry carries its count and its model list |
| FilterOptions.ListTree | app.py:143-148 | listing the tree gives the makes in ascending order, each with its count and models |
| FilterOptions.GetFilterOptions | app.py:135-149 | the response lists exactly the makes of the stored titles in ascending order, with their row counts and their models in ascending order with row counts |
| FilterOptions.MakeCountsSum | app.py:135-148 | the make counts of the response add up to the number of stored rows |
| FilterOptions.ModelCountsSum | app.py:138-147 | the model counts of a make add up to the make's count |
| FilterOptions.DescribesUnique | app.py:143-148 | the response is determined by the stored titles: two responses meeting the description are equal |
| StrOrder.LessIrreflexive | app.py:144 | no string sorts before itself |
| StrOrder.LessTransitive | app.py:144 | Python's string order is transitive |
| StrOrder.LessTotal | app.py:144 | of two distinct strings one sorts before the other |
| StrOrder.Insert | app.py:144 | inserting a new key into an ascending list keeps it ascending and adds exactly that key |
| StrOrder.SortedKeys | app.py:144 | `sorted` of the dictionary keys is strictly ascending and holds exactly the keys |
| StrOrder.AscendingUnique | app.py:144 | two strictly ascending lists with the same elements are equal |
| Vehicles.Clauses | app.py:171-196 | the WHERE clause gets no `AND` term exactly when no filter is given, and at most seven |
| Vehicles.Offset | app.py:153-156 | page p ≥ 1 skips (p − 1) × 24 rows; page 1 and below skip none (SQLite treats a negative OFFSET as 0) |
| Vehicles.EvalAppend | app.py:171-198 | the `AND` chain is evaluated left to right and stops at the first false term; a raising term aborts |
| Vehicles.TextClausesMeaning | app.py:174-182 | the make and model terms are case-insensitive substring tests on the title, and the fuel term is `CHECK_FUEL` |
| Vehicles.KmClausesMeaning | app.py:183-188 | the distance bounds compare `GET_KM`, and raise when the distance does not read |
| Vehicles.PriceClausesMeaning | app.py:191-196 | the price bounds compare the USD price |
| Vehicles.ClausesMeaning | app.py:171-196 | the WHERE clause holds exactly for the rows meeting every given filter; it raises exactly when a distance filter is given, the row's distance does not read and the text filters before it held |
| Vehicles.Window | app.py:198 | `LIMIT take OFFSET skip` keeps the rows from position skip on, at most take of them |
| Vehicles.Selected | app.py:200-201 | the selected rows are stored rows on which the WHERE clause is true |
| Vehicles.Scan | app.py:198-201 | a completed scan returns at most `LIMIT` rows and never more than are stored |
| Vehicles.ScanWindow | app.py:198-201 | a scan that completes returns the LIMIT/OFFSET window of the selected rows |
| Vehicles.ScanDefined | app.py:200-201 | a scan completes when the WHERE clause raises on no row |
| Vehicles.ScanRaises | app.py:200-201 | a scan that fails reached a row on which the WHERE clause raises |
| Vehicles.Matching | app.py:171-196 | the matching rows are stored rows meeting every filter |
| Vehicles.SelectedIsMatching | app.py:171-201 | the rows the WHERE clause selects are exactly the matching rows, in stored order |
| Vehicles.Query | app.py:171-201 | a served query returns at most 24 rows, and never more than are stored |
| Vehicles.QueryPage | app.py:198-201 | a served page is the page's window of the matching rows and holds at most 24 rows |
| Vehicles.QueryDefined | app.py:183-201 | the query is served when no distance filter is set or every distance reads; a failed query had a distance filter and a row whose distance does not read |
| Vehicles.UnfilteredMatchesAll | app.py:171 | without filters every stored row matches, in stored order |
| Vehicles.PageServed | app.py:153-201 | without a distance filter every page is served as its window of the matching rows |
| Vehicles.ThirtyMatches | app.py:153-201 | with 30 matching rows, page 1 has the first 24, page 2 the last 6 and page 3 none |
| Vehicles.SameFilters | app.py:153-196 | the page number does not change which rows match |
| Vehicles.PageOfRow | app.py:153-201 | the k-th matching row is shown on page k / 24 + 1 at position k mod 24 |
| Vehicles.ViewOf | app.py:204-216 | a record is built exactly when the row's distance reads; it carries the row's id and image, a mileage that reads back as the row's kilometres, the amount and currency of parse_price, the year, make, model and engine of parse_l_text, and the location, mileage and fuel of parse_at_text |
| Vehicles.ViewAgrees | app.py:204-216 | a display record is built exactly when the distance reads; it carries the row id, a mileage that reads back as the row's kilometres, an amount and currency whose USD value is the filter's USD price, a one-word make, a comma-free engine, the stripped text before the first comma as location, and the first fuel keyword found |
| Vehicles.CollectViews | app.py:204-216 | building the records fails exactly when one of them fails, and otherwise gives one record per row in order |
| Vehicles.GetVehicles | app.py:152-218 | the response is served when every distance reads; it is the display records of the page's window of the matching rows, at most 24, and each record meets the request's filters |
| Vehicles.ShownRowWithin | app.py:183-216 | a displayed record of a matching row has its kilometres and its USD price within the requested bounds |
| Tables.LastIndex | autoAM/scrapping/scrap_pages.py:177-182 | the position of the last row of the batch with a key, none after it having that key |
| Tables.ReplaceAllAt | autoAM/scrapping/scrap_pages.py:177-182 | after `INSERT OR REPLACE` of a batch, a key is present exactly when it was present or is in the batch; a batch key holds the batch's last row for it, and every other key keeps its row |
| Tables.BatchKeys | autoAM/scrapping/scrap_pages.py:177-182 | the set of the batch's keys |
| Tables.ReplaceAllCount | autoAM/scrapping/scrap_pages.py:177-182 | the row count grows by the number of new distinct keys |
| Tables.ReplaceAllIdempotent | autoAM/scrapping/scrap_pages.py:177-182 | saving the same batch twice leaves the same rows as saving it once |
| Tables.ReplaceAllAppend | autoAM/scrapping/scrap_pages.py:208-213 | saving two batches one after the other is saving their concatenation |
| Tables.HasKeySnoc | autoAM/scrapping/scrap_listings.py:127-133 | appending a row adds exactly its key |
| Tables.InsertOrIgnoreStep | autoAM/scrapping/scrap_listings.py:127-133 | `INSERT OR IGNORE` of one row keeps keys unique and appends it exactly when its key is new |
| Tables.InsertOrIgnoreAllSpec | autoAM/scrapping/scrap_listings.py:127-133 | `INSERT OR IGNORE` of a batch keeps keys unique and existing rows unchanged, and a new key takes the batch's first row for it |
| Tables.InsertOrIgnoreAllKeys | autoAM/scrapping/scrap_listings.py:127-133 | after the batch, a key is present exactly when it was present or is in the batch |
| Tables.InsertOrIgnoreAllAppend | autoAM/scrapping/scrap_listings.py:161-169 | inserting two batches in turn is inserting their concatenation |
| Tables.FirstIndexPrefix | autoAM/scrapping/scrap_listings.py:127-133 | extending a batch does not move the first row of a key it already holds |
| Tables.FirstIndexAfter | autoAM/scrapping/scrap_listings.py:127-133 | a row whose key is new is the first row of that key |
| Enrichment.TaggedCars | autoAM/scrapping/scrap_listings.py:56-58 | the distinct car ids of the tags table |
| Enrichment.PendingIds | autoAM/scrapping/scrap_listings.py:44-64 | a car is pending exactly when it is in the cars table and no tag row names it |
| Enrichment.Prune | autoAM/scrapping/scrap_listings.py:103-105 | after pruning no hidden element remains below the node, which keeps its kind and style |
| Enrichment.PruneAll | autoAM/scrapping/scrap_listings.py:103-105 | pruning children leaves no hidden element among them and never adds children |
| Enrichment.PruneKeepsVisible | autoAM/scrapping/scrap_listings.py:103-105 | pruning a node without hidden elements changes nothing |
| Enrichment.PruneAllKeepsVisible | autoAM/scrapping/scrap_listings.py:103-105 | pruning children without hidden elements changes nothing |
| Enrichment.PruneIdempotent | autoAM/scrapping/scrap_listings.py:103-105 | pruning twice is pruning once |
| Enrichment.HiddenTextDropped | autoAM/scrapping/scrap_listings.py:103-107 | the text of a hidden span does not reach the value; only the visible text, stripped, does |
| Enrichment.TwoCellRows | autoAM/scrapping/scrap_listings.py:94-96 | only rows with exactly two cells are kept |
| Enrichment.TwoCellRowsMember | autoAM/scrapping/scrap_listings.py:94-96 | a row is kept exactly when it is a row of the table with two cells |
| Enrichment.TagsOf | autoAM/scrapping/scrap_listings.py:90-113 | one tag per two-cell row, in row order, each carrying the requested car id |
| Enrichment.TagsOfSnoc | autoAM/scrapping/scrap_listings.py:94-113 | one more row adds its tag exactly when it has two cells |
| Enrichment.CollectTags | autoAM/scrapping/scrap_listings.py:90-113 | the row loop produces the tags of the two-cell rows in order |
| Enrichment.ScrapeDetails | autoAM/scrapping/scrap_listings.py:66-119 | the fetch gives None for a 404 or a page without the table, [] for an exception, another non-200 status or a table without a body, and otherwise the rows' tags |
| Enrichment.DetailsOutcomes | autoAM/scrapping/scrap_listings.py:73-119 | None exactly for a 404 or a 200 page without the table; tags only from a 200 page whose table has a body, each naming the requested car |
| Enrichment.TagTable.SaveTags | autoAM/scrapping/scrap_listings.py:121-142 | `INSERT OR IGNORE` of the batch under the unique key: keys stay unique, existing rows stay, and an empty batch changes nothing whatever car id is passed |
| Enrichment.Saved | autoAM/scrapping/scrap_listings.py:161-169 | the non-None results in completion order, never more than the cars |
| Enrichment.HandleResults | autoAM/scrapping/scrap_listings.py:155-177 | `processed_count` is the number of non-None results, only those are saved, in completion order, and the unique key holds |
| Enrichment.NamesAppend | autoAM/scrapping/scrap_listings.py:161-169 | a concatenation of tag lists names a car exactly when one of them does |
| Enrichment.SavedCars | autoAM/scrapping/scrap_listings.py:161-169 | the saved tags name a car exactly when it completed with a non-empty tag list |
| Enrichment.TaggedAfterInsert | autoAM/scrapping/scrap_listings.py:56-58 | after inserting a batch, a car has tags exactly when it had tags before or the batch names it |
| Enrichment.PendingAfterRun | autoAM/scrapping/scrap_listings.py:44-177 | after a run a car is pending exactly when it was pending and did not get a stored tag; a 404, a missing table or an empty list leave it pending |
| Crawl.PriceFields | autoAM/scrapping/scrap_pages.py:134-149 | the currency is a prefix of the original price text, unless both are the ("?", "") default |
| Crawl.ExtractCard | autoAM/scrapping/scrap_pages.py:114-160 | a card without the link is skipped; with it, a missing location div or year span raises; otherwise the row has the link's data-id, data-brand, data-model and data-price, `taxed` exactly when the green span is present, the year text and the price fields |
| Crawl.CurrencyIsFirstWord | autoAM/scrapping/scrap_pages.py:134-149 | the price text is the text of the first span of `div.price`, or of `div.ad-mob-price` only when there is no `div.price`; the fields are ("?", "") exactly when that div or its span is missing; the currency has no space and is the whole price text when the text has none, or the part before its first space |
| Crawl.FirstWord | autoAM/scrapping/scrap_pages.py:146-149 | the first piece of `split(' ')` is the text up to the first space |
| Crawl.CardRows | autoAM/scrapping/scrap_pages.py:113-160 | a card loop that completes gives at most one row per card |
| Crawl.CardRowsRaise | autoAM/scrapping/scrap_pages.py:113-166 | a page's card loop fails, and the page gives [], exactly when one of its cards raises |
| Crawl.CardRowsCount | autoAM/scrapping/scrap_pages.py:113-162 | a page without a raising card gives at most one row per card, each from one of its cards, and every linked card's row is among them |
| Crawl.CardRowsSingle | autoAM/scrapping/scrap_pages.py:114-160 | one card alone gives no row when skipped, a failed loop when it raises, and otherwise exactly its row |
| Crawl.CardRowsAppend | autoAM/scrapping/scrap_pages.py:113-162 | the rows of consecutive runs of cards concatenate in card order, and the loop fails exactly when one run fails |
| Crawl.PageCars | autoAM/scrapping/scrap_pages.py:96-166 | an exception or a non-200 status gives [], a card that raises empties the whole page, and otherwise a 200 page gives the rows of its card loop (stated card by card by CardRowsSingle and CardRowsAppend) |
| Crawl.PageNumbers | autoAM/scrapping/scrap_pages.py:203-206 | the pages submitted are 1..200 |
| Crawl.CountCars | autoAM/scrapping/scrap_pages.py:208-214 | the total is the number of rows the pages returned |
| Crawl.EmptyStreak | autoAM/scrapping/scrap_pages.py:212-221 | the streak never exceeds the number of pages handled |
| Crawl.RangeStep | autoAM/scrapping/scrap_pages.py:211-221 | a completed page appends its rows and adds their number to the total; a page with rows resets the streak and an empty one extends it by one |
| Crawl.CountCarsAppend | autoAM/scrapping/scrap_pages.py:208-214 | the total splits over consecutive parts of the completion order |
| Crawl.CountCarsPermutation | autoAM/scrapping/scrap_pages.py:208-214 | two completion orders of the same pages give the same total |
| Crawl.TotalIsOrderFree | autoAM/scrapping/scrap_pages.py:201-214 | whatever the completion order, the total is that of pages 1..200 |
| Crawl.Crawler.ScrapePage | autoAM/scrapping/scrap_pages.py:74-166 | [] at once while the stop flag is set; otherwise [] for an exception, a non-200 status, no cards or a card that raises, and the linked cards' rows in order |
| Crawl.Crawler.SaveBatch | autoAM/scrapping/scrap_pages.py:168-189 | `INSERT OR REPLACE` of each car in order; an empty batch changes nothing |
| Crawl.Crawler.RunPriceRange | autoAM/scrapping/scrap_pages.py:191-225 | clears the stop flag; the table ends as if the pages' rows were saved in completion order; the total is the number of cars of pages 1..200; the streak counts the empty pages since the last non-empty one |
| Crawl.Crawler.CrawlAll | autoAM/scrapping/scrap_pages.py:227-232 | the brackets run in `PRICE_RANGES` order, and the table ends as if every bracket's rows were saved in that order |
| ListAm.ItemId | listAM/scrap.py:86-92 | a link is skipped exactly when it has no non-empty href or the href does not contain "/item/", and an id never holds a '?' |
| ListAm.ItemIdAfterMarker | listAM/scrap.py:90 | the id is the text after the first "/item/" up to the first '?', the next "/item/" or the end; it holds no '?' and no "/item/" starts inside it |
| ListAm.ItemIdRoundTrip | listAM/scrap.py:90 | an href of a prefix, "/item/", an id without "/item/" or '?' and an optional query gives back that id |
| ListAm.ImageSrc | listAM/scrap.py:94-101 | the stored image URL is never empty and never protocol-relative |
| ListAm.ImageSrcCases | listAM/scrap.py:94-101 | "N/A" without an image or a usable source; otherwise the non-empty `data-original` before `src`, with "https:" in front exactly when it starts with "//" |
| ListAm.LinkItem | listAM/scrap.py:86-107 | a link gives a row exactly when its href exists and contains "/item/", and the row carries the link's item id |
| ListAm.LinkItemFields | listAM/scrap.py:94-107 | an accepted link's row has its id and image, and each missing p, l or at div gives "N/A" |
| ListAm.PageItemsAppend | listAM/scrap.py:83-107 | rows follow link order across containers: the rows of consecutive link lists are concatenated |
| ListAm.PageItemsFromLinks | listAM/scrap.py:86-107 | at most one row per link, each from an accepted link; no accepted link gives no rows |
| ListAm.ExtractItems | listAM/scrap.py:81-107 | the page's rows are those of all containers' links, gathered in order |
| ListAm.PageUrl | listAM/scrap.py:54 | every page URL lies under the category URL |
| ListAm.PageUrlInjective | listAM/scrap.py:54 | distinct pages load distinct URLs |
| ListAm.EmptyPageSavesNothing | listAM/scrap.py:73-78 | a page without containers adds no rows |
| ListAm.ItemTable.SaveItems | listAM/scrap.py:28-40 | `INSERT OR REPLACE` of each tuple in order, so the last tuple of an id wins and other ids keep their rows; an empty list changes nothing |
| ListAm.ScrapeAll | listAM/scrap.py:52-111 | pages 1..250 in order; the table ends as if every page's rows were saved in page order |

## Left out

- HTTP, the Chrome driver, Cloudflare waits, sleeps, random scrolling, logging and printing are left out. A fetch's outcome is an input: a parsed response, a completion order or a URL → containers function.
- BeautifulSoup traversal is left out. Cards, rows, cells, links and images are abstract parsed structures, and `get_text(strip=True)` of a cell is reduced to the node model of `Enrichment`.
- `update_rates` (app.py:13-27) is left out because it fetches live rates over the network. The rate table is a parameter, with the built-in defaults as `Extractors.DefaultRates`.
- Floating point is left out. Prices are exact reals, and the miles conversion is exact integer arithmetic (`n × 160934 / 100000`, truncated), so float rounding of very large numbers is not captured.
- Request arguments arrive parsed. An `int()` or `float()` of a malformed query parameter, which raises before the query runs, is not modelled.
- `LIKE` is modelled as a case-insensitive substring test on ASCII letters. `%` and `_` inside a user's term, and SQLite's case folding of non-ASCII letters, are not modelled.
- SQLite column affinity (`price REAL` and `year INT` converting text) is left out: `year` and every price text are stored as strings. In the `cars` table, `brand`, `model` and `price` may be NULL (an `Option`) and `taxed` is a boolean. The `items` and `tags` columns are never NULL in the model, and a card's `data-id` is assumed present, so a NULL primary key is not modelled.
- The `scraped_at` default timestamp of the `cars` table is left out. Saving the same batch twice is therefore exact equality.
- `sqlite3.Error` paths (`save_batch`, `save_tags`, the `DB Error` of `save_items`) are left out. Every write succeeds.
- An exception escaping the list.am page loop (the `Critical Error` path, which ends the crawl early) is not modelled.
- Thread interleaving and the database lock are left out. Only the order in which results complete matters, and that order is an input.
- `stop_current_range` is only ever reset to False in `scrap_pages.py`. Its set-branch is modelled in `ScrapePage` but never reached by `RunPriceRange`.
- `str.isdigit`, the regex class `\d` (app.py:38, app.py:56, app.py:77), `str.lower` and `re.IGNORECASE` are modelled on ASCII: Unicode decimal digits such as fullwidth "１２３", which Python's `\d` and `float()` accept, are not digits in the model. `str.isspace` is modelled on its full whitespace set.
- Extractors.TitleRoundTrip: is proved for titles whose make and model are non-empty, whose make has no space, and whose fields have no comma and no surrounding whitespace. Some other titles also read back (an empty model, as in "2020 Toyota , 2.5L"), and some do not (a make with a space, or a field with a comma). The lemma does not separate these.
- ListAm.ItemIdRoundTrip: requires an id without "/item/" and no "/item/" before the marker, because either of these changes which piece `split('/item/')` returns. A slash alone in the id does not, so "…/item/12/3" gives "12/3".
- The Streamlit UI (`autoAM/web/app.py`), the CatBoost training (`autoAM/boosting/cat_alg.py`) and the pandas merge (`autoAM/scrapping/combine.py`) are not part of this model.

=== FILE: crawl.dfy ===
/**
  The auto.am search crawl (autoAM/scrapping/scrap_pages.py): each price bracket is crawled over
  result pages 1..200; every page's cards become car rows, written INSERT OR REPLACE on the car id;
  per bracket the crawl keeps a running total of cars and a streak of empty pages. The site is a
  function from a search request to the parsed response; the thread pool's completion order is an
  input that lists every page once.
*/
module Crawl {
  import opened Wrappers
  import opened PyStrings
  import opened Schema
  import opened Tables

  const MaxPagesPerRange: nat := 200

  /** The price brackets, crawled in this order; they share the 20000 boundary. */
  const PriceRanges: seq<(int, int)> := [(1, 20000), (20000, 50000000)]

  // ---------------------------------------------------------------------------
  // One result page
  // ---------------------------------------------------------------------------

  /** The `a.click-for-gtag` link of a card and its data attributes (None when absent). */
  datatype Link = Link(dataId: string, brand: Option<string>, model: Option<string>, price: Option<string>)

  /** A price `div`, with the stripped text of its first `span` when it has one. */
  datatype PriceDiv = PriceDiv(spanText: Option<string>)

  /**
    A `div.card`: its link, whether its `div.card-loc` exists and then whether that holds a
    `span.green-text`, the text of its `span.grey-text`, and its `div.price` and `div.ad-mob-price`.
  */
  datatype Card = Card(
    link: Option<Link>,
    cardLoc: Option<bool>,
    greyText: Option<string>,
    priceDiv: Option<PriceDiv>,
    mobPriceDiv: Option<PriceDiv>)

  /** The POST of one page of one bracket. */
  datatype SearchRequest = SearchRequest(page: int, minPrice: int, maxPrice: int)

  /** What the POST produced: an exception, or a status and the cards of the page. */
  datatype PageResponse = Raised | PageResponse(status: int, cards: seq<Card>)

  /** What one card contributes: nothing (no link), an exception (a lookup on a missing element), or a row. */
  datatype Extracted = Skip | Raise | Row(car: CarRow)

  /**
    The currency and the original price text: the price span's text before its first space
    (all of it when it has no space) and the text itself; "?" and "" without a price span.
    `div.ad-mob-price` is consulted only when there is no `div.price`.
  */
  function PriceFields(card: Card): (r: (string, string))
    ensures r == ("?", "") || StartsWith(r.1, r.0)
  {
    var div := if card.priceDiv.Some? then card.priceDiv else card.mobPriceDiv;
    match div
    case None => ("?", "")
    case Some(d) =>
      match d.spanText
      case None => ("?", "")
      case Some(t) => FirstWord(t); (Split(t, " ")[0], t)
  }

  /**
    One card. A card without the link is skipped; with the link, a missing `div.card-loc` or
    `span.grey-text` raises AttributeError; otherwise the row of the link's data, the tax flag,
    the year text and the price fields.
  */
  function ExtractCard(card: Card): (r: Extracted)
    ensures r.Skip? <==> card.link.None?
    ensures r.Raise? <==> card.link.Some? && (card.cardLoc.None? || card.greyText.None?)
    ensures r.Row? ==>
      && r.car.id == card.link.value.dataId
      && r.car.brand == card.link.value.brand
      && r.car.model == card.link.value.model
      && r.car.price == card.link.value.price
      && r.car.taxed == card.cardLoc.value
      && r.car.year == card.greyText.value
      && (r.car.currency, r.car.originalPriceText) == PriceFields(card)
  {
    match card.link
    case None => Skip
    case Some(l) =>
      if card.cardLoc.None? || card.greyText.None? then Raise
      else
        var (currency, text) := PriceFields(card);
        Row(CarRow(l.dataId, l.brand, l.model, l.price, currency, card.cardLoc.value, card.greyText.value, text))
  }

  /** The cards in order; None as soon as one raises. */
  function CardRows(cards: seq<Card>): (r: Option<seq<CarRow>>)
    ensures r.Some? ==> |r.value| <= |cards|
  {
    if cards == [] then Some([])
    else
      match CardRows(cards[..|cards| - 1])
      case None => None
      case Some(rows) =>
        match ExtractCard(cards[|cards| - 1])
        case Skip => Some(rows)
        case Raise => None
        case Row(c) => Some(rows + [c])
  }

  /**
    `scrape_page` once the flag is clear: [] for an exception, a non-200 status, a page without
    cards, or a card that raises; otherwise the rows of the linked cards in order.
  */
  function PageCars(resp: PageResponse): (r: seq<CarRow>)
    ensures resp.Raised? || resp.status != 200 ==> r == []
    ensures resp.PageResponse? ==> |r| <= |resp.cards|
    ensures resp.PageResponse? && (exists i :: 0 <= i < |resp.cards| && ExtractCard(resp.cards[i]).Raise?) ==> r == []
    ensures resp.PageResponse? && resp.status == 200 && CardRows(resp.cards).Some? ==> r == CardRows(resp.cards).value
  {
    match resp
    case Raised => []
    case PageResponse(status, cards) =>
      if status != 200 || cards == [] then []
      else
        CardRowsRaise(cards);
        CardRows(cards).GetOr([])
  }

  /**
    The price text is the text of the first span of `div.price`, or of `div.ad-mob-price` when the
    card has no `div.price`; the fields are ("?", "") exactly when that div or its span is missing.
    The currency is the longest space-free prefix of the price text: the whole text when it has
    no space, and otherwise the part before the first space.
  */
  lemma CurrencyIsFirstWord(card: Card)
    ensures card.priceDiv.Some? && card.priceDiv.value.spanText.Some? ==>
      PriceFields(card).1 == card.priceDiv.value.spanText.value
    ensures card.priceDiv.None? && card.mobPriceDiv.Some? && card.mobPriceDiv.value.spanText.Some? ==>
      PriceFields(card).1 == card.mobPriceDiv.value.spanText.value
    ensures PriceFields(card) == ("?", "") <==>
      || (card.priceDiv.Some? && card.priceDiv.value.spanText.None?)
      || (card.priceDiv.None? && (card.mobPriceDiv.None? || card.mobPriceDiv.value.spanText.None?))
    ensures card.priceDiv.Some? ==> PriceFields(card) == PriceFields(card.(mobPriceDiv := None))
    ensures var (currency, text) := PriceFields(card);
      && ' ' !in currency
      && (' ' !in text ==> currency == text || (currency == "?" && text == ""))
      && (' ' in text ==> |currency| < |text| && text[..|currency|] == currency && text[|currency|] == ' ')
  {
    var div := if card.priceDiv.Some? then card.priceDiv else card.mobPriceDiv;
    if div.Some? && div.value.spanText.Some? {
      var t := div.value.spanText.value;
      FirstWord(t);
    }
  }

  lemma FirstWord(t: string)
    ensures ' ' !in Split(t, " ")[0]
    ensures ' ' !in t ==> Split(t, " ")[0] == t
    ensures ' ' in t ==> var c := Split(t, " ")[0]; |c| < |t| && t[..|c|] == c && t[|c|] == ' '
  {
    var c := Split(t, " ")[0];
    SplitPiecesFree(t, " ");
    ContainsChar(c, ' ');
    SplitFirstPiece(t, " ");
    ContainsChar(t, ' ');
    if ' ' in t {
      var i := Find(t, " ").value;
      assert t[i..i + 1] == " ";
    }
  }

  /** A page fails as a whole exactly when one of its cards raises. */
  lemma {:induction false} CardRowsRaise(cards: seq<Card>)
    ensures CardRows(cards).None? <==> exists i :: 0 <= i < |cards| && ExtractCard(cards[i]).Raise?
  {
    if cards != [] {
      var init := cards[..|cards| - 1];
      CardRowsRaise(init);
      if exists i :: 0 <= i < |init| && ExtractCard(init[i]).Raise? {
        var i :| 0 <= i < |init| && ExtractCard(init[i]).Raise?;
        assert cards[i] == init[i];
      }
      if exists i :: 0 <= i < |cards| && ExtractCard(cards[i]).Raise? {
        var i :| 0 <= i < |cards| && ExtractCard(cards[i]).Raise?;
        if i < |init| {
          assert init[i] == cards[i];
        }
      }
    }
  }

  /**
    A page without any card that raises gives one row per linked card: never more rows than
    cards, every row from one of the cards, and every linked card's row among them.
  */
  lemma {:induction false} CardRowsCount(cards: seq<Card>)
    requires CardRows(cards).Some?
    ensures |CardRows(cards).value| <= |cards|
    ensures forall c :: c in CardRows(cards).value ==> exists i :: 0 <= i < |cards| && ExtractCard(cards[i]) == Row(c)
    ensures forall i :: 0 <= i < |cards| && ExtractCard(cards[i]).Row? ==> ExtractCard(cards[i]).car in CardRows(cards).value
  {
    if cards != [] {
      var init := cards[..|cards| - 1];
      CardRowsCount(init);
      forall c | c in CardRows(init).value
        ensures exists i :: 0 <= i < |cards| && ExtractCard(cards[i]) == Row(c)
      {
        var i :| 0 <= i < |init| && ExtractCard(init[i]) == Row(c);
        assert cards[i] == init[i];
      }
      forall i | 0 <= i < |cards| && ExtractCard(cards[i]).Row?
        ensures ExtractCard(cards[i]).car in CardRows(cards).value
      {
        if i < |init| {
          assert init[i] == cards[i];
        }
      }
    }
  }

  /** One card on its own: no row when it is skipped, a failed page when it raises, else its row. */
  lemma CardRowsSingle(card: Card)
    ensures CardRows([card]) ==
      match ExtractCard(card)
      case Skip => Some([])
      case Raise => None
      case Row(c) => Some([c])
  {
    assert [card][..0] == [];
    assert CardRows([]) == Some([]);
    if ExtractCard(card).Row? {
      assert [] + [ExtractCard(card).car] == [ExtractCard(card).car];
    }
  }

  /**
    The rows of consecutive runs of cards concatenate, in card order; the whole fails exactly
    when one of the runs does.
  */
  lemma {:induction false} CardRowsAppend(a: seq<Card>, b: seq<Card>)
    ensures CardRows(a + b) ==
      if CardRows(a).Some? && CardRows(b).Some? then Some(CardRows(a).value + CardRows(b).value) else None
    decreases |b|
  {
    if b == [] {
      assert a + b == a;
      assert CardRows(b) == Some([]);
      if CardRows(a).Some? {
        assert CardRows(a).value + [] == CardRows(a).value;
      }
    } else {
      var init := b[..|b| - 1];
      var last := b[|b| - 1];
      assert (a + b)[..|a + b| - 1] == a + init;
      assert (a + b)[|a + b| - 1] == last;
      CardRowsAppend(a, init);
      if CardRows(a).Some? && CardRows(init).Some? && ExtractCard(last).Row? {
        var x, y, c := CardRows(a).value, CardRows(init).value, ExtractCard(last).car;
        assert (x + y) + [c] == x + (y + [c]);
      }
    }
  }

  lemma CardRowsStep(cards: seq<Card>, i: nat)
    requires i < |cards|
    ensures CardRows(cards[..i + 1]) ==
      match CardRows(cards[..i])
      case None => None
      case Some(rows) =>
        match ExtractCard(cards[i])
        case Skip => Some(rows)
        case Raise => None
        case Row(c) => Some(rows + [c])
  {
    assert cards[..i + 1][..i] == cards[..i];
  }

  // ---------------------------------------------------------------------------
  // A price bracket
  // ---------------------------------------------------------------------------

  /** Pages 1..200, the pages submitted for every bracket. */
  function PageNumbers(): (ps: seq<int>)
    ensures |ps| == MaxPagesPerRange
    ensures forall i :: 0 <= i < |ps| ==> ps[i] == i + 1
  {
    seq(MaxPagesPerRange, i => i + 1)
  }

  /** The completion order lists each submitted page exactly once. */
  predicate CompletionOrder(order: seq<int>) {
    multiset(order) == multiset(PageNumbers())
  }

  /** The rows each page in the order contributes, one after another. */
  function RangeCars(order: seq<int>, minP: int, maxP: int, site: SearchRequest -> PageResponse): seq<CarRow> {
    if order == [] then []
    else RangeCars(order[..|order| - 1], minP, maxP, site) + PageCars(site(SearchRequest(order[|order| - 1], minP, maxP)))
  }

  /** The number of cars the pages of the order returned. */
  function CountCars(order: seq<int>, minP: int, maxP: int, site: SearchRequest -> PageResponse): (n: nat)
    ensures n == |RangeCars(order, minP, maxP, site)|
  {
    if order == [] then 0
    else CountCars(order[..|order| - 1], minP, maxP, site) + |PageCars(site(SearchRequest(order[|order| - 1], minP, maxP)))|
  }

  /** The number of empty results since the last non-empty one. */
  function EmptyStreak(order: seq<int>, minP: int, maxP: int, site: SearchRequest -> PageResponse): (n: nat)
    ensures n <= |order|
  {
    if order == [] then 0
    else if PageCars(site(SearchRequest(order[|order| - 1], minP, maxP))) == [] then EmptyStreak(order[..|order| - 1], minP, maxP, site) + 1
    else 0
  }

  /** The count splits over a concatenation of orders. */
  lemma {:induction false} CountCarsAppend(a: seq<int>, b: seq<int>, minP: int, maxP: int, site: SearchRequest -> PageResponse)
    ensures CountCars(a + b, minP, maxP, site) == CountCars(a, minP, maxP, site) + CountCars(b, minP, maxP, site)
    decreases |b|
  {
    if b == [] {
      assert a + b == a;
    } else {
      CountCarsAppend(a, b[..|b| - 1], minP, maxP, site);
      assert (a + b)[..|a + b| - 1] == a + b[..|b| - 1];
    }
  }

  /**
    The bracket's total does not depend on the completion order: any two orders listing the same
    pages count the same cars.
  */
  lemma {:induction false} CountCarsPermutation(a: seq<int>, b: seq<int>, minP: int, maxP: int, site: SearchRequest -> PageResponse)
    requires multiset(a) == multiset(b)
    ensures CountCars(a, minP, maxP, site) == CountCars(b, minP, maxP, site)
    decreases |a|
  {
    if a != [] {
      var x := a[|a| - 1];
      var init := a[..|a| - 1];
      assert x in multiset(b);
      var k :| 0 <= k < |b| && b[k] == x;
      assert multiset(init) == multiset(b[..k] + b[k + 1..]) by {
        RemoveAt(b, k);
        RemoveAt(a, |a| - 1);
        assert a[..|a| - 1] + a[|a|..] == init;
      }
      CountCarsPermutation(init, b[..k] + b[k + 1..], minP, maxP, site);
      CountCarsRemove(a, |a| - 1, minP, maxP, site);
      CountCarsRemove(b, k, minP, maxP, site);
    }
  }

  /** Taking one page out of an order takes its cars out of the count. */
  lemma CountCarsRemove(s: seq<int>, k: nat, minP: int, maxP: int, site: SearchRequest -> PageResponse)
    requires k < |s|
    ensures CountCars(s, minP, maxP, site) == CountCars(s[..k] + s[k + 1..], minP, maxP, site) + CountCars([s[k]], minP, maxP, site)
  {
    assert s == s[..k] + ([s[k]] + s[k + 1..]);
    CountCarsAppend(s[..k], [s[k]] + s[k + 1..], minP, maxP, site);
    CountCarsAppend([s[k]], s[k + 1..], minP, maxP, site);
    CountCarsAppend(s[..k], s[k + 1..], minP, maxP, site);
  }

  /** Removing one element of a sequence removes one occurrence of it from its multiset. */
  lemma RemoveAt(s: seq<int>, k: nat)
    requires k < |s|
    ensures multiset(s[..k] + s[k + 1..]) == multiset(s) - multiset{s[k]}
  {
    assert s == s[..k] + [s[k]] + s[k + 1..];
  }

  /** Every completion order counts the cars of pages 1..200 in page order. */
  lemma TotalIsOrderFree(order: seq<int>, minP: int, maxP: int, site: SearchRequest -> PageResponse)
    requires CompletionOrder(order)
    ensures CountCars(order, minP, maxP, site) == CountCars(PageNumbers(), minP, maxP, site)
  {
    CountCarsPermutation(order, PageNumbers(), minP, maxP, site);
  }

  /**
    One more completed page appends its rows, adds their number to the count, and resets the
    streak when it has rows or extends it by one when it has none.
  */
  lemma RangeStep(order: seq<int>, i: nat, minP: int, maxP: int, site: SearchRequest -> PageResponse)
    requires i < |order|
    ensures var found := PageCars(site(SearchRequest(order[i], minP, maxP)));
      && RangeCars(order[..i + 1], minP, maxP, site) == RangeCars(order[..i], minP, maxP, site) + found
      && CountCars(order[..i + 1], minP, maxP, site) == CountCars(order[..i], minP, maxP, site) + |found|
      && EmptyStreak(order[..i + 1], minP, maxP, site) == if found == [] then EmptyStreak(order[..i], minP, maxP, site) + 1 else 0
  {
    assert order[..i + 1][..i] == order[..i];
  }

  /** The rows of every bracket in `PRICE_RANGES` order, each bracket with its completion order. */
  function CrawlCars(orders: seq<seq<int>>, site: SearchRequest -> PageResponse): seq<CarRow>
    requires |orders| <= |PriceRanges|
  {
    if orders == [] then []
    else
      var r := |orders| - 1;
      CrawlCars(orders[..r], site) + RangeCars(orders[r], PriceRanges[r].0, PriceRanges[r].1, site)
  }

  lemma CrawlStep(orders: seq<seq<int>>, r: nat, site: SearchRequest -> PageResponse)
    requires r < |orders| <= |PriceRanges|
    ensures CrawlCars(orders[..r + 1], site) ==
      CrawlCars(orders[..r], site) + RangeCars(orders[r], PriceRanges[r].0, PriceRanges[r].1, site)
  {
    assert orders[..r + 1][..r] == orders[..r];
  }

  // ---------------------------------------------------------------------------
  // The crawler state: the cars table and the stop flag
  // ---------------------------------------------------------------------------

  class Crawler {
    /** The global `stop_current_range` flag. */
    var stopCurrentRange: bool
    /** The `cars` table, keyed by car id. */
    var cars: map<string, CarRow>

    constructor ()
      ensures !stopCurrentRange && cars == map[]
    {
      stopCurrentRange := false;
      cars := map[];
    }

    /** `scrape_page`: [] at once while the flag is set; otherwise the page's rows, card by card. */
    method ScrapePage(pageNum: int, minPrice: int, maxPrice: int, site: SearchRequest -> PageResponse)
      returns (extractedData: seq<CarRow>)
      ensures stopCurrentRange ==> extractedData == []
      ensures !stopCurrentRange ==> extractedData == PageCars(site(SearchRequest(pageNum, minPrice, maxPrice)))
    {
      if stopCurrentRange {
        return [];
      }
      var resp := site(SearchRequest(pageNum, minPrice, maxPrice));
      if resp.Raised? || resp.status != 200 || resp.cards == [] {
        return [];
      }
      var cards := resp.cards;
      extractedData := [];
      for i := 0 to |cards|
        invariant CardRows(cards[..i]) == Some(extractedData)
      {
        CardRowsStep(cards, i);
        match ExtractCard(cards[i])
        case Skip =>
        case Raise =>
          CardRowsRaise(cards[..i + 1]);
          var j :| 0 <= j < i + 1 && ExtractCard(cards[..i + 1][j]).Raise?;
          assert cards[..i + 1][j] == cards[j];
          CardRowsRaise(cards);
          return [];
        case Row(c) =>
          extractedData := extractedData + [c];
      }
      assert cards[..|cards|] == cards;
    }

    /**
      `save_batch`: INSERT OR REPLACE of each car in batch order, so each car id ends up with the
      batch's last row for it and every other row stays; an empty batch changes nothing.
    */
    method SaveBatch(batch: seq<CarRow>)
      modifies this`cars
      ensures cars == ReplaceAll(old(cars), CarKey, batch)
      ensures batch == [] ==> cars == old(cars)
    {
      if batch == [] {
        return;
      }
      ghost var start := cars;
      for i := 0 to |batch|
        invariant cars == ReplaceAll(start, CarKey, batch[..i])
      {
        assert batch[..i + 1][..i] == batch[..i];
        cars := cars[batch[i].id := batch[i]];
      }
      assert batch[..|batch|] == batch;
    }

    /**
      `run_price_range`: clears the flag, then handles the pages as they complete; a non-empty
      page is saved, adds its cars to the total and resets the empty streak, an empty one extends
      the streak. The table ends as if the pages' rows were written in completion order.
    */
    method RunPriceRange(minP: int, maxP: int, order: seq<int>, site: SearchRequest -> PageResponse)
      returns (totalCarsInRange: nat, emptyPageStreak: nat)
      requires CompletionOrder(order)
      modifies this
      ensures !stopCurrentRange
      ensures cars == ReplaceAll(old(cars), CarKey, RangeCars(order, minP, maxP, site))
      ensures totalCarsInRange == CountCars(PageNumbers(), minP, maxP, site)
      ensures emptyPageStreak == EmptyStreak(order, minP, maxP, site)
    {
      stopCurrentRange := false;
      emptyPageStreak := 0;
      totalCarsInRange := 0;
      ghost var start := cars;
      for i := 0 to |order|
        invariant !stopCurrentRange
        invariant cars == ReplaceAll(start, CarKey, RangeCars(order[..i], minP, maxP, site))
        invariant totalCarsInRange == CountCars(order[..i], minP, maxP, site)
        invariant emptyPageStreak == EmptyStreak(order[..i], minP, maxP, site)
      {
        var page := order[i];
        RangeStep(order, i, minP, maxP, site);
        var found := ScrapePage(page, minP, maxP, site);
        if found != [] {
          ReplaceAllAppend(start, CarKey, RangeCars(order[..i], minP, maxP, site), found);
          SaveBatch(found);
          totalCarsInRange := totalCarsInRange + |found|;
          emptyPageStreak := 0;
        } else {
          assert RangeCars(order[..i], minP, maxP, site) + found == RangeCars(order[..i], minP, maxP, site);
          emptyPageStreak := emptyPageStreak + 1;
        }
      }
      assert order[..|order|] == order;
      TotalIsOrderFree(order, minP, maxP, site);
    }

    /** `main`: the brackets strictly in `PRICE_RANGES` order. */
    method CrawlAll(orders: seq<seq<int>>, site: SearchRequest -> PageResponse)
      requires |orders| == |PriceRanges|
      requires forall r :: 0 <= r < |orders| ==> CompletionOrder(orders[r])
      modifies this
      ensures !stopCurrentRange
      ensures cars == ReplaceAll(old(cars), CarKey, CrawlCars(orders, site))
    {
      ghost var start := cars;
      stopCurrentRange := false;
      for r := 0 to |PriceRanges|
        invariant !stopCurrentRange
        invariant cars == ReplaceAll(start, CarKey, CrawlCars(orders[..r], site))
      {
        var minPrice, maxPrice := PriceRanges[r].0, PriceRanges[r].1;
        CrawlStep(orders, r, site);
        ReplaceAllAppend(start, CarKey, CrawlCars(orders[..r], site), RangeCars(orders[r], minPrice, maxPrice, site));
        var _, _ := RunPriceRange(minPrice, maxPrice, orders[r], site);
      }
      assert orders[..|PriceRanges|] == orders;
    }
  }
}

=== FILE: enrichment.dfy ===
/**
  The auto.am detail scraper (autoAM/scrapping/scrap_listings.py): which cars still need their
  details, how one detail page becomes tag rows, how tags are stored under the
  UNIQUE(car_id, attribute) constraint, and how the results of a run are handled. A run can be
  stopped and restarted: the cars still pending are the ones without any tag row.
  HTTP is an input (the response a fetch produced); the thread pool is an input too (the order
  in which the fetches completed).
*/
module Enrichment {
  import opened Wrappers
  import opened PyStrings
  import opened Schema
  import opened Tables

  // ---------------------------------------------------------------------------
  // The resume set
  // ---------------------------------------------------------------------------

  /** `SELECT DISTINCT car_id FROM tags`. */
  function TaggedCars(tags: seq<TagRow>): (ids: set<string>)
    ensures forall id :: id in ids <==> exists i :: 0 <= i < |tags| && tags[i].carId == id
  {
    set i | 0 <= i < |tags| :: tags[i].carId
  }

  /**
    `get_pending_ids`: the ids of the cars table that no tag row mentions; a set, so each id
    comes once.
  */
  function PendingIds(cars: map<string, CarRow>, tags: seq<TagRow>): (pending: set<string>)
    ensures forall id :: id in pending <==> id in cars && forall i :: 0 <= i < |tags| ==> tags[i].carId != id
  {
    cars.Keys - TaggedCars(tags)
  }

  // ---------------------------------------------------------------------------
  // The detail page
  // ---------------------------------------------------------------------------

  /** A parsed HTML node: a text string, or an element with its style attribute and children. */
  datatype Node = Text(text: string) | Element(style: Option<string>, children: seq<Node>)

  /** The elements `find_all(style=lambda s: s and 'none' in s)` selects. */
  predicate Hidden(n: Node) {
    n.Element? && n.style.Some? && Contains(n.style.value, "none")
  }

  /** No element below n (n itself excluded) is hidden. */
  predicate NoHiddenBelow(n: Node)
    decreases n
  {
    match n
    case Text(_) => true
    case Element(_, cs) => NoHiddenIn(cs)
  }

  predicate NoHiddenIn(cs: seq<Node>)
    decreases cs
  {
    forall i :: 0 <= i < |cs| ==> !Hidden(cs[i]) && NoHiddenBelow(cs[i])
  }

  /** The node after every hidden element below it has been decomposed. */
  function Prune(n: Node): (r: Node)
    ensures NoHiddenBelow(r)
    ensures r.Element? <==> n.Element?
    ensures n.Element? ==> r.style == n.style
    decreases n
  {
    match n
    case Text(_) => n
    case Element(st, cs) => Element(st, PruneAll(cs))
  }

  function PruneAll(cs: seq<Node>): (r: seq<Node>)
    ensures NoHiddenIn(r)
    ensures |r| <= |cs|
    decreases cs
  {
    if cs == [] then []
    else
      var rest := PruneAll(cs[1..]);
      if Hidden(cs[0]) then rest else [Prune(cs[0])] + rest
  }

  /** Decomposing removes nothing from a node that has no hidden element below it. */
  lemma {:induction false} PruneKeepsVisible(n: Node)
    requires NoHiddenBelow(n)
    ensures Prune(n) == n
    decreases n
  {
    match n
    case Text(_) =>
    case Element(st, cs) => PruneAllKeepsVisible(cs);
  }

  lemma {:induction false} PruneAllKeepsVisible(cs: seq<Node>)
    requires NoHiddenIn(cs)
    ensures PruneAll(cs) == cs
    decreases cs
  {
    if cs != [] {
      PruneKeepsVisible(cs[0]);
      PruneAllKeepsVisible(cs[1..]);
      assert [cs[0]] + cs[1..] == cs;
    }
  }

  /** Decomposing the hidden elements twice is decomposing them once. */
  lemma PruneIdempotent(n: Node)
    ensures Prune(Prune(n)) == Prune(n)
  {
    PruneKeepsVisible(Prune(n));
  }

  /** `get_text(strip=True)`: every text string below the node, stripped, concatenated. */
  function GetText(n: Node): string
    decreases n
  {
    match n
    case Text(t) => Strip(t)
    case Element(_, cs) => GetTextAll(cs)
  }

  function GetTextAll(cs: seq<Node>): string
    decreases cs
  {
    if cs == [] then "" else GetText(cs[0]) + GetTextAll(cs[1..])
  }

  /**
    The text of a value cell: its visible text strings, stripped; what a hidden element holds
    (the JSON the page hides there) contributes nothing.
  */
  lemma HiddenTextDropped(st: Option<string>, visible: string, hiddenStyle: string, hidden: seq<Node>)
    requires Contains(hiddenStyle, "none")
    ensures GetText(Prune(Element(st, [Text(visible), Element(Some(hiddenStyle), hidden)]))) == Strip(visible)
  {
    var cs := [Text(visible), Element(Some(hiddenStyle), hidden)];
    assert cs[1..][1..] == [];
    assert PruneAll(cs[1..]) == [];
    assert PruneAll(cs) == [Text(visible)];
    assert GetTextAll([Text(visible)]) == Strip(visible) + GetTextAll([]);
  }

  /** One `tr`: the `td` cells `find_all('td')` found in it. */
  type CellRow = seq<Node>

  /** The tag of a two-cell row: the first cell's text is the attribute, the second cell's visible text the value. */
  function TagOf(carId: string, cells: CellRow): TagRow
    requires |cells| == 2
  {
    TagRow(carId, GetText(cells[0]), GetText(Prune(cells[1])))
  }

  /** The rows with exactly two cells, in row order. */
  function TwoCellRows(rows: seq<CellRow>): (two: seq<CellRow>)
    ensures |two| <= |rows|
    ensures forall k :: 0 <= k < |two| ==> |two[k]| == 2
  {
    if rows == [] then []
    else
      var init := TwoCellRows(rows[..|rows| - 1]);
      var last := rows[|rows| - 1];
      if |last| == 2 then init + [last] else init
  }

  /** The filter keeps exactly the rows with two cells. */
  lemma {:induction false} TwoCellRowsMember(rows: seq<CellRow>, x: CellRow)
    ensures x in TwoCellRows(rows) <==> x in rows && |x| == 2
  {
    if rows != [] {
      var init := rows[..|rows| - 1];
      TwoCellRowsMember(init, x);
      assert rows == init + [rows[|rows| - 1]];
    }
  }

  /** The tags of a details table: one per two-cell row, in row order, each carrying the requested car id. */
  function TagsOf(carId: string, rows: seq<CellRow>): (tags: seq<TagRow>)
    ensures |tags| == |TwoCellRows(rows)|
    ensures forall k :: 0 <= k < |tags| ==> tags[k] == TagOf(carId, TwoCellRows(rows)[k])
    ensures forall t :: t in tags ==> t.carId == carId
  {
    var two := TwoCellRows(rows);
    seq(|two|, k requires 0 <= k < |two| => TagOf(carId, two[k]))
  }

  lemma TagsOfSnoc(carId: string, rows: seq<CellRow>, i: nat)
    requires i < |rows|
    ensures TagsOf(carId, rows[..i + 1]) ==
      TagsOf(carId, rows[..i]) + (if |rows[i]| == 2 then [TagOf(carId, rows[i])] else [])
  {
    assert rows[..i + 1][..i] == rows[..i];
  }

  /** The loop over the table's rows: a tag for each two-cell row, the others skipped. */
  method CollectTags(carId: string, rows: seq<CellRow>) returns (tags: seq<TagRow>)
    ensures tags == TagsOf(carId, rows)
  {
    tags := [];
    for i := 0 to |rows|
      invariant tags == TagsOf(carId, rows[..i])
    {
      TagsOfSnoc(carId, rows, i);
      if |rows[i]| == 2 {
        tags := tags + [TagOf(carId, rows[i])];
      }
    }
    assert rows[..|rows|] == rows;
  }

  /** The details table: absent, present without a `tbody`, or its rows. */
  datatype DetailsTable = DetailsTable(body: Option<seq<CellRow>>)

  /** What a fetch of the offer page produced: an exception, or a status and the table found in the page. */
  datatype Response = Raised | Response(status: int, table: Option<DetailsTable>)

  /**
    `scrape_details`: None for a 404 or a page without the details table; [] for an exception,
    any other non-200 status or a table without a body; otherwise the tags of its rows.
  */
  function DetailsOf(carId: string, resp: Response): Option<seq<TagRow>> {
    match resp
    case Raised => Some([])
    case Response(status, table) =>
      if status == 404 then None
      else if status != 200 then Some([])
      else
        match table
        case None => None
        case Some(t) =>
          match t.body
          case None => Some([])
          case Some(rows) => Some(TagsOf(carId, rows))
  }

  /** The fetch of one car's details, with the row loop. */
  method ScrapeDetails(carId: string, resp: Response) returns (result: Option<seq<TagRow>>)
    ensures result == DetailsOf(carId, resp)
  {
    if resp.Raised? {
      return Some([]);
    }
    if resp.status == 404 {
      return None;
    }
    if resp.status != 200 {
      return Some([]);
    }
    if resp.table.None? {
      return None;
    }
    var tagsFound: seq<TagRow> := [];
    if resp.table.value.body.Some? {
      tagsFound := CollectTags(carId, resp.table.value.body.value);
    }
    return Some(tagsFound);
  }

  /**
    The outcome cases: None exactly for a 404 or a 200 page without the details table; tags
    only from a 200 page whose table has a body, each tag carrying the requested car id.
  */
  lemma DetailsOutcomes(carId: string, resp: Response)
    ensures DetailsOf(carId, resp).None? <==>
      resp.Response? && (resp.status == 404 || (resp.status == 200 && resp.table.None?))
    ensures DetailsOf(carId, resp).Some? && DetailsOf(carId, resp).value != [] ==>
      resp.Response? && resp.status == 200 && resp.table.Some? && resp.table.value.body.Some?
    ensures DetailsOf(carId, resp).Some? ==> forall t :: t in DetailsOf(carId, resp).value ==> t.carId == carId
  {
  }

  // ---------------------------------------------------------------------------
  // The tags table
  // ---------------------------------------------------------------------------

  /** The `tags` table, rows in insertion (auto-increment id) order. */
  class TagTable {
    var rows: seq<TagRow>

    /** The UNIQUE(car_id, attribute) constraint. */
    ghost predicate Valid()
      reads this
    {
      UniqueKeys(rows, TagKey)
    }

    constructor ()
      ensures rows == [] && Valid()
    {
      rows := [];
    }

    /**
      `save_tags`: INSERT OR IGNORE of the batch, so existing rows keep their values and a new key
      takes its first row of the batch; an empty batch changes nothing, whatever car id is passed.
    */
    method SaveTags(tags: seq<TagRow>, carIdIfEmpty: Option<string>)
      requires Valid()
      modifies this
      ensures Valid()
      ensures rows == InsertOrIgnoreAll(old(rows), TagKey, tags)
      ensures old(rows) <= rows
      ensures tags == [] ==> rows == old(rows)
    {
      if tags != [] {
        InsertOrIgnoreAllSpec(rows, TagKey, tags);
        rows := InsertOrIgnoreAll(rows, TagKey, tags);
      } else if carIdIfEmpty.Some? {
        // A car without tags is deliberately not recorded.
      }
    }
  }

  // ---------------------------------------------------------------------------
  // The result loop of main
  // ---------------------------------------------------------------------------

  /** Every car of the completion order has a recorded response. */
  predicate Answered(order: seq<string>, responses: map<string, Response>) {
    forall i :: 0 <= i < |order| ==> order[i] in responses
  }

  /** The non-None results, in completion order. */
  function Saved(order: seq<string>, responses: map<string, Response>): (saved: seq<seq<TagRow>>)
    requires Answered(order, responses)
    ensures |saved| <= |order|
  {
    if order == [] then []
    else
      var id := order[|order| - 1];
      var prev := Saved(order[..|order| - 1], responses);
      match DetailsOf(id, responses[id])
      case None => prev
      case Some(tags) => prev + [tags]
  }

  /** The batches one after another. */
  function Flatten(batches: seq<seq<TagRow>>): seq<TagRow> {
    if batches == [] then [] else Flatten(batches[..|batches| - 1]) + batches[|batches| - 1]
  }

  /**
    `main`'s loop over the completed fetches: a None result is reported and not saved; every
    other result is saved and counted, so the count is the number of non-None results.
  */
  method HandleResults(table: TagTable, order: seq<string>, responses: map<string, Response>)
    returns (processedCount: nat)
    requires table.Valid() && Answered(order, responses)
    modifies table
    ensures table.Valid()
    ensures processedCount == |Saved(order, responses)|
    ensures table.rows == InsertOrIgnoreAll(old(table.rows), TagKey, Flatten(Saved(order, responses)))
  {
    processedCount := 0;
    ghost var start := table.rows;
    for i := 0 to |order|
      invariant table.Valid()
      invariant processedCount == |Saved(order[..i], responses)|
      invariant table.rows == InsertOrIgnoreAll(start, TagKey, Flatten(Saved(order[..i], responses)))
    {
      assert order[..i + 1][..i] == order[..i];
      var carId := order[i];
      var result := ScrapeDetails(carId, responses[carId]);
      if result.Some? {
        ghost var before := Flatten(Saved(order[..i], responses));
        table.SaveTags(result.value, Some(carId));
        InsertOrIgnoreAllAppend(start, TagKey, before, result.value);
        processedCount := processedCount + 1;
      }
    }
    assert order[..|order|] == order;
  }

  /** Some tag names the car. */
  predicate Names(tags: seq<TagRow>, id: string) {
    exists t :: t in tags && t.carId == id
  }

  lemma NamesAppend(a: seq<TagRow>, b: seq<TagRow>, id: string)
    ensures Names(a + b, id) <==> Names(a, id) || Names(b, id)
  {
    if Names(a + b, id) {
      var t :| t in a + b && t.carId == id;
    }
    if Names(b, id) {
      var t :| t in b && t.carId == id;
      assert t in a + b;
    }
  }

  /** The fetch of this car returned at least one tag. */
  predicate Stored(carId: string, responses: map<string, Response>)
    requires carId in responses
  {
    DetailsOf(carId, responses[carId]).Some? && DetailsOf(carId, responses[carId]).value != []
  }

  /** A saved tag names a car of the order whose fetch returned tags, and every such car has a saved tag. */
  lemma {:induction false} SavedCars(order: seq<string>, responses: map<string, Response>, id: string)
    requires Answered(order, responses)
    ensures Names(Flatten(Saved(order, responses)), id) <==> id in order && Stored(id, responses)
  {
    if order != [] {
      var init := order[..|order| - 1];
      var last := order[|order| - 1];
      assert order == init + [last];
      SavedCars(init, responses, id);
      var prev := Saved(init, responses);
      var d := DetailsOf(last, responses[last]);
      DetailsOutcomes(last, responses[last]);
      if d.Some? {
        assert (prev + [d.value])[..|prev|] == prev;
        NamesAppend(Flatten(prev), d.value, id);
        if last == id && Stored(id, responses) {
          assert d.value[0] in d.value;
        }
      }
    }
  }

  /**
    Resuming: after a run over the completion order, the cars still pending are the ones pending
    before, less exactly the cars of the order whose fetch returned at least one tag. A car whose
    fetch gave None (404, no table) or [] (error, other status, no body) stays pending, and no
    car becomes pending again.
  */
  lemma PendingAfterRun(cars: map<string, CarRow>, rows: seq<TagRow>, order: seq<string>, responses: map<string, Response>)
    requires Answered(order, responses)
    ensures var after := InsertOrIgnoreAll(rows, TagKey, Flatten(Saved(order, responses)));
      forall id :: id in PendingIds(cars, after) <==>
        id in PendingIds(cars, rows) && !(id in order && Stored(id, responses))
  {
    var batch := Flatten(Saved(order, responses));
    forall id ensures id in TaggedCars(InsertOrIgnoreAll(rows, TagKey, batch)) <==>
      id in TaggedCars(rows) || (id in order && Stored(id, responses))
    {
      TaggedAfterInsert(rows, batch, id);
      SavedCars(order, responses, id);
    }
  }

  /** After insert-or-ignore of a batch, a car has a tag exactly when it had one or the batch names it. */
  lemma TaggedAfterInsert(rows: seq<TagRow>, batch: seq<TagRow>, id: string)
    ensures id in TaggedCars(InsertOrIgnoreAll(rows, TagKey, batch)) <==> id in TaggedCars(rows) || Names(batch, id)
  {
    var after := InsertOrIgnoreAll(rows, TagKey, batch);
    if id in TaggedCars(after) {
      var i :| 0 <= i < |after| && after[i].carId == id;
      InsertOrIgnoreAllKeys(rows, TagKey, batch, TagKey(after[i]));
      assert HasKey(after, TagKey, TagKey(after[i]));
      if HasKey(rows, TagKey, TagKey(after[i])) {
        var j :| 0 <= j < |rows| && TagKey(rows[j]) == TagKey(after[i]);
      } else {
        var j :| 0 <= j < |batch| && TagKey(batch[j]) == TagKey(after[i]);
        assert batch[j] in batch;
      }
    }
    if id in TaggedCars(rows) {
      var j :| 0 <= j < |rows| && rows[j].carId == id;
      InsertOrIgnoreAllKeys(rows, TagKey, batch, TagKey(rows[j]));
      assert HasKey(rows, TagKey, TagKey(rows[j]));
      var i :| 0 <= i < |after| && TagKey(after[i]) == TagKey(rows[j]);
    }
    if Names(batch, id) {
      var t :| t in batch && t.carId == id;
      InsertOrIgnoreAllKeys(rows, TagKey, batch, TagKey(t));
      var j :| 0 <= j < |batch| && batch[j] == t;
      assert HasKey(batch, TagKey, TagKey(t));
      var i :| 0 <= i < |after| && TagKey(after[i]) == TagKey(t);
    }
  }
}

=== FILE: extractors.dfy ===
/**
  The text extractors of app.py: pure functions from the raw text a listing was scraped with
  (price text, title text, attributes text) to the normalised values the query engine filters
  and displays by. Each mirrors one Python function; the currency rates are an explicit argument.
*/
module Extractors {
  import opened Wrappers
  import opened PyStrings

  // ---------------------------------------------------------------------------
  // Rate table
  // ---------------------------------------------------------------------------

  /** Currency code to units of that currency per 1 USD. */
  type RateTable = map<string, real>

  /** The built-in table kept when the live rates cannot be fetched. */
  const DefaultRates: RateTable := map["USD" := 1.0, "EUR" := 0.93, "AMD" := 405.0, "RUB" := 91.5]

  /** What the price conversion reads from the table: a positive rate for AMD, EUR and RUB. */
  predicate ValidRates(rates: RateTable) {
    && "AMD" in rates && rates["AMD"] > 0.0
    && "EUR" in rates && rates["EUR"] > 0.0
    && "RUB" in rates && rates["RUB"] > 0.0
  }

  datatype Currency = USD | AMD | EUR | RUB

  /** The number an amount in currency c is divided by to express it in USD; USD is not divided. */
  function UsdDivisor(rates: RateTable, c: Currency): (r: real)
    requires ValidRates(rates)
    ensures r > 0.0
  {
    match c
    case USD => 1.0
    case AMD => rates["AMD"]
    case EUR => rates["EUR"]
    case RUB => rates["RUB"]
  }

  const DramSign: string := "\U{058F}"
  const EuroSign: string := "\U{20AC}"
  const RubleSign: string := "\U{20BD}"

  // ---------------------------------------------------------------------------
  // The first run of digits: re.search(r'(\d+)', s)
  // ---------------------------------------------------------------------------

  /** The maximal prefix of digits: what the greedy `\d+` consumes. */
  function DigitRun(s: string): (r: string)
    ensures AllDigits(r) && |r| <= |s| && r == s[..|r|]
    ensures |r| < |s| ==> !IsDigit(s[|r|])
  {
    if s != [] && IsDigit(s[0]) then [s[0]] + DigitRun(s[1..]) else []
  }

  /** The index of the first digit at or after i. */
  function FirstDigitFrom(s: string, i: nat): (r: Option<nat>)
    ensures r.Some? ==> i <= r.value < |s| && IsDigit(s[r.value])
    ensures forall j :: i <= j < |s| && (r.None? || j < r.value) ==> !IsDigit(s[j])
    decreases |s| - i
  {
    if i >= |s| then None else if IsDigit(s[i]) then Some(i) else FirstDigitFrom(s, i + 1)
  }

  /** `re.search(r'(\d+)', s).group(1)`: the leftmost run of digits, whole; None when s has no digit. */
  function FirstDigitRun(s: string): (r: Option<string>)
    ensures r.None? <==> forall j :: 0 <= j < |s| ==> !IsDigit(s[j])
    ensures r.Some? ==> IsDigits(r.value)
  {
    match FirstDigitFrom(s, 0)
    case None => None
    case Some(i) => Some(DigitRun(s[i..]))
  }

  /** In digit-free text followed by digits d and a non-digit, the first digit run is d. */
  lemma {:induction false} FirstDigitRunAfter(pre: string, d: string, rest: string)
    requires forall j :: 0 <= j < |pre| ==> !IsDigit(pre[j])
    requires IsDigits(d) && (rest == [] || !IsDigit(rest[0]))
    ensures FirstDigitRun(pre + d + rest) == Some(d)
  {
    var s := pre + d + rest;
    assert IsDigit(s[|pre|]);
    assert FirstDigitFrom(s, 0) == Some(|pre|) by {
      forall j | 0 <= j < |pre| ensures !IsDigit(s[j]) { assert s[j] == pre[j]; }
    }
    DigitRunPrefix(d, rest);
    assert s[|pre|..] == d + rest;
  }

  lemma {:induction false} DigitRunPrefix(d: string, rest: string)
    requires AllDigits(d) && (rest == [] || !IsDigit(rest[0]))
    ensures DigitRun(d + rest) == d
  {
    if d != [] {
      assert (d + rest)[1..] == d[1..] + rest;
      DigitRunPrefix(d[1..], rest);
    }
  }

  // ---------------------------------------------------------------------------
  // Prices: parse_price and get_price_in_usd
  // ---------------------------------------------------------------------------

  /** The currency whose marker the comma-free price text shows first, in the order AMD, EUR, RUB. */
  function CurrencyOf(clean: string): Currency {
    if Contains(clean, DramSign) || Contains(clean, "AMD") then AMD
    else if Contains(clean, EuroSign) || Contains(clean, "EUR") then EUR
    else if Contains(clean, RubleSign) || Contains(clean, "RUB") then RUB
    else USD
  }

  /**
    `parse_price`: (0, USD) for empty text, text containing "N/A", or text with no digit once commas
    are removed; otherwise the value of the first digit run and the currency of the first marker.
  */
  function ParsePrice(p: string): (r: (nat, Currency))
    ensures p == "" || Contains(p, "N/A") ==> r == (0, USD)
    ensures r != (0, USD) ==> exists j :: 0 <= j < |p| && IsDigit(p[j])
  {
    if p == "" || Contains(p, "N/A") then (0, USD)
    else
      var clean := RemoveChar(p, ',');
      match FirstDigitRun(clean)
      case None => (0, USD)
      case Some(d) =>
        assert clean[FirstDigitFrom(clean, 0).value] in clean;
        (DigitsValue(d), CurrencyOf(clean))
  }

  /**
    `get_price_in_usd`: the same first digit run, divided by the rate of the first currency marker
    found; 0 when there is no price to read.
  */
  function GetPriceInUsd(p: string, rates: RateTable): (r: real)
    requires ValidRates(rates)
    ensures r == ParsePrice(p).0 as real / UsdDivisor(rates, ParsePrice(p).1)
  {
    if p == "" || Contains(p, "N/A") then 0.0
    else
      var clean := RemoveChar(p, ',');
      match FirstDigitRun(clean)
      case None => 0.0
      case Some(d) =>
        var val := DigitsValue(d) as real;
        if Contains(clean, DramSign) || Contains(clean, "AMD") then val / rates["AMD"]
        else if Contains(clean, EuroSign) || Contains(clean, "EUR") then val / rates["EUR"]
        else if Contains(clean, RubleSign) || Contains(clean, "RUB") then val / rates["RUB"]
        else val
  }

  /** No price is read (the result is 0) from empty text, "N/A" text or text without digits. */
  lemma PriceZeroCases(p: string, rates: RateTable)
    requires ValidRates(rates)
    requires p == "" || Contains(p, "N/A") || forall j :: 0 <= j < |p| ==> !IsDigit(p[j])
    ensures GetPriceInUsd(p, rates) == 0.0 && ParsePrice(p) == (0, USD)
  {
    if p != "" && !Contains(p, "N/A") {
      var clean := RemoveChar(p, ',');
      forall j | 0 <= j < |clean| ensures !IsDigit(clean[j]) {
        assert clean[j] in clean;
      }
    }
  }

  /** The sign a price text shows for each currency. */
  function Sign(c: Currency): char {
    match c
    case USD => '$'
    case AMD => DramSign[0]
    case EUR => EuroSign[0]
    case RUB => RubleSign[0]
  }

  /** What follows the amount when the sign comes last: a space, then the sign. */
  function SignSuffix(c: Currency): string {
    [' ', Sign(c)]
  }

  /** A price as the listing shows it: the amount with thousands separators, then the sign, or the sign first. */
  function PriceText(v: nat, c: Currency, signFirst: bool): string {
    if signFirst then [Sign(c)] + Thousands(v) else Thousands(v) + SignSuffix(c)
  }

  /** The same text once its commas are removed. */
  function CleanPriceText(v: nat, c: Currency, signFirst: bool): string {
    if signFirst then [Sign(c)] + Decimal(v) else Decimal(v) + SignSuffix(c)
  }

  lemma ContainsHead(s: string, p: string)
    requires p != []
    ensures Contains(s, p) ==> p[0] in s
  {
    if Contains(s, p) {
      var j := Find(s, p).value;
      assert s[j..j + |p|][0] == p[0];
      assert s[j] == p[0];
    }
  }

  /** Text made of digits, commas, spaces and currency signs holds none of the markers "N/A", "AMD", "EUR", "RUB". */
  lemma NoLetterMarkers(s: string)
    requires forall j :: 0 <= j < |s| ==> IsDigit(s[j]) || s[j] in " ,$\U{058F}\U{20AC}\U{20BD}"
    ensures !Contains(s, "N/A") && !Contains(s, "AMD") && !Contains(s, "EUR") && !Contains(s, "RUB")
  {
    ContainsHead(s, "N/A");
    ContainsHead(s, "AMD");
    ContainsHead(s, "EUR");
    ContainsHead(s, "RUB");
  }

  lemma RemovePriceCommas(v: nat, c: Currency, signFirst: bool)
    ensures RemoveChar(PriceText(v, c, signFirst), ',') == CleanPriceText(v, c, signFirst)
  {
    ThousandsDigits(v);
    if signFirst {
      RemoveAfterSign(Sign(c), Thousands(v));
    } else {
      RemoveBeforeSuffix(Thousands(v), SignSuffix(c));
    }
  }

  lemma RemoveAfterSign(x: char, t: string)
    requires x != ','
    ensures RemoveChar([x] + t, ',') == [x] + RemoveChar(t, ',')
  {
    assert ([x] + t)[1..] == t;
  }

  lemma RemoveBeforeSuffix(t: string, tail: string)
    requires ',' !in tail
    ensures RemoveChar(t + tail, ',') == RemoveChar(t, ',') + tail
  {
    RemoveCharAppend(t, tail, ',');
    RemoveCharAbsent(tail, ',');
  }

  lemma CleanPriceDigits(v: nat, c: Currency, signFirst: bool)
    ensures FirstDigitRun(CleanPriceText(v, c, signFirst)) == Some(Decimal(v))
  {
    var d := Decimal(v);
    if signFirst {
      FirstDigitRunAfter([Sign(c)], d, []);
      assert [Sign(c)] + d + [] == CleanPriceText(v, c, signFirst);
    } else {
      FirstDigitRunAfter([], d, SignSuffix(c));
      assert [] + d + SignSuffix(c) == CleanPriceText(v, c, signFirst);
    }
  }

  /** Text made of digits, spaces and the sign of c, holding that sign, has currency c. */
  lemma SignedTextCurrency(s: string, c: Currency)
    requires forall j :: 0 <= j < |s| ==> IsDigit(s[j]) || s[j] == ' ' || s[j] == Sign(c)
    requires Sign(c) in s
    ensures CurrencyOf(s) == c
  {
    NoLetterMarkers(s);
    ContainsChar(s, DramSign[0]);
    ContainsChar(s, EuroSign[0]);
    ContainsChar(s, RubleSign[0]);
    assert DramSign == [DramSign[0]] && EuroSign == [EuroSign[0]] && RubleSign == [RubleSign[0]];
  }

  lemma CleanPriceCurrency(v: nat, c: Currency, signFirst: bool)
    ensures CurrencyOf(CleanPriceText(v, c, signFirst)) == c
  {
    var clean := CleanPriceText(v, c, signFirst);
    if signFirst {
      assert clean[0] == Sign(c);
    } else {
      assert clean[|clean| - 1] == Sign(c);
    }
    SignedTextCurrency(clean, c);
  }

  lemma ParsePriceOf(p: string, d: string)
    requires p != "" && !Contains(p, "N/A") && FirstDigitRun(RemoveChar(p, ',')) == Some(d)
    ensures ParsePrice(p) == (DigitsValue(d), CurrencyOf(RemoveChar(p, ',')))
  {
  }

  /** A shown price is never empty and never holds "N/A". */
  lemma PriceTextReadable(v: nat, c: Currency, signFirst: bool)
    ensures PriceText(v, c, signFirst) != "" && !Contains(PriceText(v, c, signFirst), "N/A")
  {
    var p := PriceText(v, c, signFirst);
    ThousandsDigits(v);
    assert forall j :: 0 <= j < |p| ==> IsDigit(p[j]) || p[j] == ',' || p[j] == ' ' || p[j] == Sign(c);
    NoLetterMarkers(p);
  }

  /** `parse_price` reads a shown price back as its amount and currency. */
  lemma ParsePriceText(v: nat, c: Currency, signFirst: bool)
    ensures ParsePrice(PriceText(v, c, signFirst)) == (v, c)
  {
    RemovePriceCommas(v, c, signFirst);
    CleanPriceDigits(v, c, signFirst);
    CleanPriceCurrency(v, c, signFirst);
    PriceTextReadable(v, c, signFirst);
    ParsePriceOf(PriceText(v, c, signFirst), Decimal(v));
    DecimalValue(v);
  }

  /**
    For every currency and amount v, the price shown as "v,vvv <sign>" or "<sign>v,vvv" is read
    back as v in that currency, and as v / rate in USD.
  */
  lemma PriceRoundTrip(v: nat, c: Currency, signFirst: bool, rates: RateTable)
    requires ValidRates(rates)
    ensures ParsePrice(PriceText(v, c, signFirst)) == (v, c)
    ensures GetPriceInUsd(PriceText(v, c, signFirst), rates) == v as real / UsdDivisor(rates, c)
  {
    ParsePriceText(v, c, signFirst);
  }

  // ---------------------------------------------------------------------------
  // Distances: get_km_from_text
  // ---------------------------------------------------------------------------

  predicate IsDigitOrComma(c: char) {
    IsDigit(c) || c == ','
  }

  /** Where the greedy `[\d,]+` tried at i stops: the first position from i holding neither a digit nor a comma. */
  function NumberEnd(s: string, i: nat): (e: nat)
    requires i <= |s|
    ensures i <= e <= |s|
    ensures forall x :: i <= x < e ==> IsDigitOrComma(s[x])
    ensures e == |s| || !IsDigitOrComma(s[e])
    decreases |s| - i
  {
    if i < |s| && IsDigitOrComma(s[i]) then NumberEnd(s, i + 1) else i
  }

  /** Where the greedy `\s*` tried at i stops: the first position from i that is not whitespace. */
  function SpaceEnd(s: string, i: nat): (k: nat)
    requires i <= |s|
    ensures i <= k <= |s|
    ensures forall x :: i <= x < k ==> IsSpace(s[x])
    ensures k == |s| || !IsSpace(s[k])
    decreases |s| - i
  {
    if i < |s| && IsSpace(s[i]) then SpaceEnd(s, i + 1) else i
  }

  /** The lower-case word w occurs in s at k, ignoring the case of ASCII letters (re.IGNORECASE). */
  predicate WordAt(s: string, k: nat, w: string) {
    k + |w| <= |s| && forall x :: 0 <= x < |w| ==> LowerChar(s[k + x]) == w[x]
  }

  /** The alternatives of `(km|miles|mi)`, in the order the regex tries them. */
  const Units: seq<string> := ["km", "miles", "mi"]

  /** The unit word at k, the alternatives tried in order, lower-cased. */
  function UnitAt(s: string, k: nat): (r: Option<string>)
    ensures r.Some? ==> r.value in Units && WordAt(s, k, r.value)
  {
    if WordAt(s, k, "km") then Some("km")
    else if WordAt(s, k, "miles") then Some("miles")
    else if WordAt(s, k, "mi") then Some("mi")
    else None
  }

  /** A match of the distance pattern: group(1), and group(2) lower-cased. */
  datatype DistanceMatch = DistanceMatch(number: string, unit: string)

  /**
    `([\d,]+)\s*(km|miles|mi)` tried at position i. Backtracking cannot help the greedy choice:
    giving back a digit or comma, or a whitespace character, leaves that character where a
    whitespace character or a unit letter is needed (MatchDistanceIsRegexMatch).
  */
  function MatchDistanceAt(s: string, i: nat): (r: Option<DistanceMatch>)
    requires i <= |s|
    ensures r.Some? ==> r.value.number != [] && r.value.unit in Units
    ensures r.Some? ==> forall j :: 0 <= j < |r.value.number| ==> IsDigitOrComma(r.value.number[j])
  {
    var e := NumberEnd(s, i);
    if e == i then None
    else
      match UnitAt(s, SpaceEnd(s, e))
      case None => None
      case Some(u) => Some(DistanceMatch(s[i..e], u))
  }

  /** `re.search`: the leftmost position at or after i where the distance pattern matches. */
  function SearchDistanceFrom(s: string, i: nat): (r: Option<nat>)
    requires i <= |s|
    ensures r.Some? ==> i <= r.value <= |s| && MatchDistanceAt(s, r.value).Some?
    ensures forall j :: i <= j <= |s| && (r.None? || j < r.value) ==> MatchDistanceAt(s, j).None?
    decreases |s| - i
  {
    if MatchDistanceAt(s, i).Some? then Some(i)
    else if i == |s| then None
    else SearchDistanceFrom(s, i + 1)
  }

  /** The kilometres in n miles, truncated: int(n * 1.60934) on exact arithmetic. */
  function MilesToKm(n: nat): nat {
    n * 160934 / 100000
  }

  /** The digits of a number made of digits and commas, once the commas are removed. */
  function DigitsOf(number: string): (d: string)
    requires forall j :: 0 <= j < |number| ==> IsDigitOrComma(number[j])
    ensures AllDigits(d)
  {
    var d := RemoveChar(number, ',');
    assert AllDigits(d) by {
      forall j | 0 <= j < |d| ensures IsDigit(d[j]) {
        assert d[j] in d;
        var k :| 0 <= k < |number| && number[k] == d[j];
        assert IsDigitOrComma(number[k]) && d[j] != ',';
      }
    }
    d
  }

  /**
    `get_km_from_text`: 0 for empty text or text without a distance; otherwise the first distance's
    number without commas, converted from miles when the unit contains "mi", truncated.
    None: the number is made of commas only and `float('')` raises ValueError.
  */
  function GetKm(at: string): (r: Option<nat>)
    ensures (forall i :: 0 <= i <= |at| ==> MatchDistanceAt(at, i).None?) ==> r == Some(0)
  {
    if at == [] then Some(0)
    else
      match SearchDistanceFrom(at, 0)
      case None => Some(0)
      case Some(i) =>
        var m := MatchDistanceAt(at, i).value;
        var digits := DigitsOf(m.number);
        if digits == [] then None
        else
          var n := DigitsValue(digits);
          Some(if Contains(m.unit, "mi") then MilesToKm(n) else n)
  }

  /** The text raises no error in the distance extractor. */
  predicate KmDefined(at: string) {
    GetKm(at).Some?
  }

  /**
    The distance pattern at i described without the greedy strategy: digits and commas on
    [i, j), whitespace on [j, k), and a unit word (any case) at k.
  */
  ghost predicate DistanceSpan(s: string, i: nat, j: nat, k: nat, w: string) {
    && i < j <= k <= |s|
    && (forall x :: i <= x < j ==> IsDigitOrComma(s[x]))
    && (forall x :: j <= x < k ==> IsSpace(s[x]))
    && w in Units && WordAt(s, k, w)
  }

  /** A unit word starts with a k or an m, so not with a digit, a comma or whitespace. */
  lemma UnitStart(s: string, k: nat, w: string)
    requires w in Units && WordAt(s, k, w)
    ensures k < |s| && LowerChar(s[k]) == w[0] && (w[0] == 'k' <==> w == "km")
    ensures !IsDigitOrComma(s[k]) && !IsSpace(s[k])
  {
    assert LowerChar(s[k + 0]) == w[0];
  }

  /** Whichever unit word is at k, the alternatives find one, and "km" exactly when that word is "km". */
  lemma UnitAtFinds(s: string, k: nat, w: string)
    requires w in Units && WordAt(s, k, w)
    ensures UnitAt(s, k).Some? && (UnitAt(s, k).value == "km" <==> w == "km")
  {
    UnitStart(s, k, w);
    assert WordAt(s, k, "km") ==> LowerChar(s[k + 0]) == "km"[0];
  }

  /** Every span that fits at i ends where the greedy number and the greedy whitespace end. */
  lemma SpanIsGreedy(s: string, i: nat, j: nat, k: nat, w: string)
    requires DistanceSpan(s, i, j, k, w)
    ensures j == NumberEnd(s, i) && k == SpaceEnd(s, j)
  {
    UnitStart(s, k, w);
    if j < k {
      assert IsSpace(s[j]);
    }
    assert !IsDigitOrComma(s[j]);
    var e := NumberEnd(s, i);
    assert e == |s| || !IsDigitOrComma(s[e]);
    var k0 := SpaceEnd(s, j);
    assert k0 == |s| || !IsSpace(s[k0]);
  }

  /** A greedy match is a span: the number, the whitespace after it and the unit word fit at i. */
  lemma MatchIsSpan(s: string, i: nat)
    requires i <= |s| && MatchDistanceAt(s, i).Some?
    ensures DistanceSpan(s, i, NumberEnd(s, i), SpaceEnd(s, NumberEnd(s, i)), MatchDistanceAt(s, i).value.unit)
  {
  }

  /** Every span that fits at i is found by the greedy match, with the same number and kind of unit. */
  lemma SpanIsMatch(s: string, i: nat, j: nat, k: nat, w: string)
    requires DistanceSpan(s, i, j, k, w)
    ensures MatchDistanceAt(s, i).Some?
    ensures MatchDistanceAt(s, i).value.number == s[i..j]
    ensures MatchDistanceAt(s, i).value.unit == "km" <==> w == "km"
  {
    SpanIsGreedy(s, i, j, k, w);
    UnitAtFinds(s, k, w);
  }

  /**
    The greedy match agrees with the regex semantics: a match exists at i exactly when some
    span (j, k, w) fits, and every span that fits has the same number and the same kind of unit.
  */
  lemma MatchDistanceIsRegexMatch(s: string, i: nat)
    requires i <= |s|
    ensures MatchDistanceAt(s, i).Some? <==> exists j: nat, k: nat, w: string :: DistanceSpan(s, i, j, k, w)
    ensures forall j: nat, k: nat, w: string :: DistanceSpan(s, i, j, k, w) ==>
      && MatchDistanceAt(s, i).Some?
      && MatchDistanceAt(s, i).value.number == s[i..j]
      && (MatchDistanceAt(s, i).value.unit == "km" <==> w == "km")
  {
    if MatchDistanceAt(s, i).Some? {
      MatchIsSpan(s, i);
    }
    forall j: nat, k: nat, w: string | DistanceSpan(s, i, j, k, w)
      ensures MatchDistanceAt(s, i).Some? && MatchDistanceAt(s, i).value.number == s[i..j]
      ensures MatchDistanceAt(s, i).value.unit == "km" <==> w == "km"
    {
      SpanIsMatch(s, i, j, k, w);
    }
  }

  /** The unit of a match contains "mi" exactly when it is not "km". */
  lemma MilesUnit(u: string)
    requires u in Units
    ensures Contains(u, "mi") <==> u != "km"
  {
    ContainsIff(u, "mi");
    if u == "km" {
      forall j ensures !OccursAt(u, "mi", j) {
        if j == 0 && |u| >= 2 {
          assert u[0..2][0] == 'k';
        }
      }
    } else {
      assert u[0..2] == "mi";
      assert OccursAt(u, "mi", 0);
    }
  }

  /**
    Text that holds, after a prefix, a number, then whitespace, then a unit word, matches at the
    end of the prefix with that number and a unit of the same kind (by the regex semantics).
  */
  lemma MatchAfter(pre: string, d: string, gap: string, rest: string, u: string)
    requires d != [] && forall j :: 0 <= j < |d| ==> IsDigitOrComma(d[j])
    requires forall j :: 0 <= j < |gap| ==> IsSpace(gap[j])
    requires u in Units && WordAt(rest, 0, u)
    ensures MatchDistanceAt(pre + d + gap + rest, |pre|).Some?
    ensures MatchDistanceAt(pre + d + gap + rest, |pre|).value.number == d
    ensures MatchDistanceAt(pre + d + gap + rest, |pre|).value.unit == "km" <==> u == "km"
  {
    var s := pre + d + gap + rest;
    var i := |pre|;
    var j := i + |d|;
    var k := j + |gap|;
    forall x | i <= x < j ensures IsDigitOrComma(s[x]) { assert s[x] == d[x - i]; }
    forall x | j <= x < k ensures IsSpace(s[x]) { assert s[x] == gap[x - j]; }
    forall x | 0 <= x < |u| ensures LowerChar(s[k + x]) == u[x] { assert s[k + x] == rest[0 + x]; }
    assert DistanceSpan(s, i, j, k, u);
    SpanIsMatch(s, i, j, k, u);
    assert s[i..j] == d;
  }

  /**
    The distance read from text where the pattern matches nowhere before a number, whitespace
    and a unit: that number without commas, converted when the unit is a mile word; None when
    the number is commas only.
  */
  lemma GetKmAfter(pre: string, d: string, gap: string, rest: string, u: string)
    requires d != [] && forall j :: 0 <= j < |d| ==> IsDigitOrComma(d[j])
    requires forall j :: 0 <= j < |gap| ==> IsSpace(gap[j])
    requires u in Units && WordAt(rest, 0, u)
    requires forall x :: 0 <= x < |pre| ==> MatchDistanceAt(pre + d + gap + rest, x).None?
    ensures RemoveChar(d, ',') == [] ==> GetKm(pre + d + gap + rest).None?
    ensures RemoveChar(d, ',') != [] ==>
      var n := DigitsValue(DigitsOf(d));
      GetKm(pre + d + gap + rest) == Some(if u == "km" then n else MilesToKm(n))
  {
    var s := pre + d + gap + rest;
    MatchAfter(pre, d, gap, rest, u);
    assert SearchDistanceFrom(s, 0) == Some(|pre|);
    MilesUnit(MatchDistanceAt(s, |pre|).value.unit);
  }

  /**
    The distance read from text that starts with a number, whitespace and a unit: the number
    without commas, converted when the unit is a mile word; None when the number is commas only.
  */
  lemma GetKmAtStart(d: string, gap: string, rest: string, u: string)
    requires d != [] && forall j :: 0 <= j < |d| ==> IsDigitOrComma(d[j])
    requires forall j :: 0 <= j < |gap| ==> IsSpace(gap[j])
    requires u in Units && WordAt(rest, 0, u)
    ensures RemoveChar(d, ',') == [] ==> GetKm(d + gap + rest).None?
    ensures RemoveChar(d, ',') != [] ==>
      var n := DigitsValue(DigitsOf(d));
      GetKm(d + gap + rest) == Some(if u == "km" then n else MilesToKm(n))
  {
    assert [] + d + gap + rest == d + gap + rest;
    GetKmAfter([], d, gap, rest, u);
  }

  /** No number starts at a character that is neither a digit nor a comma. */
  lemma NoMatchAtOther(s: string, x: nat)
    requires x < |s| && !IsDigitOrComma(s[x])
    ensures MatchDistanceAt(s, x).None?
  {
  }

  /** A comma, a space and then a digit or a comma: the comma is a number, but no unit follows the space. */
  lemma NoMatchAtCommaSpace(s: string, x: nat)
    requires x + 2 < |s| && s[x] == ',' && s[x + 1] == ' ' && IsDigitOrComma(s[x + 2])
    ensures MatchDistanceAt(s, x).None?
  {
    assert NumberEnd(s, x + 1) == x + 1;
    assert NumberEnd(s, x) == x + 1;
    assert SpaceEnd(s, x + 2) == x + 2;
    assert SpaceEnd(s, x + 1) == x + 2;
    if UnitAt(s, x + 2).Some? {
      UnitStart(s, x + 2, UnitAt(s, x + 2).value);
    }
  }

  /** Nothing before the distance matches when a location without digits or commas and ", " lead. */
  lemma NoMatchInLocation(loc: string, d: string, gap: string, rest: string)
    requires forall j :: 0 <= j < |loc| ==> !IsDigitOrComma(loc[j])
    requires d != [] && IsDigitOrComma(d[0])
    ensures forall x :: 0 <= x < |loc + ", "| ==> MatchDistanceAt(loc + ", " + d + gap + rest, x).None?
  {
    var s := loc + ", " + d + gap + rest;
    forall x | 0 <= x < |loc + ", "| ensures MatchDistanceAt(s, x).None? {
      if x < |loc| {
        assert s[x] == loc[x];
        NoMatchAtOther(s, x);
      } else if x == |loc| {
        assert s[x] == ',' && s[x + 1] == ' ' && s[x + 2] == d[0];
        NoMatchAtCommaSpace(s, x);
      } else {
        assert s[x] == ' ';
        NoMatchAtOther(s, x);
      }
    }
  }

  /**
    The listing format "location, distance, ...": after a location holding no digit and no
    comma, and the ", " that ends it, the distance is read as if it started the text.
  */
  lemma GetKmAfterLocation(loc: string, d: string, gap: string, rest: string, u: string)
    requires forall j :: 0 <= j < |loc| ==> !IsDigitOrComma(loc[j])
    requires d != [] && forall j :: 0 <= j < |d| ==> IsDigitOrComma(d[j])
    requires forall j :: 0 <= j < |gap| ==> IsSpace(gap[j])
    requires u in Units && WordAt(rest, 0, u)
    ensures RemoveChar(d, ',') == [] ==> GetKm(loc + ", " + d + gap + rest).None?
    ensures RemoveChar(d, ',') != [] ==>
      var n := DigitsValue(DigitsOf(d));
      GetKm(loc + ", " + d + gap + rest) == Some(if u == "km" then n else MilesToKm(n))
  {
    NoMatchInLocation(loc, d, gap, rest);
    GetKmAfter(loc + ", ", d, gap, rest, u);
  }

  lemma ThousandsOf150000()
    ensures Thousands(150000) == "150,000"
  {
    assert Decimal(1) == "1";
    assert Decimal(15) == "15";
    assert Decimal(150) == "150";
    assert Pad3(0) == "000";
  }

  /** A listing in the usual format, "location, n km...", reads as n kilometres. */
  lemma GetKmOfListing(loc: string, n: nat, rest: string)
    requires forall c :: c in loc ==> !IsDigitOrComma(c)
    requires |rest| >= 2 && LowerChar(rest[0]) == 'k' && LowerChar(rest[1]) == 'm'
    ensures GetKm(loc + ", " + Thousands(n) + " " + rest) == Some(n)
  {
    assert WordAt(rest, 0, "km");
    GetKmAfterLocation(loc, Thousands(n), " ", rest, "km");
    ThousandsDigits(n);
    DecimalValue(n);
  }

  /** A listing's usual attribute text: "Yerevan, 150,000 km, Diesel" is 150000 km. */
  lemma YerevanExample(at: string)
    requires at == "Yerevan" + ", " + "150,000" + " " + "km, Diesel"
    ensures GetKm(at) == Some(150000)
  {
    var n: nat := 150000;
    ThousandsOf150000();
    GetKmOfListing("Yerevan", n, "km, Diesel");
  }

  /** The mileage as app.py displays it: `f"{km:,} km"`. */
  function MileageText(km: nat): string {
    Thousands(km) + " km"
  }

  /** Reading a displayed mileage back gives the same kilometres. */
  lemma MileageRoundTrip(km: nat)
    ensures GetKm(MileageText(km)) == Some(km)
  {
    var t := Thousands(km);
    assert MileageText(km) == t + " " + "km";
    assert WordAt("km", 0, "km") by {
      assert LowerChar("km"[0]) == 'k' && LowerChar("km"[1]) == 'm';
    }
    GetKmAtStart(t, " ", "km", "km");
    ThousandsDigits(km);
    DecimalValue(km);
  }

  lemma MilesWord()
    ensures WordAt("miles", 0, "miles")
  {
    var w := "miles";
    forall x | 0 <= x < 5 ensures LowerChar(w[0 + x]) == w[x] {
      assert 'a' <= w[x] <= 'z';
    }
  }

  /** A distance written in miles reads back as the truncated kilometre conversion. */
  lemma MilesRoundTrip(n: nat)
    ensures GetKm(Thousands(n) + " miles") == Some(MilesToKm(n))
  {
    var t := Thousands(n);
    MilesWord();
    assert t + " miles" == t + " " + "miles";
    GetKmAtStart(t, " ", "miles", "miles");
    ThousandsDigits(n);
    DecimalValue(n);
  }

  lemma HundredText()
    ensures Thousands(100) == "100"
  {
    assert Decimal(1) == "1";
    assert Decimal(10) == "10";
  }

  /** "100 miles" is 160 km: 160.934 is truncated, not rounded. */
  lemma HundredMiles(s: string)
    requires s == "100 miles"
    ensures GetKm(s) == Some(160)
  {
    HundredText();
    assert s == Thousands(100) + " miles";
    MilesRoundTrip(100);
    assert MilesToKm(100) == 160;
  }

  // ---------------------------------------------------------------------------
  // Fuel matching: check_fuel_match
  // ---------------------------------------------------------------------------

  /** Some term, lower-cased, occurs in the lower-cased text. */
  function AnyTermIn(terms: seq<string>, textLower: string): bool {
    terms != [] && (Contains(textLower, Lower(terms[0])) || AnyTermIn(terms[1..], textLower))
  }

  /**
    `check_fuel_match`: an empty desired list matches everything; an empty text matches no
    non-empty list; otherwise some comma-separated term must occur in the text, ignoring case.
  */
  function CheckFuelMatch(at: string, desired: string): (r: bool)
    ensures r <==> desired == "" || (at != "" && exists t :: t in Split(desired, ",") && Contains(Lower(at), Lower(t)))
  {
    if desired == "" then true
    else if at == "" then false
    else
      AnyTermInIff(Split(desired, ","), Lower(at));
      AnyTermIn(Split(desired, ","), Lower(at))
  }

  lemma {:induction false} AnyTermInIff(terms: seq<string>, textLower: string)
    ensures AnyTermIn(terms, textLower) <==> exists t :: t in terms && Contains(textLower, Lower(t))
  {
    if terms != [] {
      AnyTermInIff(terms[1..], textLower);
      assert terms == [terms[0]] + terms[1..];
    }
  }

  /** An empty term (a list ending in a comma) occurs in every text, so such a list matches any non-empty text. */
  lemma TrailingCommaMatchesAll(at: string, desired: string)
    requires at != ""
    ensures CheckFuelMatch(at, desired + ",")
  {
    var d := desired + ",";
    JoinSplit(d, ",");
    var parts := Split(d, ",");
    var last := parts[|parts| - 1];
    if last != "" {
      LastPieceOfCommaEnded(desired);
    }
    assert OccursAt(Lower(at), Lower(""), 0);
  }

  lemma LastPieceOfCommaEnded(desired: string)
    ensures Split(desired + ",", ",")[|Split(desired + ",", ",")| - 1] == ""
    decreases |desired|
  {
    var d := desired + ",";
    var f := Find(d, ",");
    assert OccursAt(d, ",", |desired|);
    var i := f.value;
    var rest := d[i + 1..];
    if i == |desired| {
      assert rest == [];
      assert Find([], ",") == None;
    } else {
      assert rest == desired[i + 1..] + ",";
      LastPieceOfCommaEnded(desired[i + 1..]);
    }
  }

  // ---------------------------------------------------------------------------
  // Titles: parse_l_text
  // ---------------------------------------------------------------------------

  datatype Title = Title(year: nat, make: string, model: string, spec: string)

  /**
    `parse_l_text`: the text before the first comma, stripped and split on single spaces, gives the
    year (when its first token is all digits, else 0), the make (the second token) and the model
    (the remaining tokens re-joined); the text between the first and second comma, stripped, is the
    spec. When there is no second token the `tokens[1]` lookup raises and the fallback
    (0, "Other", text, "") is returned.
  */
  function ParseLText(l: string): (t: Title)
    ensures ' ' !in t.make && ',' !in t.spec
  {
    var parts := Split(l, ",");
    var main := Strip(parts[0]);
    var spec := if |parts| > 1 then Strip(parts[1]) else "";
    var tokens := Split(main, " ");
    if |tokens| < 2 then Title(0, "Other", l, "")
    else
      PiecesCharFree(main, ' ');
      SpecCommaFree(l);
      Title(if IsDigits(tokens[0]) then DigitsValue(tokens[0]) else 0, tokens[1], Join(tokens[2..], " "), spec)
  }

  /** The spec piece, stripped, holds no comma. */
  lemma SpecCommaFree(l: string)
    ensures ',' !in if |Split(l, ",")| > 1 then Strip(Split(l, ",")[1]) else ""
  {
    if |Split(l, ",")| > 1 {
      PiecesCharFree(l, ',');
      StripCharFree(Split(l, ",")[1], ',');
    }
  }

  /** No piece of a split on c holds c. */
  lemma PiecesCharFree(s: string, c: char)
    ensures forall k :: 0 <= k < |Split(s, [c])| ==> c !in Split(s, [c])[k]
  {
    SplitPiecesFree(s, [c]);
    forall k | 0 <= k < |Split(s, [c])| ensures c !in Split(s, [c])[k] {
      ContainsChar(Split(s, [c])[k], c);
    }
  }

  /** Stripping adds no character. */
  lemma StripCharFree(s: string, c: char)
    requires c !in s
    ensures c !in Strip(s)
  {
    StripShape(s);
  }

  /** `s.split(c)[0]`: the text before the first c, all of s when there is none. */
  function Before(s: string, c: char): string {
    match Find(s, [c])
    case None => s
    case Some(i) => s[..i]
  }

  /** The text after the first c, None when there is none. */
  function After(s: string, c: char): Option<string> {
    match Find(s, [c])
    case None => None
    case Some(i) => Some(s[i + 1..])
  }

  /** Splitting on c: the first piece is the text before the first c, and the other pieces split what follows it. */
  lemma SplitByChar(s: string, c: char)
    ensures Split(s, [c])[0] == Before(s, c)
    ensures |Split(s, [c])| > 1 <==> After(s, c).Some?
    ensures After(s, c).Some? ==> Split(s, [c])[1..] == Split(After(s, c).value, [c])
  {
  }

  /** Text without a comma whose ends are not whitespace. */
  predicate CleanField(s: string) {
    ',' !in s && (s == [] || (!IsSpace(s[0]) && !IsSpace(s[|s| - 1])))
  }

  /** A title whose main part has no space falls back to (0, "Other", text, ""). */
  lemma ParseLTextFallback(l: string)
    requires !Contains(Strip(Split(l, ",")[0]), " ")
    ensures ParseLText(l) == Title(0, "Other", l, "")
  {
    SplitAbsent(Strip(Split(l, ",")[0]), " ");
  }

  /**
    A title whose main part (the text before the first comma, stripped) holds a space: the year is
    the value of the text before its first space when that is all digits, else 0; the make runs
    from there to the next space; the model is everything after that space; and the spec is the
    text between the first and the second comma, stripped ("" without a comma).
  */
  lemma ParseLTextByPosition(l: string)
    requires ' ' in Strip(Before(l, ','))
    ensures var main := Strip(Before(l, ','));
      var first := Before(main, ' ');
      var rest := After(main, ' ').GetOr("");
      ParseLText(l) == Title(
        if IsDigits(first) then DigitsValue(first) else 0,
        Before(rest, ' '),
        After(rest, ' ').GetOr(""),
        match After(l, ',') case None => "" case Some(tail) => Strip(Before(tail, ',')))
  {
    var main := Strip(Before(l, ','));
    SplitByChar(l, ',');
    ContainsChar(main, ' ');
    SplitByChar(main, ' ');
    var rest := After(main, ' ').value;
    SplitByChar(rest, ' ');
    if After(l, ',').Some? {
      SplitByChar(After(l, ',').value, ',');
    }
    var tokens := Split(main, " ");
    if After(rest, ' ').Some? {
      JoinSplit(After(rest, ' ').value, " ");
      assert tokens[2..] == Split(After(rest, ' ').value, " ");
    } else {
      assert tokens[2..] == [];
    }
  }

  lemma ParseTwoWordsOf(l: string, a: string, b: string)
    requires Split(l, ",") == [l]
    requires Split(Strip(l), " ") == [a, b]
    ensures ParseLText(l) == Title(if IsDigits(a) then DigitsValue(a) else 0, b, "", "")
  {
    assert Join([a, b][2..], " ") == "" by {
      assert [a, b][2..] == [];
    }
  }

  lemma SplitTwoWords(a: string, b: string)
    requires ' ' !in a && ' ' !in b
    ensures Split(a + " " + b, " ") == [a, b]
  {
    assert a + " " + b == a + [' '] + b;
    SplitAtFirst(a, ' ', b);
    SplitCharAbsent(b, ' ');
  }

  lemma TwoWordsTrimmed(a: string, b: string)
    requires a != [] && b != [] && CleanField(a) && CleanField(b)
    ensures Strip(a + " " + b) == a + " " + b && ',' !in a + " " + b
  {
    var l := a + " " + b;
    assert l[0] == a[0] && l[|l| - 1] == b[|b| - 1];
    StripTrimmed(l);
  }

  /**
    Two words a and b: a is the year when it is all digits and 0 otherwise, and b is the make in
    both cases. The fallback to "Other" happens only when there is no second word.
  */
  lemma TwoWords(a: string, b: string)
    requires a != [] && b != [] && CleanField(a) && CleanField(b) && ' ' !in a && ' ' !in b
    ensures ParseLText(a + " " + b) == Title(if IsDigits(a) then DigitsValue(a) else 0, b, "", "")
  {
    var l := a + " " + b;
    TwoWordsTrimmed(a, b);
    SplitCharAbsent(l, ',');
    SplitTwoWords(a, b);
    ParseTwoWordsOf(l, a, b);
  }

  /** "Unknown SUV" reads as year 0 and make "SUV" with an empty model, not as the fallback. */
  lemma UnknownSuvExample(l: string)
    requires l == "Unknown SUV"
    ensures ParseLText(l) == Title(0, "SUV", "", "")
  {
    assert l == "Unknown" + " " + "SUV";
    assert !IsDigit("Unknown"[0]);
    TwoWords("Unknown", "SUV");
  }

  /** The title text a listing shows: "<year> <make> <model>, <spec>". */
  function TitleText(year: nat, make: string, model: string, spec: string): string {
    Decimal(year) + " " + make + " " + model + ", " + spec
  }

  lemma TitleCommaSplit(main: string, spec: string)
    requires ',' !in main && ',' !in spec
    ensures Split(main + ", " + spec, ",") == [main, " " + spec]
  {
    assert main + ", " + spec == main + [','] + (" " + spec);
    SplitAtFirst(main, ',', " " + spec);
    assert ',' !in " " + spec;
    SplitCharAbsent(" " + spec, ',');
  }

  lemma TitleWords(y: string, make: string, model: string)
    requires ' ' !in y && ' ' !in make && model != []
    ensures Split(y + " " + make + " " + model, " ") == [y, make] + Split(model, " ")
  {
    assert y + " " + make + " " + model == y + [' '] + (make + [' '] + model);
    SplitAtFirst(y, ' ', make + [' '] + model);
    SplitAtFirst(make, ' ', model);
  }

  lemma TitleSpecStrip(spec: string)
    requires CleanField(spec)
    ensures Strip(" " + spec) == spec
  {
    TrimStartSpace(spec);
    StripTrimmed(spec);
  }

  lemma TitleMainStrip(y: string, make: string, model: string)
    requires y != [] && !IsSpace(y[0]) && model != [] && CleanField(model)
    ensures Strip(y + " " + make + " " + model) == y + " " + make + " " + model
  {
    var main := y + " " + make + " " + model;
    assert main[0] == y[0] && main[|main| - 1] == model[|model| - 1];
    StripTrimmed(main);
  }

  lemma ParseTitleOf(l: string, main: string, spec: string, y: string, make: string, model: string)
    requires Split(l, ",") == [main, " " + spec] && Strip(" " + spec) == spec
    requires Split(Strip(main), " ") == [y, make] + Split(model, " ")
    ensures ParseLText(l) == Title(if IsDigits(y) then DigitsValue(y) else 0, make, Join(Split(model, " "), " "), spec)
  {
    var tokens := [y, make] + Split(model, " ");
    assert tokens[2..] == Split(model, " ");
  }

  /**
    Title decomposition inverts the title format: for a one-word make, a non-empty model and a
    spec without commas or surrounding whitespace, the title reads back as (year, make, model, spec).
  */
  lemma TitleRoundTrip(year: nat, make: string, model: string, spec: string)
    requires make != [] && ' ' !in make && CleanField(make)
    requires model != [] && CleanField(model) && CleanField(spec)
    ensures ParseLText(TitleText(year, make, model, spec)) == Title(year, make, model, spec)
  {
    var y := Decimal(year);
    var main := y + " " + make + " " + model;
    assert ',' !in y && ' ' !in y && !IsSpace(y[0]);
    assert ',' !in main;
    assert TitleText(year, make, model, spec) == main + ", " + spec;
    TitleCommaSplit(main, spec);
    TitleSpecStrip(spec);
    TitleMainStrip(y, make, model);
    TitleWords(y, make, model);
    ParseTitleOf(main + ", " + spec, main, spec, y, make, model);
    JoinSplit(model, " ");
    DecimalValue(year);
  }

  /** "2020 Toyota Camry, 2.5L" reads as (2020, "Toyota", "Camry", "2.5L"). */
  lemma YearText()
    ensures Decimal(2020) == "2020"
  {
    assert Decimal(2) == "2";
    assert Decimal(20) == "20";
    assert Decimal(202) == "202";
  }

  lemma ToyotaFields()
    ensures ' ' !in "Toyota" && CleanField("Toyota") && CleanField("Camry") && CleanField("2.5L")
  {
    assert !IsSpace('T') && !IsSpace('a') && !IsSpace('C') && !IsSpace('y') && !IsSpace('2') && !IsSpace('L');
  }

  lemma ToyotaExample(l: string)
    requires l == "2020 Toyota Camry, 2.5L"
    ensures ParseLText(l) == Title(2020, "Toyota", "Camry", "2.5L")
  {
    YearText();
    ToyotaFields();
    assert l == "2020" + " " + "Toyota" + " " + "Camry" + ", " + "2.5L";
    TitleRoundTrip(2020, "Toyota", "Camry", "2.5L");
  }

  // ---------------------------------------------------------------------------
  // Attributes: parse_at_text
  // ---------------------------------------------------------------------------

  /** The fuel keywords, in the order they are tried. */
  const FuelKeywords: seq<string> := ["Gasoline", "Diesel", "Hybrid", "Electric", "LPG", "CNG"]

  /** The first fuel keyword the text contains (case-sensitive), else "Other". */
  function FuelOf(at: string): (r: string)
    ensures r == "Other" || (r in FuelKeywords && Contains(at, r))
  {
    if Contains(at, "Gasoline") then "Gasoline"
    else if Contains(at, "Diesel") then "Diesel"
    else if Contains(at, "Hybrid") then "Hybrid"
    else if Contains(at, "Electric") then "Electric"
    else if Contains(at, "LPG") then "LPG"
    else if Contains(at, "CNG") then "CNG"
    else "Other"
  }

  /** The position of the first keyword the text contains, |FuelKeywords| when none does. */
  function FuelIndex(at: string): (k: nat)
    ensures k <= |FuelKeywords|
    ensures k < |FuelKeywords| ==> Contains(at, FuelKeywords[k])
    ensures forall j :: 0 <= j < k ==> !Contains(at, FuelKeywords[j])
  {
    FuelIndexFrom(at, 0)
  }

  function FuelIndexFrom(at: string, i: nat): (k: nat)
    requires i <= |FuelKeywords|
    ensures i <= k <= |FuelKeywords|
    ensures k < |FuelKeywords| ==> Contains(at, FuelKeywords[k])
    ensures forall j :: i <= j < k ==> !Contains(at, FuelKeywords[j])
    decreases |FuelKeywords| - i
  {
    if i == |FuelKeywords| || Contains(at, FuelKeywords[i]) then i else FuelIndexFrom(at, i + 1)
  }

  /** The fuel is "Other" exactly when no keyword occurs, and otherwise the earliest keyword in the list that occurs. */
  lemma FuelOfSpec(at: string)
    ensures FuelOf(at) == "Other" <==> forall k :: 0 <= k < |FuelKeywords| ==> !Contains(at, FuelKeywords[k])
    ensures FuelOf(at) != "Other" ==>
      exists k :: 0 <= k < |FuelKeywords| && FuelOf(at) == FuelKeywords[k] && Contains(at, FuelKeywords[k])
        && forall j :: 0 <= j < k ==> !Contains(at, FuelKeywords[j])
  {
    var k := FuelIndex(at);
    if k < |FuelKeywords| {
      assert FuelOf(at) == FuelKeywords[k];
    }
  }

  datatype AtFields = AtFields(location: string, mileage: string, fuel: string)

  /**
    `parse_at_text`: the location (the text before the first comma, stripped), the mileage
    formatted with thousands separators and " km", and the fuel. None when the distance
    extractor raises.
  */
  function ParseAtText(at: string): (r: Option<AtFields>)
    ensures r.Some? <==> KmDefined(at)
    ensures r.Some? ==> GetKm(r.value.mileage) == GetKm(at)
    ensures r.Some? ==> r.value.fuel == FuelOf(at)
  {
    match GetKm(at)
    case None => None
    case Some(km) =>
      MileageRoundTrip(km);
      Some(AtFields(Strip(Split(at, ",")[0]), MileageText(km), FuelOf(at)))
  }

  /** Only whitespace lies before i and from j on. */
  predicate SpaceMargins(s: string, i: int, j: int) {
    && 0 <= i <= j <= |s|
    && (forall k :: 0 <= k < i ==> IsSpace(s[k]))
    && (forall k :: j <= k < |s| ==> IsSpace(s[k]))
  }

  /** The stripped text neither starts nor ends with whitespace. */
  lemma StripEnds(s: string)
    ensures Strip(s) == [] || (!IsSpace(Strip(s)[0]) && !IsSpace(Strip(s)[|Strip(s)| - 1]))
  {
    var t := TrimStart(s);
    var r := TrimEnd(t);
    TrimEndPrefix(t);
    if r != [] {
      assert r[0] == t[0];
    }
  }

  /** Stripping drops whitespace at both ends and keeps the contiguous middle. */
  lemma StripShape(s: string)
    ensures exists i, j :: SpaceMargins(s, i, j) && Strip(s) == s[i..j]
  {
    var t := TrimStart(s);
    var i := |s| - |t|;
    var r := TrimEnd(t);
    TrimStartSuffix(s);
    TrimEndPrefix(t);
    PrefixOfSuffix(s, t, r, i);
    SpacesOfSuffix(s, t, |r|, i);
    assert SpaceMargins(s, i, i + |r|);
  }

  lemma SpacesOfSuffix(s: string, t: string, n: nat, i: int)
    requires 0 <= i <= |s| && t == s[i..] && n <= |t|
    requires forall k :: n <= k < |t| ==> IsSpace(t[k])
    ensures forall k :: i + n <= k < |s| ==> IsSpace(s[k])
  {
    forall k | i + n <= k < |s| ensures IsSpace(s[k]) {
      assert s[k] == t[k - i];
    }
  }

  lemma PrefixOfSuffix(s: string, t: string, r: string, i: int)
    requires 0 <= i <= |s| && t == s[i..] && |r| <= |t| && r == t[..|r|]
    ensures s[i..i + |r|] == r
  {
  }

  /**
    The displayed fields agree with the filters: the mileage reads back as the same kilometres
    the distance filter uses, the location is the text before the first comma, stripped, and the
    fuel is "Other" or the first keyword in list order that the text contains.
  */
  lemma ParseAtTextSpec(at: string)
    requires KmDefined(at)
    ensures ParseAtText(at).Some?
    ensures GetKm(ParseAtText(at).value.mileage) == GetKm(at)
    ensures ParseAtText(at).value.location == Strip(Before(at, ','))
    ensures ParseAtText(at).value.fuel == "Other" <==> forall k :: 0 <= k < |FuelKeywords| ==> !Contains(at, FuelKeywords[k])
    ensures ParseAtText(at).value.fuel != "Other" ==>
      exists k :: 0 <= k < |FuelKeywords| && ParseAtText(at).value.fuel == FuelKeywords[k] && Contains(at, FuelKeywords[k])
        && forall j :: 0 <= j < k ==> !Contains(at, FuelKeywords[j])
    ensures ',' !in ParseAtText(at).value.location
    ensures CleanField(ParseAtText(at).value.location)
  {
    SplitByChar(at, ',');
    SplitPiecesFree(at, ",");
    var first := Split(at, ",")[0];
    ContainsChar(first, ',');
    StripShape(first);
    StripEnds(first);
    FuelOfSpec(at);
  }
}

=== FILE: filteroptions.dfy ===
/**
  The make -> model tree of `get_filter_options` (app.py): every stored title is decomposed by
  `parse_l_text`, the (make, model) pairs are tallied in a nested dictionary, and the tree is
  listed with makes and, under each make, models in ascending order.
*/
module FilterOptions {
  import opened StrOrder
  import opened Extractors

  /** The (make, model) pair of a stored title. */
  function MakeModel(l: string): (string, string) {
    var t := ParseLText(l);
    (t.make, t.model)
  }

  /** The pairs of all titles, in row order. */
  function Pairs(lTexts: seq<string>): (ps: seq<(string, string)>)
    ensures |ps| == |lTexts| && forall i :: 0 <= i < |lTexts| ==> ps[i] == MakeModel(lTexts[i])
  {
    seq(|lTexts|, i requires 0 <= i < |lTexts| => MakeModel(lTexts[i]))
  }

  /** How many rows have make m. */
  function CountMake(ps: seq<(string, string)>, m: string): nat {
    if ps == [] then 0
    else CountMake(ps[..|ps| - 1], m) + (if ps[|ps| - 1].0 == m then 1 else 0)
  }

  /** How many rows have make m and model mo. */
  function CountModel(ps: seq<(string, string)>, m: string, mo: string): nat {
    if ps == [] then 0
    else CountModel(ps[..|ps| - 1], m, mo) + (if ps[|ps| - 1] == (m, mo) then 1 else 0)
  }

  /** The dictionary entry of one make: `{"count": ..., "models": {...}}`. */
  datatype MakeTally = MakeTally(count: nat, models: map<string, nat>)

  /** The tree holds exactly the makes and models that occur, each with the number of its rows. */
  ghost predicate TreeOf(tree: map<string, MakeTally>, ps: seq<(string, string)>) {
    && (forall m :: m in tree <==> CountMake(ps, m) > 0)
    && (forall m | m in tree :: tree[m].count == CountMake(ps, m))
    && (forall m, mo | m in tree :: mo in tree[m].models <==> CountModel(ps, m, mo) > 0)
    && (forall m, mo | m in tree && mo in tree[m].models :: tree[m].models[mo] == CountModel(ps, m, mo))
  }

  lemma CountSnoc(ps: seq<(string, string)>, x: (string, string))
    ensures forall m :: CountMake(ps + [x], m) == CountMake(ps, m) + (if x.0 == m then 1 else 0)
    ensures forall m, mo :: CountModel(ps + [x], m, mo) == CountModel(ps, m, mo) + (if x == (m, mo) then 1 else 0)
  {
    assert (ps + [x])[..|ps|] == ps;
  }

  /** The first loop of `get_filter_options`: tallies every title into the tree. */
  method Tally(lTexts: seq<string>) returns (tree: map<string, MakeTally>)
    ensures TreeOf(tree, Pairs(lTexts))
  {
    tree := map[];
    ghost var ps := Pairs(lTexts);
    for i := 0 to |lTexts|
      invariant TreeOf(tree, ps[..i])
    {
      var t := ParseLText(lTexts[i]);
      var make, model := t.make, t.model;
      var entry := EntryOf(tree, make);
      var n := if model in entry.models then entry.models[model] else 0;
      assert ps[i] == (make, model);
      SliceSnoc(ps, i);
      TallyStep(tree, ps[..i], make, model, entry, n);
      tree := tree[make := MakeTally(entry.count + 1, entry.models[model := n + 1])];
    }
    assert ps[..|lTexts|] == ps;
  }

  lemma SliceSnoc<T>(s: seq<T>, i: nat)
    requires i < |s|
    ensures s[..i + 1] == s[..i] + [s[i]]
  {
  }

  /** The entry of make m before a row is counted: a make not yet in the tree starts from zero. */
  function EntryOf(tree: map<string, MakeTally>, m: string): MakeTally {
    if m in tree then tree[m] else MakeTally(0, map[])
  }

  /** One row's update keeps the tree in step with the rows seen so far. */
  lemma TallyStep(before: map<string, MakeTally>, ps: seq<(string, string)>, m: string, mo: string,
                  prev: MakeTally, n: nat)
    requires TreeOf(before, ps)
    requires prev == EntryOf(before, m)
    requires n == if mo in prev.models then prev.models[mo] else 0
    ensures TreeOf(before[m := MakeTally(prev.count + 1, prev.models[mo := n + 1])], ps + [(m, mo)])
  {
    CountSnoc(ps, (m, mo));
    var after := before[m := MakeTally(prev.count + 1, prev.models[mo := n + 1])];
    var qs := ps + [(m, mo)];
    forall k, ko | k in after
      ensures ko in after[k].models <==> CountModel(qs, k, ko) > 0
      ensures ko in after[k].models ==> after[k].models[ko] == CountModel(qs, k, ko)
    {
      if k == m && m !in before {
        assert CountModel(ps, k, ko) <= CountMake(ps, k) by { CountModelBound(ps, k, ko); }
      }
    }
  }

  lemma {:induction false} CountModelBound(ps: seq<(string, string)>, m: string, mo: string)
    ensures CountModel(ps, m, mo) <= CountMake(ps, m)
    decreases |ps|
  {
    if ps != [] {
      CountModelBound(ps[..|ps| - 1], m, mo);
    }
  }

  /** One model of a make in the listing: `{"name": ..., "count": ...}`. */
  datatype ModelOption = ModelOption(name: string, count: nat)

  /** One make in the listing, with its models. */
  datatype MakeOption = MakeOption(name: string, count: nat, models: seq<ModelOption>)

  /** The names of a list of entries, in list order. */
  function Names<T>(xs: seq<T>, name: T -> string): (r: seq<string>)
    ensures |r| == |xs| && forall j :: 0 <= j < |xs| ==> r[j] == name(xs[j])
  {
    seq(|xs|, j requires 0 <= j < |xs| => name(xs[j]))
  }

  function MakeNames(resp: seq<MakeOption>): seq<string> {
    Names(resp, (o: MakeOption) => o.name)
  }

  function ModelNames(models: seq<ModelOption>): seq<string> {
    Names(models, (o: ModelOption) => o.name)
  }

  /** The model list of make m: ascending names, exactly the models of m, each with its row count. */
  ghost predicate ModelsOf(models: seq<ModelOption>, ps: seq<(string, string)>, m: string) {
    && StrictlyAscending(ModelNames(models))
    && (forall mo :: mo in ModelNames(models) <==> CountModel(ps, m, mo) > 0)
    && (forall k :: 0 <= k < |models| ==> models[k].count == CountModel(ps, m, models[k].name))
  }

  /** One make of the listing: its row count and its model list. */
  ghost predicate MakeEntry(e: MakeOption, ps: seq<(string, string)>) {
    e.count == CountMake(ps, e.name) && ModelsOf(e.models, ps, e.name)
  }

  /** The listing: ascending make names, exactly the makes that occur, each with its count and models. */
  ghost predicate Describes(resp: seq<MakeOption>, ps: seq<(string, string)>) {
    && StrictlyAscending(MakeNames(resp))
    && (forall m :: m in MakeNames(resp) <==> CountMake(ps, m) > 0)
    && (forall j :: 0 <= j < |resp| ==> MakeEntry(resp[j], ps))
  }

  /** The second loop: lists one make's models in ascending order. */
  method ListModels(models: map<string, nat>, ghost ps: seq<(string, string)>, ghost m: string)
    returns (list: seq<ModelOption>)
    requires forall mo :: mo in models <==> CountModel(ps, m, mo) > 0
    requires forall mo | mo in models :: models[mo] == CountModel(ps, m, mo)
    ensures ModelsOf(list, ps, m)
  {
    var names := SortedKeys(models.Keys);
    list := [];
    for k := 0 to |names|
      invariant |list| == k
      invariant forall x :: 0 <= x < k ==> list[x] == ModelOption(names[x], models[names[x]])
    {
      list := list + [ModelOption(names[k], models[names[k]])];
    }
    assert ModelNames(list) == names;
  }

  /** `get_filter_options`: the tally, then the listing sorted at both levels. */
  method GetFilterOptions(lTexts: seq<string>) returns (resp: seq<MakeOption>)
    ensures Describes(resp, Pairs(lTexts))
  {
    var tree := Tally(lTexts);
    resp := ListTree(tree, Pairs(lTexts));
  }

  /** The second loop: the makes of the tree in ascending order, each with its sorted models. */
  method ListTree(tree: map<string, MakeTally>, ghost ps: seq<(string, string)>) returns (resp: seq<MakeOption>)
    requires TreeOf(tree, ps)
    ensures Describes(resp, ps)
  {
    var makes := SortedKeys(tree.Keys);
    resp := [];
    for j := 0 to |makes|
      invariant |resp| == j
      invariant forall x :: 0 <= x < j ==> resp[x].name == makes[x]
      invariant forall x :: 0 <= x < j ==> MakeEntry(resp[x], ps)
    {
      var opt := ListMake(makes[j], tree[makes[j]], ps);
      resp := resp + [opt];
    }
    assert MakeNames(resp) == makes;
  }

  /** One make of the listing: its name, its count and its sorted models. */
  method ListMake(make: string, entry: MakeTally, ghost ps: seq<(string, string)>) returns (opt: MakeOption)
    requires entry.count == CountMake(ps, make)
    requires forall mo :: mo in entry.models <==> CountModel(ps, make, mo) > 0
    requires forall mo | mo in entry.models :: entry.models[mo] == CountModel(ps, make, mo)
    ensures opt.name == make && MakeEntry(opt, ps)
  {
    var models := ListModels(entry.models, ps, make);
    opt := MakeOption(make, entry.count, models);
  }

  // ---------------------------------------------------------------------------
  // The totals the listing promises
  // ---------------------------------------------------------------------------

  /** The sum of the make counts of a listing. */
  function TotalCount(resp: seq<MakeOption>): nat {
    if resp == [] then 0 else resp[0].count + TotalCount(resp[1..])
  }

  /** The sum of the model counts of a model list. */
  function TotalModelCount(models: seq<ModelOption>): nat {
    if models == [] then 0 else models[0].count + TotalModelCount(models[1..])
  }

  /** How often a occurs in ks. */
  function Occurrences(ks: seq<string>, a: string): nat {
    if ks == [] then 0 else (if ks[0] == a then 1 else 0) + Occurrences(ks[1..], a)
  }

  lemma {:induction false} OccursOnce(ks: seq<string>, a: string)
    requires StrictlyAscending(ks)
    ensures Occurrences(ks, a) == if a in ks then 1 else 0
    decreases |ks|
  {
    if ks != [] {
      OccursOnce(ks[1..], a);
      if ks[0] == a {
        forall j | 0 <= j < |ks[1..]| ensures ks[1..][j] != a {
          assert Less(ks[0], ks[j + 1]);
          LessIrreflexive(a);
        }
      }
      assert a in ks <==> ks[0] == a || a in ks[1..];
    }
  }

  /** The make counts of the names ks. */
  function MakeSum(ps: seq<(string, string)>, ks: seq<string>): nat {
    if ks == [] then 0 else CountMake(ps, ks[0]) + MakeSum(ps, ks[1..])
  }

  /** The model counts of make m for the model names ks. */
  function ModelSum(ps: seq<(string, string)>, m: string, ks: seq<string>): nat {
    if ks == [] then 0 else CountModel(ps, m, ks[0]) + ModelSum(ps, m, ks[1..])
  }

  lemma {:induction false} MakeSumSnoc(ps: seq<(string, string)>, x: (string, string), ks: seq<string>)
    ensures MakeSum(ps + [x], ks) == MakeSum(ps, ks) + Occurrences(ks, x.0)
    decreases |ks|
  {
    if ks != [] {
      MakeSumSnoc(ps, x, ks[1..]);
      assert (ps + [x])[..|ps + [x]| - 1] == ps;
    }
  }

  lemma {:induction false} ModelSumSnoc(ps: seq<(string, string)>, x: (string, string), m: string, ks: seq<string>)
    ensures ModelSum(ps + [x], m, ks) == ModelSum(ps, m, ks) + (if x.0 == m then Occurrences(ks, x.1) else 0)
    decreases |ks|
  {
    if ks != [] {
      ModelSumSnoc(ps, x, m, ks[1..]);
      assert (ps + [x])[..|ps + [x]| - 1] == ps;
    }
  }

  lemma {:induction false} NoRowsSumZero(ks: seq<string>)
    ensures MakeSum([], ks) == 0
    ensures forall m :: ModelSum([], m, ks) == 0
    decreases |ks|
  {
    if ks != [] {
      NoRowsSumZero(ks[1..]);
    }
  }

  /** Counting every make once counts every row once. */
  lemma {:induction false} MakePartition(ps: seq<(string, string)>, ks: seq<string>)
    requires StrictlyAscending(ks)
    requires forall m :: CountMake(ps, m) > 0 ==> m in ks
    ensures MakeSum(ps, ks) == |ps|
    decreases |ps|
  {
    if ps != [] {
      var init := ps[..|ps| - 1];
      var x := ps[|ps| - 1];
      assert ps == init + [x];
      CountSnoc(init, x);
      MakePartition(init, ks);
      MakeSumSnoc(init, x, ks);
      OccursOnce(ks, x.0);
    } else {
      NoRowsSumZero(ks);
    }
  }

  /** Counting every model of make m once counts every row of m once. */
  lemma {:induction false} ModelPartition(ps: seq<(string, string)>, m: string, ks: seq<string>)
    requires StrictlyAscending(ks)
    requires forall mo :: CountModel(ps, m, mo) > 0 ==> mo in ks
    ensures ModelSum(ps, m, ks) == CountMake(ps, m)
    decreases |ps|
  {
    if ps != [] {
      var init := ps[..|ps| - 1];
      var x := ps[|ps| - 1];
      assert ps == init + [x];
      CountSnoc(init, x);
      ModelPartition(init, m, ks);
      ModelSumSnoc(init, x, m, ks);
      OccursOnce(ks, x.1);
    } else {
      NoRowsSumZero(ks);
    }
  }

  lemma {:induction false} TotalIsMakeSum(resp: seq<MakeOption>, ps: seq<(string, string)>)
    requires forall j :: 0 <= j < |resp| ==> resp[j].count == CountMake(ps, resp[j].name)
    ensures TotalCount(resp) == MakeSum(ps, MakeNames(resp))
    decreases |resp|
  {
    if resp != [] {
      TotalIsMakeSum(resp[1..], ps);
      assert MakeNames(resp)[1..] == MakeNames(resp[1..]);
    }
  }

  lemma {:induction false} TotalIsModelSum(models: seq<ModelOption>, ps: seq<(string, string)>, m: string)
    requires forall k :: 0 <= k < |models| ==> models[k].count == CountModel(ps, m, models[k].name)
    ensures TotalModelCount(models) == ModelSum(ps, m, ModelNames(models))
    decreases |models|
  {
    if models != [] {
      TotalIsModelSum(models[1..], ps, m);
      assert ModelNames(models)[1..] == ModelNames(models[1..]);
    }
  }

  /** The make counts of the listing add up to the number of rows read. */
  lemma MakeCountsSum(resp: seq<MakeOption>, ps: seq<(string, string)>)
    requires Describes(resp, ps)
    ensures TotalCount(resp) == |ps|
  {
    forall j | 0 <= j < |resp| ensures resp[j].count == CountMake(ps, resp[j].name) {
      assert MakeEntry(resp[j], ps);
    }
    TotalIsMakeSum(resp, ps);
    MakePartition(ps, MakeNames(resp));
  }

  /** Each make's count is the sum of its models' counts. */
  lemma ModelCountsSum(resp: seq<MakeOption>, ps: seq<(string, string)>, j: nat)
    requires Describes(resp, ps) && j < |resp|
    ensures TotalModelCount(resp[j].models) == resp[j].count
  {
    var e := resp[j];
    assert MakeEntry(e, ps);
    TotalIsModelSum(e.models, ps, e.name);
    ModelPartition(ps, e.name, ModelNames(e.models));
  }

  /**
    The listing is determined by the rows alone: whatever order the dictionaries were filled in,
    two listings of the same rows are the same.
  */
  lemma DescribesUnique(a: seq<MakeOption>, b: seq<MakeOption>, ps: seq<(string, string)>)
    requires Describes(a, ps) && Describes(b, ps)
    ensures a == b
  {
    SameAscending(MakeNames(a), MakeNames(b));
    forall j | 0 <= j < |a| ensures a[j] == b[j] {
      assert MakeNames(a)[j] == MakeNames(b)[j];
      var ma, mb := a[j].models, b[j].models;
      assert MakeEntry(a[j], ps) && MakeEntry(b[j], ps);
      SameAscending(ModelNames(ma), ModelNames(mb));
      forall k | 0 <= k < |ma| ensures ma[k] == mb[k] {
        assert ModelNames(ma)[k] == ModelNames(mb)[k];
      }
    }
  }

  /** Two ascending sequences of the same strings are equal. */
  lemma SameAscending(a: seq<string>, b: seq<string>)
    requires StrictlyAscending(a) && StrictlyAscending(b)
    requires forall x :: x in a <==> x in b
    ensures a == b
  {
    var sa := set x | x in a;
    var sb := set x | x in b;
    assert sa == sb;
    DistinctCard(a);
    DistinctCard(b);
    AscendingUnique(a, b);
  }

  lemma {:induction false} DistinctCard(a: seq<string>)
    requires StrictlyAscending(a)
    ensures |set x | x in a| == |a|
    decreases |a|
  {
    if a != [] {
      DistinctCard(a[1..]);
      var s := set x | x in a[1..];
      assert (set x | x in a) == s + {a[0]};
      assert a[0] !in s by {
        forall j | 0 <= j < |a[1..]| ensures a[1..][j] != a[0] {
          assert Less(a[0], a[j + 1]);
          LessIrreflexive(a[0]);
        }
      }
    }
  }
}

=== FILE: listam.dfy ===
/**
  The list.am discovery crawl (listAM/scrap.py): result pages 1..250 of the car category are
  loaded; every link inside a `div.gl` container whose href names an item becomes an `items` row,
  and each page's rows are written INSERT OR REPLACE on the item id. The browser is a function
  from a URL to the containers of the loaded page.
*/
module ListAm {
  import opened Wrappers
  import opened PyStrings
  import opened Schema
  import opened Tables

  const BaseUrl: string := "https://www.list.am/en/category/23"
  const TotalPages: nat := 250

  /** The value stored for a field whose element is missing, and for a missing image. */
  const Missing: string := "N/A"

  const ItemMarker: string := "/item/"

  // ---------------------------------------------------------------------------
  // One link
  // ---------------------------------------------------------------------------

  /** An `img` element's `data-original` and `src` attributes. */
  datatype Img = Img(dataOriginal: Option<string>, src: Option<string>)

  /**
    An `a` element: its href, its first `img`, and the stripped text of its `div.p`, `div.l`
    and `div.at` when present.
  */
  datatype ListLink = ListLink(href: Option<string>, img: Option<Img>, p: Option<string>, l: Option<string>, at: Option<string>)

  /** A `div.gl` container and the `a` elements inside it, in document order. */
  datatype Container = Container(links: seq<ListLink>)

  /**
    The item id: the piece of the href after the first "/item/" (up to a second one), cut at its
    first '?'. None for a missing or empty href, and for one without "/item/" (the IndexError).
  */
  function ItemId(href: Option<string>): (r: Option<string>)
    ensures r.Some? <==> href.Some? && Contains(href.value, ItemMarker)
    ensures r.Some? ==> '?' !in r.value
  {
    if href.None? || href.value == "" then None
    else
      var parts := Split(href.value, ItemMarker);
      if |parts| < 2 then None
      else
        SplitPiecesFree(parts[1], "?");
        ContainsChar(Split(parts[1], "?")[0], '?');
        Some(Split(parts[1], "?")[0])
  }

  /** `data-original or src`: an empty `data-original` counts as absent. */
  function RawSrc(img: Img): Option<string> {
    if img.dataOriginal.Some? && img.dataOriginal.value != "" then img.dataOriginal else img.src
  }

  /** The image URL: protocol-relative sources get "https:", others are kept, and none gives "N/A". */
  function ImageSrc(img: Option<Img>): (r: string)
    ensures r != [] && !StartsWith(r, "//")
  {
    if img.None? then Missing
    else
      var raw := RawSrc(img.value);
      if raw.None? || raw.value == "" then
        assert Missing[0] == 'N';
        Missing
      else if StartsWith(raw.value, "//") then
        assert ("https:" + raw.value)[0] == 'h';
        "https:" + raw.value
      else raw.value
  }

  /** A text field, "N/A" when its div is missing. */
  function FieldText(div: Option<string>): string {
    div.GetOr(Missing)
  }

  /** The row of one link, or None when the link is skipped. */
  function LinkItem(link: ListLink): (r: Option<ItemRow>)
    ensures r.Some? <==> link.href.Some? && Contains(link.href.value, ItemMarker)
    ensures r.Some? ==> r.value.id == ItemId(link.href).value && '?' !in r.value.id
  {
    match ItemId(link.href)
    case None => None
    case Some(id) => Some(ItemRow(id, ImageSrc(link.img), FieldText(link.p), FieldText(link.l), FieldText(link.at)))
  }

  /**
    The item id is the text after the first "/item/" up to the first '?', the next "/item/" or
    the end, whichever comes first; no "/item/" starts inside it.
  */
  lemma ItemIdAfterMarker(h: string)
    requires Contains(h, ItemMarker)
    ensures var rest := h[Find(h, ItemMarker).value + |ItemMarker|..];
      var id := ItemId(Some(h)).value;
      && '?' !in id
      && StartsWith(rest, id)
      && (|id| == |rest| || (|id| < |rest| && (rest[|id|] == '?' || OccursAt(rest, ItemMarker, |id|))))
      && forall j :: 0 <= j < |id| ==> !OccursAt(rest, ItemMarker, j)
  {
    var i := Find(h, ItemMarker).value;
    var rest := h[i + |ItemMarker|..];
    var seg := Split(h, ItemMarker)[1];
    assert seg == Split(rest, ItemMarker)[0];
    SplitFirstPiece(rest, ItemMarker);
    var id := Split(seg, "?")[0];
    SplitFirstPiece(seg, "?");
    SplitPiecesFree(seg, "?");
    ContainsChar(id, '?');
    if Find(seg, "?").Some? {
      var q := Find(seg, "?").value;
      assert seg[q..q + 1] == "?";
    }
  }

  /**
    Reading the id back: an href made of a prefix holding no earlier "/item/", the marker, an
    id holding neither "/item/" nor '?', and nothing or a query string yields that id.
  */
  lemma ItemIdRoundTrip(prefix: string, id: string, query: string)
    requires Find(prefix + ItemMarker, ItemMarker) == Some(|prefix|)
    requires !Contains(id, ItemMarker) && '?' !in id
    requires query == [] || query[0] == '?'
    ensures ItemId(Some(prefix + ItemMarker + id + query)) == Some(id)
  {
    var h := prefix + ItemMarker + id + query;
    assert h == (prefix + ItemMarker) + (id + query);
    SecondPiece(prefix, id + query);
    var seg := Split(id + query, ItemMarker)[0];
    SegmentStartsWithId(id, query);
    assert seg == id + seg[|id|..];
    CutAtQuery(id, seg[|id|..]);
  }

  /** After a leading marker, the second piece of the split is the first piece of what follows it. */
  lemma SecondPiece(prefix: string, tail: string)
    requires Find(prefix + ItemMarker, ItemMarker) == Some(|prefix|)
    ensures |Split(prefix + ItemMarker + tail, ItemMarker)| >= 2
    ensures Split(prefix + ItemMarker + tail, ItemMarker)[1] == Split(tail, ItemMarker)[0]
  {
    var h := prefix + ItemMarker + tail;
    FindFromExtend(prefix + ItemMarker, tail, ItemMarker, 0);
    assert h[|prefix| + |ItemMarker|..] == tail;
  }

  /**
    An id without the marker is not cut by it: a marker inside the id is excluded, and one that
    reaches into the query would hold its '?'. The first piece is the id, then nothing or a '?'.
  */
  lemma SegmentStartsWithId(id: string, query: string)
    requires !Contains(id, ItemMarker)
    requires query == [] || query[0] == '?'
    ensures var seg := Split(id + query, ItemMarker)[0];
      |id| <= |seg| && seg[..|id|] == id && (|seg| == |id| || seg[|id|] == '?')
  {
    var tail := id + query;
    SplitFirstPiece(tail, ItemMarker);
    MarkerNotAcrossQuery(id, query);
    var f := Find(tail, ItemMarker);
    if f.Some? && f.value < |id| {
      var x := f.value;
      if x + |ItemMarker| <= |id| {
        assert tail[x..x + |ItemMarker|] == id[x..x + |ItemMarker|];
        ContainsAt(id, ItemMarker, x);
      }
      assert false;
    }
  }

  /** No marker starts inside the id and runs into a query string, whose '?' the marker lacks. */
  lemma MarkerNotAcrossQuery(id: string, query: string)
    requires query == [] || query[0] == '?'
    ensures forall x :: 0 <= x < |id| < x + |ItemMarker| ==> !OccursAt(id + query, ItemMarker, x)
  {
    var tail := id + query;
    forall x | 0 <= x < |id| < x + |ItemMarker| ensures !OccursAt(tail, ItemMarker, x) {
      if x + |ItemMarker| <= |tail| {
        assert tail[x..x + |ItemMarker|][|id| - x] == '?';
      }
    }
  }

  /** Cutting at the first '?' keeps exactly the '?'-free head. */
  lemma CutAtQuery(id: string, rest: string)
    requires '?' !in id
    requires rest == [] || rest[0] == '?'
    ensures Split(id + rest, "?")[0] == id
  {
    if rest == [] {
      assert id + rest == id;
      SplitCharAbsent(id, '?');
    } else {
      assert id + rest == id + "?" + rest[1..];
      SplitAtFirst(id, '?', rest[1..]);
    }
  }

  /**
    The image URL: "N/A" without an image or a usable source; otherwise the source preferred by
    `data-original or src`, with "https:" in front exactly when it starts with "//".
  */
  lemma ImageSrcCases(img: Option<Img>)
    ensures img.None? || RawSrc(img.value).None? || RawSrc(img.value).value == "" ==> ImageSrc(img) == Missing
    ensures img.Some? && RawSrc(img.value).Some? && RawSrc(img.value).value != "" ==>
      var raw := RawSrc(img.value).value;
      if StartsWith(raw, "//") then ImageSrc(img) == "https:" + raw else ImageSrc(img) == raw
    ensures img.Some? && img.value.dataOriginal.Some? && img.value.dataOriginal.value != "" ==>
      ImageSrc(img) == ImageSrc(Some(Img(img.value.dataOriginal, None)))
  {
  }

  /** An accepted link's row carries its id and its three texts, "N/A" standing for a missing div. */
  lemma LinkItemFields(link: ListLink)
    ensures LinkItem(link).Some? <==> ItemId(link.href).Some?
    ensures LinkItem(link).Some? ==>
      var r := LinkItem(link).value;
      && r.id == ItemId(link.href).value
      && r.imageSrc == ImageSrc(link.img)
      && (link.p.None? ==> r.pText == Missing) && (link.p.Some? ==> r.pText == link.p.value)
      && (link.l.None? ==> r.lText == Missing) && (link.l.Some? ==> r.lText == link.l.value)
      && (link.at.None? ==> r.atText == Missing) && (link.at.Some? ==> r.atText == link.at.value)
  {
  }

  // ---------------------------------------------------------------------------
  // One page
  // ---------------------------------------------------------------------------

  /** The links of all containers, container by container. */
  function AllLinks(containers: seq<Container>): seq<ListLink> {
    if containers == [] then []
    else AllLinks(containers[..|containers| - 1]) + containers[|containers| - 1].links
  }

  /** The rows of the accepted links, in link order. */
  function PageItems(links: seq<ListLink>): seq<ItemRow> {
    if links == [] then []
    else
      var init := PageItems(links[..|links| - 1]);
      match LinkItem(links[|links| - 1])
      case None => init
      case Some(r) => init + [r]
  }

  /** Rows follow link order: the rows of a concatenation are the rows of each part, in turn. */
  lemma {:induction false} PageItemsAppend(a: seq<ListLink>, b: seq<ListLink>)
    ensures PageItems(a + b) == PageItems(a) + PageItems(b)
    decreases |b|
  {
    if b == [] {
      assert a + b == a;
    } else {
      PageItemsAppend(a, b[..|b| - 1]);
      assert (a + b)[..|a + b| - 1] == a + b[..|b| - 1];
    }
  }

  /** One row per accepted link: each row is the row of some link of the page, and skipped links add none. */
  lemma {:induction false} PageItemsFromLinks(links: seq<ListLink>)
    ensures |PageItems(links)| <= |links|
    ensures forall r :: r in PageItems(links) ==> exists i :: 0 <= i < |links| && LinkItem(links[i]) == Some(r)
    ensures (forall i :: 0 <= i < |links| ==> LinkItem(links[i]).None?) ==> PageItems(links) == []
  {
    if links != [] {
      var init := links[..|links| - 1];
      PageItemsFromLinks(init);
      forall r | r in PageItems(init)
        ensures exists i :: 0 <= i < |links| && LinkItem(links[i]) == Some(r)
      {
        var i :| 0 <= i < |init| && LinkItem(init[i]) == Some(r);
        assert links[i] == init[i];
      }
      if forall i :: 0 <= i < |links| ==> LinkItem(links[i]).None? {
        forall i | 0 <= i < |init| ensures LinkItem(init[i]).None? {
          assert init[i] == links[i];
        }
      }
    }
  }

  /**
    The per-page accumulation: every container's links are gathered in order, then every
    accepted link contributes its row.
  */
  method ExtractItems(containers: seq<Container>) returns (extractedItems: seq<ItemRow>)
    ensures extractedItems == PageItems(AllLinks(containers))
  {
    var allLinks: seq<ListLink> := [];
    for i := 0 to |containers|
      invariant allLinks == AllLinks(containers[..i])
    {
      assert containers[..i + 1][..i] == containers[..i];
      allLinks := allLinks + containers[i].links;
    }
    assert containers[..|containers|] == containers;
    extractedItems := [];
    for j := 0 to |allLinks|
      invariant extractedItems == PageItems(allLinks[..j])
    {
      assert allLinks[..j + 1][..j] == allLinks[..j];
      match LinkItem(allLinks[j])
      case None =>
      case Some(r) =>
        extractedItems := extractedItems + [r];
    }
    assert allLinks[..|allLinks|] == allLinks;
  }

  /** Page 1 is the category URL itself; page n > 1 appends "/n". */
  function PageUrl(n: nat): (url: string)
    ensures StartsWith(url, BaseUrl)
  {
    if n == 1 then BaseUrl else BaseUrl + "/" + Decimal(n)
  }

  /** Distinct pages load distinct URLs. */
  lemma PageUrlInjective(a: nat, b: nat)
    requires PageUrl(a) == PageUrl(b)
    ensures a == b
  {
    if a != 1 && b != 1 {
      assert Decimal(a) == PageUrl(a)[|BaseUrl| + 1..];
      assert Decimal(b) == PageUrl(b)[|BaseUrl| + 1..];
      DecimalInjective(a, b);
    }
  }

  /** The rows of pages 1..n, page after page; a page without containers contributes none. */
  function CrawlItems(n: nat, browser: string -> seq<Container>): seq<ItemRow> {
    if n == 0 then []
    else CrawlItems(n - 1, browser) + PageItems(AllLinks(browser(PageUrl(n))))
  }

  lemma EmptyPageSavesNothing(n: nat, browser: string -> seq<Container>)
    requires n >= 1 && browser(PageUrl(n)) == []
    ensures CrawlItems(n, browser) == CrawlItems(n - 1, browser)
  {
    assert CrawlItems(n, browser) == CrawlItems(n - 1, browser) + PageItems([]);
  }

  // ---------------------------------------------------------------------------
  // The items table
  // ---------------------------------------------------------------------------

  class ItemTable {
    /** The `items` table, keyed by item id. */
    var rows: map<string, ItemRow>

    constructor ()
      ensures rows == map[]
    {
      rows := map[];
    }

    /**
      `save_items`: INSERT OR REPLACE of each tuple in order, so each id ends up with the last tuple
      for it and every other row stays; an empty list changes nothing.
    */
    method SaveItems(items: seq<ItemRow>)
      modifies this
      ensures rows == ReplaceAll(old(rows), ItemKey, items)
      ensures items == [] ==> rows == old(rows)
    {
      if items == [] {
        return;
      }
      ghost var start := rows;
      for i := 0 to |items|
        invariant rows == ReplaceAll(start, ItemKey, items[..i])
      {
        assert items[..i + 1][..i] == items[..i];
        rows := rows[items[i].id := items[i]];
      }
      assert items[..|items|] == items;
    }
  }

  /**
    `main`: pages 1..250 in order; a page without containers is skipped, every other page's rows
    are saved. The table ends as if all rows were written in page order.
  */
  method ScrapeAll(table: ItemTable, browser: string -> seq<Container>)
    modifies table
    ensures table.rows == ReplaceAll(old(table.rows), ItemKey, CrawlItems(TotalPages, browser))
  {
    ghost var start := table.rows;
    for pageNum := 1 to TotalPages + 1
      invariant table.rows == ReplaceAll(start, ItemKey, CrawlItems(pageNum - 1, browser))
    {
      var url := PageUrl(pageNum);
      var containers := browser(url);
      if containers == [] {
        EmptyPageSavesNothing(pageNum, browser);
        continue;
      }
      var extractedItems := ExtractItems(containers);
      ReplaceAllAppend(start, ItemKey, CrawlItems(pageNum - 1, browser), extractedItems);
      table.SaveItems(extractedItems);
    }
  }
}

=== FILE: pystrings.dfy ===
/**
  The Python string primitives the scrapers and the query engine are built from:
  `in`, `str.find`, `str.split`, `str.join`, `str.strip`, `str.lower`,
  `str.replace(c, '')`, `str.isdigit`, `int(...)`, `str(n)` and `f"{n:,}"`.
  Strings are sequences of Unicode code points, as in Python 3.
*/
module PyStrings {
  import opened Wrappers

  // ---------------------------------------------------------------------------
  // Character classes
  // ---------------------------------------------------------------------------

  /** The characters `str.isspace()` accepts; `str.strip()` and the regex class `\s` use the same set. */
  predicate IsSpace(c: char) {
    || c == ' ' || c == '\t' || c == '\n' || c == '\r' || c == '\U{0B}' || c == '\U{0C}'
    || ('\U{1C}' <= c <= '\U{1F}') || c == '\U{85}' || c == '\U{A0}' || c == '\U{1680}'
    || ('\U{2000}' <= c <= '\U{200A}') || c == '\U{2028}' || c == '\U{2029}'
    || c == '\U{202F}' || c == '\U{205F}' || c == '\U{3000}'
  }

  /** An ASCII decimal digit (the regex class `\d` restricted to ASCII). */
  predicate IsDigit(c: char) {
    '0' <= c <= '9'
  }

  predicate AllDigits(s: string) {
    forall i :: 0 <= i < |s| ==> IsDigit(s[i])
  }

  /** `str.isdigit()`: non-empty and made of digits only. */
  predicate IsDigits(s: string) {
    |s| > 0 && AllDigits(s)
  }

  function DigitValue(c: char): (d: nat)
    requires IsDigit(c)
    ensures d < 10
  {
    c as int - '0' as int
  }

  function DigitChar(d: nat): (c: char)
    requires d < 10
    ensures IsDigit(c) && DigitValue(c) == d
  {
    ('0' as int + d) as char
  }

  // ---------------------------------------------------------------------------
  // Numbers and their decimal text
  // ---------------------------------------------------------------------------

  /** `int(s)` (equally `float(s)`) of a string of digits; the empty string has value 0. */
  function DigitsValue(s: string): nat
    requires AllDigits(s)
  {
    if s == [] then 0 else DigitsValue(s[..|s| - 1]) * 10 + DigitValue(s[|s| - 1])
  }

  /** `str(n)`: the decimal digits of n, without leading zeros. */
  function Decimal(n: nat): (s: string)
    ensures IsDigits(s)
    ensures s[0] == '0' ==> n == 0
  {
    if n < 10 then [DigitChar(n)] else Decimal(n / 10) + [DigitChar(n % 10)]
  }

  /** `int(str(n)) == n`. */
  lemma {:induction false} DecimalValue(n: nat)
    ensures DigitsValue(Decimal(n)) == n
  {
    if n >= 10 {
      var s := Decimal(n);
      assert s[..|s| - 1] == Decimal(n / 10);
      DecimalValue(n / 10);
    }
  }

  /** Distinct numbers have distinct decimal texts. */
  lemma DecimalInjective(a: nat, b: nat)
    requires Decimal(a) == Decimal(b)
    ensures a == b
  {
    DecimalValue(a);
    DecimalValue(b);
  }

  /** Three digits with leading zeros: one group of `f"{n:,}"` after the first. */
  function Pad3(r: nat): (s: string)
    requires r < 1000
  {
    [DigitChar(r / 100), DigitChar(r / 10 % 10), DigitChar(r % 10)]
  }

  /** `f"{n:,}"`: the decimal digits of n grouped in threes from the right, separated by commas. */
  function Thousands(n: nat): (s: string)
    ensures |s| > 0 && IsDigit(s[0])
    ensures forall i :: 0 <= i < |s| ==> IsDigit(s[i]) || s[i] == ','
  {
    if n < 1000 then Decimal(n) else Thousands(n / 1000) + "," + Pad3(n % 1000)
  }

  /** `s.replace(c, '')`. */
  function RemoveChar(s: string, c: char): (r: string)
    ensures c !in r && |r| <= |s|
    ensures forall x :: x in r <==> x in s && x != c
  {
    if s == [] then [] else (if s[0] == c then [] else [s[0]]) + RemoveChar(s[1..], c)
  }

  lemma {:induction false} RemoveCharAppend(a: string, b: string, c: char)
    ensures RemoveChar(a + b, c) == RemoveChar(a, c) + RemoveChar(b, c)
  {
    if a == [] {
      assert a + b == b;
    } else {
      var h := if a[0] == c then [] else [a[0]];
      assert (a + b)[0] == a[0];
      assert (a + b)[1..] == a[1..] + b;
      RemoveCharAppend(a[1..], b, c);
      calc {
        RemoveChar(a + b, c);
        h + RemoveChar(a[1..] + b, c);
        h + (RemoveChar(a[1..], c) + RemoveChar(b, c));
        (h + RemoveChar(a[1..], c)) + RemoveChar(b, c);
      }
    }
  }

  lemma RemoveCharAbsent(s: string, c: char)
    requires c !in s
    ensures RemoveChar(s, c) == s
  {
    if s != [] {
      assert c !in s[1..];
      RemoveCharAbsent(s[1..], c);
    }
  }

  lemma DecimalSplit3(n: nat)
    requires n >= 1000
    ensures Decimal(n) == Decimal(n / 1000) + Pad3(n % 1000)
  {
    var r := n % 1000;
    assert n / 10 / 10 == n / 100;
    assert n / 100 / 10 == n / 1000;
    assert n % 10 == r % 10;
    assert n / 10 % 10 == r / 10 % 10;
    assert n / 100 % 10 == r / 100;
    calc {
      Decimal(n);
      Decimal(n / 10) + [DigitChar(n % 10)];
      Decimal(n / 100) + [DigitChar(n / 10 % 10)] + [DigitChar(n % 10)];
      Decimal(n / 1000) + [DigitChar(n / 100 % 10)] + [DigitChar(n / 10 % 10)] + [DigitChar(n % 10)];
    }
  }

  /** Removing the thousands separators from `f"{n:,}"` gives `str(n)`. */
  lemma {:induction false} ThousandsDigits(n: nat)
    ensures RemoveChar(Thousands(n), ',') == Decimal(n)
  {
    if n < 1000 {
      RemoveCharAbsent(Decimal(n), ',');
    } else {
      ThousandsDigits(n / 1000);
      var p := Pad3(n % 1000);
      assert ',' !in p;
      RemoveSeparator(Thousands(n / 1000), p, ',');
      DecimalSplit3(n);
    }
  }

  /** Removing c from a, c, b where b holds no c. */
  lemma RemoveSeparator(a: string, b: string, c: char)
    requires c !in b
    ensures RemoveChar(a + [c] + b, c) == RemoveChar(a, c) + b
  {
    RemoveCharAppend(a + [c], b, c);
    RemoveCharAppend(a, [c], c);
    RemoveCharAbsent(b, c);
    RemoveCharSingle(c);
  }

  lemma RemoveCharSingle(c: char)
    ensures RemoveChar([c], c) == []
  {
    assert [c][1..] == [];
  }

  // ---------------------------------------------------------------------------
  // Searching
  // ---------------------------------------------------------------------------

  predicate OccursAt(s: string, p: string, i: int) {
    0 <= i && i + |p| <= |s| && s[i..i + |p|] == p
  }

  /** `s.find(p, i)`: the leftmost index at or after i where p occurs. */
  function FindFrom(s: string, p: string, i: nat): (r: Option<nat>)
    ensures r.Some? ==> i <= r.value && OccursAt(s, p, r.value)
    ensures r.Some? ==> forall j :: i <= j < r.value ==> !OccursAt(s, p, j)
    ensures r.None? ==> forall j :: i <= j ==> !OccursAt(s, p, j)
    decreases |s| - i
  {
    if i + |p| > |s| then None
    else if s[i..i + |p|] == p then Some(i)
    else FindFrom(s, p, i + 1)
  }

  /** `s.find(p)`, None standing for -1. */
  function Find(s: string, p: string): Option<nat> {
    FindFrom(s, p, 0)
  }

  /** A match found in s is still the leftmost one once s is extended. */
  lemma {:induction false} FindFromExtend(s: string, t: string, p: string, i: nat)
    requires FindFrom(s, p, i).Some?
    ensures FindFrom(s + t, p, i) == FindFrom(s, p, i)
    decreases |s| - i
  {
    assert (s + t)[i..i + |p|] == s[i..i + |p|];
    if s[i..i + |p|] != p {
      FindFromExtend(s, t, p, i + 1);
    }
  }

  /** Python's `p in s`. */
  predicate Contains(s: string, p: string) {
    Find(s, p).Some?
  }

  lemma ContainsIff(s: string, p: string)
    ensures Contains(s, p) <==> exists j :: OccursAt(s, p, j)
  {
  }

  lemma ContainsAt(s: string, p: string, j: int)
    requires OccursAt(s, p, j)
    ensures Contains(s, p)
  {
  }

  /** A one-character pattern is contained exactly when the character occurs. */
  lemma ContainsChar(s: string, c: char)
    ensures Contains(s, [c]) <==> c in s
  {
    if c in s {
      var j :| 0 <= j < |s| && s[j] == c;
      assert OccursAt(s, [c], j);
    }
    if Contains(s, [c]) {
      var j := Find(s, [c]).value;
      assert s[j..j + 1] == [c];
      assert s[j] == c;
    }
  }

  /** `s.startswith(p)`. */
  predicate StartsWith(s: string, p: string) {
    |p| <= |s| && s[..|p|] == p
  }

  // ---------------------------------------------------------------------------
  // split and join
  // ---------------------------------------------------------------------------

  /** `s.split(sep)` for a non-empty separator: cut at each leftmost non-overlapping occurrence. */
  function Split(s: string, sep: string): (parts: seq<string>)
    requires |sep| > 0
    ensures |parts| >= 1
    decreases |s|
  {
    match Find(s, sep)
    case None => [s]
    case Some(i) => [s[..i]] + Split(s[i + |sep|..], sep)
  }

  /** `sep.join(parts)`. */
  function Join(parts: seq<string>, sep: string): string {
    if |parts| == 0 then ""
    else if |parts| == 1 then parts[0]
    else parts[0] + sep + Join(parts[1..], sep)
  }

  /** Joining the pieces of a split with the same separator gives the original text back. */
  lemma {:induction false} JoinSplit(s: string, sep: string)
    requires |sep| > 0
    ensures Join(Split(s, sep), sep) == s
    decreases |s|
  {
    var f := Find(s, sep);
    if f.Some? {
      var i := f.value;
      var rest := s[i + |sep|..];
      var tail := Split(rest, sep);
      assert Split(s, sep) == [s[..i]] + tail;
      JoinSplit(rest, sep);
      assert ([s[..i]] + tail)[1..] == tail;
      assert Join(Split(s, sep), sep) == s[..i] + sep + Join(tail, sep);
      assert s[i..i + |sep|] == sep;
      assert s == s[..i] + s[i..i + |sep|] + rest;
    }
  }

  /** No piece of a split contains the separator. */
  lemma {:induction false} SplitPiecesFree(s: string, sep: string)
    requires |sep| > 0
    ensures forall k :: 0 <= k < |Split(s, sep)| ==> !Contains(Split(s, sep)[k], sep)
    decreases |s|
  {
    match Find(s, sep)
    case None =>
    case Some(i) =>
      SplitPiecesFree(s[i + |sep|..], sep);
      forall j | OccursAt(s[..i], sep, j)
        ensures false
      {
        assert s[..i][j..j + |sep|] == s[j..j + |sep|];
        assert OccursAt(s, sep, j);
      }
  }

  /** Text without the separator splits into itself alone. */
  lemma SplitAbsent(s: string, sep: string)
    requires |sep| > 0 && !Contains(s, sep)
    ensures Split(s, sep) == [s]
  {
  }

  /** Splitting on a character the text does not hold gives the text alone. */
  lemma SplitCharAbsent(s: string, c: char)
    requires c !in s
    ensures Split(s, [c]) == [s]
  {
    ContainsChar(s, c);
    SplitAbsent(s, [c]);
  }

  /** With a one-character separator absent from a, `(a + c + b).split(c)` is `[a] + b.split(c)`. */
  lemma SplitAtFirst(a: string, c: char, b: string)
    requires c !in a
    ensures Split(a + [c] + b, [c]) == [a] + Split(b, [c])
  {
    var s := a + [c] + b;
    assert OccursAt(s, [c], |a|);
    forall j | 0 <= j < |a|
      ensures !OccursAt(s, [c], j)
    {
      assert s[j] == a[j];
    }
    assert Find(s, [c]) == Some(|a|);
    assert s[..|a|] == a;
    assert s[|a| + 1..] == b;
  }

  /** The first piece of `s.split(sep)` is the text before the first separator. */
  lemma SplitFirstPiece(s: string, sep: string)
    requires |sep| > 0
    ensures Split(s, sep)[0] == if Find(s, sep).Some? then s[..Find(s, sep).value] else s
  {
  }

  // ---------------------------------------------------------------------------
  // strip and lower
  // ---------------------------------------------------------------------------

  function TrimStart(s: string): (r: string)
    ensures |r| <= |s|
    ensures r == [] || !IsSpace(r[0])
    ensures forall i :: 0 <= i < |s| - |r| ==> IsSpace(s[i])
  {
    if s != [] && IsSpace(s[0]) then TrimStart(s[1..]) else s
  }

  function TrimEnd(s: string): (r: string)
    ensures |r| <= |s|
    ensures r == [] || !IsSpace(r[|r| - 1])
    ensures forall i :: |r| <= i < |s| ==> IsSpace(s[i])
  {
    if s != [] && IsSpace(s[|s| - 1]) then TrimEnd(s[..|s| - 1]) else s
  }

  /** What `lstrip` keeps is a suffix of the text. */
  lemma {:induction false} TrimStartSuffix(s: string)
    ensures TrimStart(s) == s[|s| - |TrimStart(s)|..]
  {
    if s != [] && IsSpace(s[0]) {
      TrimStartSuffix(s[1..]);
    }
  }

  /** What `rstrip` keeps is a prefix of the text. */
  lemma {:induction false} TrimEndPrefix(s: string)
    ensures TrimEnd(s) == s[..|TrimEnd(s)|]
  {
    if s != [] && IsSpace(s[|s| - 1]) {
      TrimEndPrefix(s[..|s| - 1]);
    }
  }

  /** `s.strip()`. */
  function Strip(s: string): string {
    TrimEnd(TrimStart(s))
  }

  /** A leading space makes no difference to `lstrip`. */
  lemma TrimStartSpace(s: string)
    ensures TrimStart(" " + s) == TrimStart(s)
  {
    assert (" " + s)[1..] == s;
  }

  /** Text that neither starts nor ends with whitespace is its own strip. */
  lemma StripTrimmed(s: string)
    requires s == [] || (!IsSpace(s[0]) && !IsSpace(s[|s| - 1]))
    ensures Strip(s) == s
  {
  }

  function LowerChar(c: char): char {
    if 'A' <= c <= 'Z' then (c as int + 32) as char else c
  }

  /** `s.lower()`, on the ASCII letters. */
  function Lower(s: string): (r: string)
    ensures |r| == |s| && forall i :: 0 <= i < |s| ==> r[i] == LowerChar(s[i])
  {
    seq(|s|, i requires 0 <= i < |s| => LowerChar(s[i]))
  }
}

=== FILE: schema.dfy ===
/** The rows of the three SQLite tables the scrapers write and the query engine reads. */
module Schema {
  import opened Wrappers

  /** A row of the list.am `items` table, primary key `id`. */
  datatype ItemRow = ItemRow(id: string, imageSrc: string, pText: string, lText: string, atText: string)

  function ItemKey(r: ItemRow): string {
    r.id
  }

  /**
    A row of the auto.am `cars` table, primary key `id`. Attributes a card's link may lack are
    NULL-able; the `scraped_at` default timestamp is not part of the model.
  */
  datatype CarRow = CarRow(
    id: string,
    brand: Option<string>,
    model: Option<string>,
    price: Option<string>,
    currency: string,
    taxed: bool,
    year: string,
    originalPriceText: string)

  function CarKey(r: CarRow): string {
    r.id
  }

  /** A row of the `tags` table; its auto-increment id is its position in insertion order. */
  datatype TagRow = TagRow(carId: string, attribute: string, value: string)

  /** The UNIQUE(car_id, attribute) key of a tag. */
  function TagKey(t: TagRow): (string, string) {
    (t.carId, t.attribute)
  }
}

=== FILE: strorder.dfy ===
/**
  Python's ordering of `str` values and `sorted(d.items())` over a dictionary
  with string keys: keys are distinct, so the items come out in ascending key order.
*/
module StrOrder {

  /** Python's `a < b` on `str`: lexicographic by code point, a proper prefix first. */
  predicate Less(a: string, b: string)
    decreases |a|
  {
    b != [] && (a == [] || a[0] < b[0] || (a[0] == b[0] && Less(a[1..], b[1..])))
  }

  lemma {:induction false} LessIrreflexive(a: string)
    ensures !Less(a, a)
    decreases |a|
  {
    if a != [] {
      LessIrreflexive(a[1..]);
    }
  }

  lemma {:induction false} LessTransitive(a: string, b: string, c: string)
    requires Less(a, b) && Less(b, c)
    ensures Less(a, c)
    decreases |a|
  {
    if a != [] && a[0] == b[0] && b[0] == c[0] {
      LessTransitive(a[1..], b[1..], c[1..]);
    }
  }

  lemma {:induction false} LessTotal(a: string, b: string)
    requires a != b
    ensures Less(a, b) || Less(b, a)
    decreases |a|
  {
    if a != [] && b != [] && a[0] == b[0] {
      assert a == [a[0]] + a[1..] && b == [b[0]] + b[1..];
      LessTotal(a[1..], b[1..]);
    }
  }

  lemma LessAsymmetric(a: string, b: string)
    requires Less(a, b)
    ensures !Less(b, a)
  {
    if Less(b, a) {
      LessTransitive(a, b, a);
      LessIrreflexive(a);
    }
  }

  /** Each element strictly smaller than the next: ascending and without repetition. */
  predicate StrictlyAscending(s: seq<string>) {
    forall i, j :: 0 <= i < j < |s| ==> Less(s[i], s[j])
  }

  /** Places k in an ascending sequence that does not hold it yet. */
  function Insert(s: seq<string>, k: string): (r: seq<string>)
    requires StrictlyAscending(s) && k !in s
    ensures StrictlyAscending(r)
    ensures |r| == |s| + 1
    ensures forall x :: x in r <==> x in s || x == k
  {
    if s == [] then [k]
    else if Less(k, s[0]) then
      assert forall j :: 0 <= j < |s| ==> Less(k, s[j]) by {
        forall j | 0 < j < |s| ensures Less(k, s[j]) { LessTransitive(k, s[0], s[j]); }
      }
      [k] + s
    else
      LessTotal(k, s[0]);
      var tail := Insert(s[1..], k);
      assert forall x :: x in tail ==> Less(s[0], x);
      [s[0]] + tail
  }

  /** `sorted(keys)`: the keys of a dictionary in ascending order, each once. */
  method SortedKeys(keys: set<string>) returns (r: seq<string>)
    ensures StrictlyAscending(r)
    ensures forall k :: k in r <==> k in keys
    ensures |r| == |keys|
  {
    r := [];
    var rest := keys;
    while rest != {}
      invariant rest <= keys
      invariant StrictlyAscending(r)
      invariant forall k :: k in r <==> k in keys && k !in rest
      invariant |r| + |rest| == |keys|
      decreases |rest|
    {
      var k :| k in rest;
      r := Insert(r, k);
      rest := rest - {k};
    }
  }

  /** Two ascending sequences holding the same strings are the same sequence: the sorted order is unique. */
  lemma {:induction false} AscendingUnique(a: seq<string>, b: seq<string>)
    requires StrictlyAscending(a) && StrictlyAscending(b)
    requires |a| == |b| && forall x :: x in a <==> x in b
    ensures a == b
    decreases |a|
  {
    if a != [] && b != [] {
      if a[0] != b[0] {
        assert a[0] in a && b[0] in b;
        var i :| 0 <= i < |b| && b[i] == a[0];
        var j :| 0 <= j < |a| && a[j] == b[0];
        assert i > 0 && j > 0;
        LessAsymmetric(b[0], a[0]);
      }
      forall x ensures x in a[1..] <==> x in b[1..] {
        if x in a[1..] {
          var i :| 1 <= i < |a| && a[i] == x;
          LessIrreflexive(x);
          assert x in a;
          var k :| 0 <= k < |b| && b[k] == x;
          assert k != 0;
          assert b[1..][k - 1] == x;
        }
        if x in b[1..] {
          var i :| 1 <= i < |b| && b[i] == x;
          LessIrreflexive(x);
          assert x in b;
          var k :| 0 <= k < |a| && a[k] == x;
          assert k != 0;
          assert a[1..][k - 1] == x;
        }
      }
      AscendingUnique(a[1..], b[1..]);
    }
  }
}

=== FILE: tables.dfy ===
/**
  The two SQLite write disciplines the scrapers use, on tables seen as keyed collections:
  `INSERT OR REPLACE` on a primary key (a map from key to the whole row) and
  `INSERT OR IGNORE` on a unique key (rows kept in insertion order).
  A batch passed to `executemany` is applied row by row, in batch order.
*/
module Tables {

  // ---------------------------------------------------------------------------
  // INSERT OR REPLACE
  // ---------------------------------------------------------------------------

  /** Some row of the batch has key k. */
  predicate InBatch<V>(batch: seq<V>, key: V -> string, k: string) {
    exists i :: 0 <= i < |batch| && key(batch[i]) == k
  }

  /** The position of the last row of the batch with key k, or -1 when there is none. */
  function LastIndex<V>(batch: seq<V>, key: V -> string, k: string): (i: int)
    ensures -1 <= i < |batch|
    ensures i >= 0 ==> key(batch[i]) == k
    ensures forall j :: i < j < |batch| ==> key(batch[j]) != k
    ensures i == -1 <==> !InBatch(batch, key, k)
  {
    if batch == [] then -1
    else if key(batch[|batch| - 1]) == k then |batch| - 1
    else LastIndex(batch[..|batch| - 1], key, k)
  }

  /** The table after `INSERT OR REPLACE` of every row of the batch, in order. */
  function ReplaceAll<V>(t: map<string, V>, key: V -> string, batch: seq<V>): map<string, V>
  {
    if batch == [] then t
    else
      var last := batch[|batch| - 1];
      ReplaceAll(t, key, batch[..|batch| - 1])[key(last) := last]
  }

  /**
    After the batch, a key of the batch holds the LAST row with that key (last write wins),
    and every other key holds what it held before, or stays absent.
  */
  lemma {:induction false} ReplaceAllAt<V>(t: map<string, V>, key: V -> string, batch: seq<V>, k: string)
    ensures k in ReplaceAll(t, key, batch) <==> k in t || InBatch(batch, key, k)
    ensures InBatch(batch, key, k) ==>
      ReplaceAll(t, key, batch)[k] == batch[LastIndex(batch, key, k)]
    ensures !InBatch(batch, key, k) && k in t ==> ReplaceAll(t, key, batch)[k] == t[k]
    decreases |batch|
  {
    if batch != [] {
      var init := batch[..|batch| - 1];
      ReplaceAllAt(t, key, init, k);
      if key(batch[|batch| - 1]) != k {
        forall i | 0 <= i < |init| ensures init[i] == batch[i] { }
        if InBatch(batch, key, k) {
          var i :| 0 <= i < |batch| && key(batch[i]) == k;
          assert init[i] == batch[i];
        }
      }
    }
  }

  /** The keys afterwards are the old keys plus the batch's keys. */
  function BatchKeys<V>(batch: seq<V>, key: V -> string): (ks: set<string>)
    ensures forall k :: k in ks <==> InBatch(batch, key, k)
  {
    set i | 0 <= i < |batch| :: key(batch[i])
  }

  /** The row count grows by exactly the number of batch keys the table did not hold. */
  lemma ReplaceAllCount<V>(t: map<string, V>, key: V -> string, batch: seq<V>)
    ensures |ReplaceAll(t, key, batch)| == |t| + |BatchKeys(batch, key) - t.Keys|
  {
    var r := ReplaceAll(t, key, batch);
    forall k ensures k in r.Keys <==> k in t.Keys + (BatchKeys(batch, key) - t.Keys) {
      ReplaceAllAt(t, key, batch, k);
    }
    assert r.Keys == t.Keys + (BatchKeys(batch, key) - t.Keys);
    assert t.Keys !! (BatchKeys(batch, key) - t.Keys);
  }

  /** Writing the same batch a second time changes nothing. */
  lemma ReplaceAllIdempotent<V>(t: map<string, V>, key: V -> string, batch: seq<V>)
    ensures ReplaceAll(ReplaceAll(t, key, batch), key, batch) == ReplaceAll(t, key, batch)
  {
    var once := ReplaceAll(t, key, batch);
    var twice := ReplaceAll(once, key, batch);
    forall k ensures k in twice <==> k in once
    {
      ReplaceAllAt(t, key, batch, k);
      ReplaceAllAt(once, key, batch, k);
    }
    forall k | k in twice ensures twice[k] == once[k]
    {
      ReplaceAllAt(t, key, batch, k);
      ReplaceAllAt(once, key, batch, k);
    }
  }

  /** Writing batch a and then batch b is writing their concatenation. */
  lemma {:induction false} ReplaceAllAppend<V>(t: map<string, V>, key: V -> string, a: seq<V>, b: seq<V>)
    ensures ReplaceAll(ReplaceAll(t, key, a), key, b) == ReplaceAll(t, key, a + b)
    decreases |b|
  {
    if b == [] {
      assert a + b == a;
    } else {
      var b' := b[..|b| - 1];
      ReplaceAllAppend(t, key, a, b');
      assert (a + b)[..|a + b| - 1] == a + b';
    }
  }

  // ---------------------------------------------------------------------------
  // INSERT OR IGNORE
  // ---------------------------------------------------------------------------

  /** Some row carries key k. */
  predicate HasKey<R, K(==)>(rows: seq<R>, key: R -> K, k: K) {
    exists i :: 0 <= i < |rows| && key(rows[i]) == k
  }

  /** The UNIQUE constraint: no two rows share a key. */
  predicate UniqueKeys<R, K(==)>(rows: seq<R>, key: R -> K) {
    forall i, j :: 0 <= i < j < |rows| ==> key(rows[i]) != key(rows[j])
  }

  /** One `INSERT OR IGNORE`: the row is appended unless its key is taken. */
  function InsertOrIgnore<R, K(==)>(rows: seq<R>, key: R -> K, r: R): seq<R> {
    if HasKey(rows, key, key(r)) then rows else rows + [r]
  }

  /** `executemany` of INSERT OR IGNORE over a batch, in order. */
  function InsertOrIgnoreAll<R, K(==)>(rows: seq<R>, key: R -> K, batch: seq<R>): seq<R> {
    if batch == [] then rows
    else InsertOrIgnore(InsertOrIgnoreAll(rows, key, batch[..|batch| - 1]), key, batch[|batch| - 1])
  }

  /** The keys after insert-or-ignore are the table's keys and the batch's keys. */
  lemma {:induction false} InsertOrIgnoreAllKeys<R, K>(rows: seq<R>, key: R -> K, batch: seq<R>, k: K)
    ensures HasKey(InsertOrIgnoreAll(rows, key, batch), key, k) <==> HasKey(rows, key, k) || HasKey(batch, key, k)
    decreases |batch|
  {
    if batch != [] {
      var init := batch[..|batch| - 1];
      var x := batch[|batch| - 1];
      assert batch == init + [x];
      InsertOrIgnoreAllKeys(rows, key, init, k);
      HasKeySnoc(init, x, key, k);
      var mid := InsertOrIgnoreAll(rows, key, init);
      if !HasKey(mid, key, key(x)) {
        HasKeySnoc(mid, x, key, k);
      }
    }
  }

  /** Inserting batch a and then batch b is inserting their concatenation. */
  lemma {:induction false} InsertOrIgnoreAllAppend<R, K>(rows: seq<R>, key: R -> K, a: seq<R>, b: seq<R>)
    ensures InsertOrIgnoreAll(InsertOrIgnoreAll(rows, key, a), key, b) == InsertOrIgnoreAll(rows, key, a + b)
    decreases |b|
  {
    if b == [] {
      assert a + b == a;
    } else {
      var b' := b[..|b| - 1];
      InsertOrIgnoreAllAppend(rows, key, a, b');
      assert (a + b)[..|a + b| - 1] == a + b';
    }
  }

  /** The position of the first row of the batch with key k, or -1 when there is none. */
  function FirstIndex<R, K(==)>(batch: seq<R>, key: R -> K, k: K): (i: int)
    ensures -1 <= i < |batch|
    ensures i >= 0 ==> key(batch[i]) == k
    ensures forall j :: 0 <= j < i || (i == -1 && 0 <= j < |batch|) ==> key(batch[j]) != k
  {
    if batch == [] then -1
    else if key(batch[0]) == k then 0
    else var i := FirstIndex(batch[1..], key, k); if i == -1 then -1 else i + 1
  }

  lemma HasKeySnoc<R, K>(rows: seq<R>, x: R, key: R -> K, k: K)
    ensures HasKey(rows + [x], key, k) <==> HasKey(rows, key, k) || key(x) == k
  {
    var s := rows + [x];
    if HasKey(s, key, k) {
      var i :| 0 <= i < |s| && key(s[i]) == k;
      if i < |rows| { assert s[i] == rows[i]; }
    }
    if HasKey(rows, key, k) {
      var i :| 0 <= i < |rows| && key(rows[i]) == k;
      assert s[i] == rows[i];
    }
    assert s[|rows|] == x;
  }

  /** One insert-or-ignore keeps the constraint and the old rows, and adds the row's key. */
  lemma InsertOrIgnoreStep<R, K>(rows: seq<R>, key: R -> K, x: R)
    requires UniqueKeys(rows, key)
    ensures UniqueKeys(InsertOrIgnore(rows, key, x), key)
    ensures rows <= InsertOrIgnore(rows, key, x)
    ensures forall k :: HasKey(InsertOrIgnore(rows, key, x), key, k) <==> HasKey(rows, key, k) || key(x) == k
    ensures InsertOrIgnore(rows, key, x) == rows || (!HasKey(rows, key, key(x)) && InsertOrIgnore(rows, key, x) == rows + [x])
  {
    forall k ensures HasKey(rows + [x], key, k) <==> HasKey(rows, key, k) || key(x) == k {
      HasKeySnoc(rows, x, key, k);
    }
    if !HasKey(rows, key, key(x)) {
      var s := rows + [x];
      forall i, j | 0 <= i < j < |s| ensures key(s[i]) != key(s[j]) {
        assert s[i] == rows[i];
        if j < |rows| { assert s[j] == rows[j]; }
      }
    }
  }

  /**
    Insert-or-ignore keeps the UNIQUE constraint, never touches an existing row (the old rows are a
    prefix of the new ones), adds exactly the keys of the batch, and a key new to the table takes
    the row of its FIRST occurrence in the batch.
  */
  lemma {:induction false} InsertOrIgnoreAllSpec<R, K>(rows: seq<R>, key: R -> K, batch: seq<R>)
    requires UniqueKeys(rows, key)
    ensures UniqueKeys(InsertOrIgnoreAll(rows, key, batch), key)
    ensures rows <= InsertOrIgnoreAll(rows, key, batch)
    ensures forall k ::
      (HasKey(InsertOrIgnoreAll(rows, key, batch), key, k) <==> HasKey(rows, key, k) || HasKey(batch, key, k))
    ensures forall i :: |rows| <= i < |InsertOrIgnoreAll(rows, key, batch)| ==>
      var r := InsertOrIgnoreAll(rows, key, batch)[i];
      !HasKey(rows, key, key(r)) && FirstIndex(batch, key, key(r)) >= 0
      && r == batch[FirstIndex(batch, key, key(r))]
    decreases |batch|
  {
    if batch != [] {
      var init := batch[..|batch| - 1];
      var x := batch[|batch| - 1];
      assert batch == init + [x];
      InsertOrIgnoreAllSpec(rows, key, init);
      var mid := InsertOrIgnoreAll(rows, key, init);
      var out := InsertOrIgnoreAll(rows, key, batch);
      assert out == InsertOrIgnore(mid, key, x);
      InsertOrIgnoreStep(mid, key, x);
      forall k ensures HasKey(batch, key, k) <==> HasKey(init, key, k) || key(x) == k {
        HasKeySnoc(init, x, key, k);
      }
      forall i | |rows| <= i < |out|
        ensures !HasKey(rows, key, key(out[i])) && FirstIndex(batch, key, key(out[i])) >= 0
        ensures out[i] == batch[FirstIndex(batch, key, key(out[i]))]
      {
        if i < |mid| {
          assert out[i] == mid[i];
          var k := key(mid[i]);
          assert HasKey(init, key, k) by { assert key(init[FirstIndex(init, key, k)]) == k; }
          FirstIndexPrefix(init, batch, key, k);
          assert batch[FirstIndex(init, key, k)] == init[FirstIndex(init, key, k)];
        } else {
          assert out == mid + [x] && out[i] == x;
          assert !HasKey(init, key, key(x));
          FirstIndexAfter(init, x, key);
        }
      }
    }
  }

  lemma {:induction false} FirstIndexPrefix<R, K>(init: seq<R>, batch: seq<R>, key: R -> K, k: K)
    requires init <= batch && HasKey(init, key, k)
    ensures FirstIndex(batch, key, k) == FirstIndex(init, key, k)
    decreases |init|
  {
    if key(init[0]) != k {
      var i :| 0 <= i < |init| && key(init[i]) == k;
      assert init[1..][i - 1] == init[i];
      assert init[1..] <= batch[1..];
      FirstIndexPrefix(init[1..], batch[1..], key, k);
    }
  }

  lemma FirstIndexAfter<R, K>(init: seq<R>, x: R, key: R -> K)
    requires !HasKey(init, key, key(x))
    ensures FirstIndex(init + [x], key, key(x)) == |init|
  {
    var b := init + [x];
    assert key(b[|init|]) == key(x);
    forall j | 0 <= j < |init| ensures key(b[j]) != key(x) {
      assert b[j] == init[j];
    }
  }
}

=== FILE: vehicles.dfy ===
/**
  The `/api/vehicles` query of app.py: the filter clauses a request adds to the SQL statement,
  the scan SQLite performs with the registered Python functions (in stored row order, with
  LIMIT 24 and the page's OFFSET), and the display records built from the rows it returns.
  A Python function that raises inside the scan, or while a display record is built, aborts the
  request: both are modelled as None.
*/
module Vehicles {
  import opened Wrappers
  import opened PyStrings
  import opened Extractors
  import opened Schema

  // ---------------------------------------------------------------------------
  // The request and its clauses
  // ---------------------------------------------------------------------------

  /** The query parameters once parsed; an absent or empty parameter is "" or None. */
  datatype VehicleRequest = VehicleRequest(
    page: int,
    make: string,
    model: string,
    fuel: string,
    minKm: Option<int>,
    maxKm: Option<int>,
    minPrice: Option<real>,
    maxPrice: Option<real>)

  /** One `AND ...` term of the WHERE clause with its bound parameter. */
  datatype Clause =
    | LikeClause(term: string)          // l_text LIKE '%term%'
    | FuelClause(desired: string)       // CHECK_FUEL(at_text, desired) = 1
    | KmAtLeast(bound: int)             // GET_KM(at_text) >= bound
    | KmAtMost(bound: int)              // GET_KM(at_text) <= bound
    | PriceAtLeast(limit: real)         // GET_PRICE_USD(p_text) >= limit
    | PriceAtMost(limit: real)          // GET_PRICE_USD(p_text) <= limit

  const PageSize: nat := 24

  /** `LIKE '%term%'` without wildcards in the term: containment, ignoring ASCII case. */
  predicate Like(text: string, term: string) {
    Contains(Lower(text), Lower(term))
  }

  /** The request sets no filter at all. */
  predicate Unfiltered(req: VehicleRequest) {
    req.make == "" && req.model == "" && req.fuel == ""
    && req.minKm.None? && req.maxKm.None? && req.minPrice.None? && req.maxPrice.None?
  }

  /** The request filters on the distance, so GET_KM runs on the rows it reaches. */
  predicate KmFiltered(req: VehicleRequest) {
    req.minKm.Some? || req.maxKm.Some?
  }

  function Optional(present: bool, c: Clause): seq<Clause> {
    if present then [c] else []
  }

  function TextClauses(req: VehicleRequest): seq<Clause> {
    Optional(req.make != "", LikeClause(req.make))
    + Optional(req.model != "", LikeClause(req.model))
    + Optional(req.fuel != "", FuelClause(req.fuel))
  }

  function KmClauses(req: VehicleRequest): seq<Clause> {
    Optional(req.minKm.Some?, KmAtLeast(req.minKm.GetOr(0)))
    + Optional(req.maxKm.Some?, KmAtMost(req.maxKm.GetOr(0)))
  }

  function PriceClauses(req: VehicleRequest): seq<Clause> {
    Optional(req.minPrice.Some?, PriceAtLeast(req.minPrice.GetOr(0.0)))
    + Optional(req.maxPrice.Some?, PriceAtMost(req.maxPrice.GetOr(0.0)))
  }

  /**
    The WHERE terms in the order the handler appends them: make, model, fuel, minimum and
    maximum distance, minimum and maximum USD price. A request without filters adds none.
  */
  function Clauses(req: VehicleRequest): (cs: seq<Clause>)
    ensures cs == [] <==> Unfiltered(req)
    ensures |cs| <= 7
  {
    TextClauses(req) + KmClauses(req) + PriceClauses(req)
  }

  /**
    The OFFSET: (page - 1) * 24, where SQLite reads a negative offset as 0, so every page
    number up to 1 shows the first page.
  */
  function Offset(page: int): (off: nat)
    ensures page <= 1 ==> off == 0
    ensures page >= 1 ==> off == (page - 1) * PageSize
  {
    if page <= 1 then 0 else (page - 1) * PageSize
  }

  // ---------------------------------------------------------------------------
  // Evaluating the WHERE clause
  // ---------------------------------------------------------------------------

  /** One term on one row; None when GET_KM raises on the row's attribute text. */
  function EvalClause(c: Clause, r: ItemRow, rates: RateTable): Option<bool>
    requires ValidRates(rates)
  {
    match c
    case LikeClause(t) => Some(Like(r.lText, t))
    case FuelClause(d) => Some(CheckFuelMatch(r.atText, d))
    case KmAtLeast(b) => (match GetKm(r.atText) case None => None case Some(km) => Some(km >= b))
    case KmAtMost(b) => (match GetKm(r.atText) case None => None case Some(km) => Some(km <= b))
    case PriceAtLeast(x) => Some(GetPriceInUsd(r.pText, rates) >= x)
    case PriceAtMost(x) => Some(GetPriceInUsd(r.pText, rates) <= x)
  }

  /** The terms left to right, stopping at the first false one; None as soon as one raises. */
  function EvalAll(cs: seq<Clause>, r: ItemRow, rates: RateTable): Option<bool>
    requires ValidRates(rates)
  {
    if cs == [] then Some(true)
    else
      match EvalClause(cs[0], r, rates)
      case None => None
      case Some(b) => if b then EvalAll(cs[1..], r, rates) else Some(false)
  }

  /** Evaluating a concatenation: the second list is reached only when the first holds. */
  lemma {:induction false} EvalAppend(a: seq<Clause>, b: seq<Clause>, r: ItemRow, rates: RateTable)
    requires ValidRates(rates)
    ensures EvalAll(a + b, r, rates) ==
      match EvalAll(a, r, rates)
      case None => None
      case Some(x) => if x then EvalAll(b, r, rates) else Some(false)
  {
    if a == [] {
      assert a + b == b;
    } else {
      assert (a + b)[0] == a[0] && (a + b)[1..] == a[1..] + b;
      EvalAppend(a[1..], b, r, rates);
    }
  }

  lemma EvalOptional(present: bool, c: Clause, r: ItemRow, rates: RateTable)
    requires ValidRates(rates)
    ensures EvalAll(Optional(present, c), r, rates) == if present then EvalClause(c, r, rates) else Some(true)
  {
    if present {
      assert [c][1..] == [];
    }
  }

  /** The make, model and fuel filters of the request hold on the row. */
  predicate TextMatches(req: VehicleRequest, r: ItemRow) {
    && (req.make == "" || Like(r.lText, req.make))
    && (req.model == "" || Like(r.lText, req.model))
    && CheckFuelMatch(r.atText, req.fuel)
  }

  /** The distance filters hold: the distance is readable and within both bounds that are set. */
  predicate KmMatches(req: VehicleRequest, r: ItemRow) {
    !KmFiltered(req) ||
      (&& GetKm(r.atText).Some?
       && (req.minKm.None? || GetKm(r.atText).value >= req.minKm.value)
       && (req.maxKm.None? || GetKm(r.atText).value <= req.maxKm.value))
  }

  /** The USD price lies within both bounds that are set (inclusive). */
  predicate PriceMatches(req: VehicleRequest, r: ItemRow, rates: RateTable)
    requires ValidRates(rates)
  {
    && (req.minPrice.None? || GetPriceInUsd(r.pText, rates) >= req.minPrice.value)
    && (req.maxPrice.None? || GetPriceInUsd(r.pText, rates) <= req.maxPrice.value)
  }

  /** What the request asks of a listing, without regard to evaluation order. */
  predicate Matches(req: VehicleRequest, r: ItemRow, rates: RateTable)
    requires ValidRates(rates)
  {
    TextMatches(req, r) && KmMatches(req, r) && PriceMatches(req, r, rates)
  }

  lemma TextClausesMeaning(req: VehicleRequest, r: ItemRow, rates: RateTable)
    requires ValidRates(rates)
    ensures EvalAll(TextClauses(req), r, rates) == Some(TextMatches(req, r))
  {
    var a := Optional(req.make != "", LikeClause(req.make));
    var b := Optional(req.model != "", LikeClause(req.model));
    var c := Optional(req.fuel != "", FuelClause(req.fuel));
    EvalOptional(req.make != "", LikeClause(req.make), r, rates);
    EvalOptional(req.model != "", LikeClause(req.model), r, rates);
    EvalOptional(req.fuel != "", FuelClause(req.fuel), r, rates);
    EvalAppend(a, b, r, rates);
    EvalAppend(a + b, c, r, rates);
  }

  lemma KmClausesMeaning(req: VehicleRequest, r: ItemRow, rates: RateTable)
    requires ValidRates(rates)
    ensures KmFiltered(req) && !KmDefined(r.atText) ==> EvalAll(KmClauses(req), r, rates).None?
    ensures !KmFiltered(req) || KmDefined(r.atText) ==> EvalAll(KmClauses(req), r, rates) == Some(KmMatches(req, r))
  {
    var a := Optional(req.minKm.Some?, KmAtLeast(req.minKm.GetOr(0)));
    var b := Optional(req.maxKm.Some?, KmAtMost(req.maxKm.GetOr(0)));
    EvalOptional(req.minKm.Some?, KmAtLeast(req.minKm.GetOr(0)), r, rates);
    EvalOptional(req.maxKm.Some?, KmAtMost(req.maxKm.GetOr(0)), r, rates);
    EvalAppend(a, b, r, rates);
  }

  lemma PriceClausesMeaning(req: VehicleRequest, r: ItemRow, rates: RateTable)
    requires ValidRates(rates)
    ensures EvalAll(PriceClauses(req), r, rates) == Some(PriceMatches(req, r, rates))
  {
    var a := Optional(req.minPrice.Some?, PriceAtLeast(req.minPrice.GetOr(0.0)));
    var b := Optional(req.maxPrice.Some?, PriceAtMost(req.maxPrice.GetOr(0.0)));
    EvalOptional(req.minPrice.Some?, PriceAtLeast(req.minPrice.GetOr(0.0)), r, rates);
    EvalOptional(req.maxPrice.Some?, PriceAtMost(req.maxPrice.GetOr(0.0)), r, rates);
    EvalAppend(a, b, r, rates);
  }

  /**
    The SQL filter means the request's filters: whenever it evaluates, its value is Matches; it
    raises exactly when a distance filter is set, the row's distance cannot be read, and the
    make, model and fuel terms before it all hold.
  */
  lemma ClausesMeaning(req: VehicleRequest, r: ItemRow, rates: RateTable)
    requires ValidRates(rates)
    ensures EvalAll(Clauses(req), r, rates).Some? ==> EvalAll(Clauses(req), r, rates).value == Matches(req, r, rates)
    ensures EvalAll(Clauses(req), r, rates).None? <==> KmFiltered(req) && !KmDefined(r.atText) && TextMatches(req, r)
  {
    TextClausesMeaning(req, r, rates);
    KmClausesMeaning(req, r, rates);
    PriceClausesMeaning(req, r, rates);
    EvalAppend(TextClauses(req), KmClauses(req), r, rates);
    EvalAppend(TextClauses(req) + KmClauses(req), PriceClauses(req), r, rates);
  }

  // ---------------------------------------------------------------------------
  // The scan: LIMIT and OFFSET over the rows in stored order
  // ---------------------------------------------------------------------------

  function Min(a: int, b: int): int {
    if a <= b then a else b
  }

  /** The rows from position skip on, at most take of them. */
  function Window<T>(s: seq<T>, skip: nat, take: nat): (w: seq<T>)
    ensures |w| == if skip >= |s| then 0 else Min(take, |s| - skip)
    ensures forall j :: 0 <= j < |w| ==> w[j] == s[skip + j]
  {
    if skip >= |s| then [] else s[skip..skip + Min(take, |s| - skip)]
  }

  /** The rows on which the WHERE clause evaluates to true, in stored order. */
  function Selected(rows: seq<ItemRow>, cs: seq<Clause>, rates: RateTable): (sel: seq<ItemRow>)
    requires ValidRates(rates)
    ensures |sel| <= |rows|
    ensures forall x :: x in sel ==> x in rows && EvalAll(cs, x, rates) == Some(true)
  {
    if rows == [] then []
    else if EvalAll(cs, rows[0], rates) == Some(true) then [rows[0]] + Selected(rows[1..], cs, rates)
    else Selected(rows[1..], cs, rates)
  }

  /**
    SQLite's scan with `LIMIT take OFFSET skip`: rows are tested in stored order; matching rows
    are first skipped, then returned, and the scan stops once take rows are returned, so rows
    after that point are never tested. None when a test raises.
  */
  function Scan(rows: seq<ItemRow>, cs: seq<Clause>, rates: RateTable, skip: nat, take: nat): (r: Option<seq<ItemRow>>)
    requires ValidRates(rates)
    ensures r.Some? ==> |r.value| <= take && |r.value| <= |rows|
    decreases |rows|
  {
    if take == 0 || rows == [] then Some([])
    else
      match EvalAll(cs, rows[0], rates)
      case None => None
      case Some(b) =>
        if !b then Scan(rows[1..], cs, rates, skip, take)
        else if skip > 0 then Scan(rows[1..], cs, rates, skip - 1, take)
        else
          match Scan(rows[1..], cs, rates, 0, take - 1)
          case None => None
          case Some(rest) => Some([rows[0]] + rest)
  }

  /** A scan that completes returns the window of the selected rows. */
  lemma {:induction false} ScanWindow(rows: seq<ItemRow>, cs: seq<Clause>, rates: RateTable, skip: nat, take: nat)
    requires ValidRates(rates)
    ensures Scan(rows, cs, rates, skip, take).Some? ==>
      Scan(rows, cs, rates, skip, take).value == Window(Selected(rows, cs, rates), skip, take)
    decreases |rows|
  {
    if take != 0 && rows != [] {
      var tail := Selected(rows[1..], cs, rates);
      match EvalAll(cs, rows[0], rates)
      case None =>
      case Some(b) =>
        if !b {
          ScanWindow(rows[1..], cs, rates, skip, take);
        } else if skip > 0 {
          ScanWindow(rows[1..], cs, rates, skip - 1, take);
          assert Selected(rows, cs, rates) == [rows[0]] + tail;
        } else {
          ScanWindow(rows[1..], cs, rates, 0, take - 1);
          assert Selected(rows, cs, rates) == [rows[0]] + tail;
        }
    }
  }

  /** The scan completes when no row raises. */
  lemma {:induction false} ScanDefined(rows: seq<ItemRow>, cs: seq<Clause>, rates: RateTable, skip: nat, take: nat)
    requires ValidRates(rates)
    requires forall i :: 0 <= i < |rows| ==> EvalAll(cs, rows[i], rates).Some?
    ensures Scan(rows, cs, rates, skip, take).Some?
    decreases |rows|
  {
    if take != 0 && rows != [] {
      assert EvalAll(cs, rows[0], rates).Some?;
      forall i | 0 <= i < |rows| - 1 ensures EvalAll(cs, rows[1..][i], rates).Some? {
        assert rows[1..][i] == rows[i + 1];
      }
      ScanDefined(rows[1..], cs, rates, 0, take - 1);
      ScanDefined(rows[1..], cs, rates, skip, take);
      if skip > 0 {
        ScanDefined(rows[1..], cs, rates, skip - 1, take);
      }
    }
  }

  /** A scan that raises has reached a row on which the WHERE clause raises. */
  lemma {:induction false} ScanRaises(rows: seq<ItemRow>, cs: seq<Clause>, rates: RateTable, skip: nat, take: nat)
    requires ValidRates(rates)
    requires Scan(rows, cs, rates, skip, take).None?
    ensures exists i :: 0 <= i < |rows| && EvalAll(cs, rows[i], rates).None?
    decreases |rows|
  {
    if EvalAll(cs, rows[0], rates).Some? {
      var b := EvalAll(cs, rows[0], rates).value;
      if !b || skip > 0 {
        ScanRaises(rows[1..], cs, rates, if !b then skip else skip - 1, take);
      } else {
        ScanRaises(rows[1..], cs, rates, 0, take - 1);
      }
      var i :| 0 <= i < |rows| - 1 && EvalAll(cs, rows[1..][i], rates).None?;
      assert rows[1..][i] == rows[i + 1];
    }
  }

  // ---------------------------------------------------------------------------
  // The query
  // ---------------------------------------------------------------------------

  /** The rows the request matches, in stored order. */
  function Matching(rows: seq<ItemRow>, req: VehicleRequest, rates: RateTable): (m: seq<ItemRow>)
    requires ValidRates(rates)
    ensures |m| <= |rows|
    ensures forall x :: x in m ==> x in rows && Matches(req, x, rates)
  {
    if rows == [] then []
    else if Matches(req, rows[0], rates) then [rows[0]] + Matching(rows[1..], req, rates)
    else Matching(rows[1..], req, rates)
  }

  /** `SELECT * FROM items WHERE 1=1 AND ... LIMIT 24 OFFSET (page - 1) * 24`. */
  function Query(rows: seq<ItemRow>, req: VehicleRequest, rates: RateTable): (r: Option<seq<ItemRow>>)
    requires ValidRates(rates)
    ensures r.Some? ==> |r.value| <= PageSize && |r.value| <= |rows|
  {
    Scan(rows, Clauses(req), rates, Offset(req.page), PageSize)
  }

  /** The rows the SQL filter accepts are exactly the rows the request matches. */
  lemma {:induction false} SelectedIsMatching(rows: seq<ItemRow>, req: VehicleRequest, rates: RateTable)
    requires ValidRates(rates)
    ensures Selected(rows, Clauses(req), rates) == Matching(rows, req, rates)
  {
    if rows != [] {
      ClausesMeaning(req, rows[0], rates);
      SelectedIsMatching(rows[1..], req, rates);
    }
  }

  /**
    A page that is served holds the matching rows from position (page - 1) * 24 on, at most 24
    of them, in stored order.
  */
  lemma QueryPage(rows: seq<ItemRow>, req: VehicleRequest, rates: RateTable)
    requires ValidRates(rates)
    requires Query(rows, req, rates).Some?
    ensures Query(rows, req, rates).value == Window(Matching(rows, req, rates), Offset(req.page), PageSize)
    ensures |Query(rows, req, rates).value| <= PageSize
  {
    ScanWindow(rows, Clauses(req), rates, Offset(req.page), PageSize);
    SelectedIsMatching(rows, req, rates);
  }

  /**
    The query fails only through the distance extractor: it is served whenever no distance
    filter is set or every row's distance reads; when it fails, a distance filter is set and
    some row's distance cannot be read.
  */
  lemma QueryDefined(rows: seq<ItemRow>, req: VehicleRequest, rates: RateTable)
    requires ValidRates(rates)
    ensures (!KmFiltered(req) || forall i :: 0 <= i < |rows| ==> KmDefined(rows[i].atText)) ==>
      Query(rows, req, rates).Some?
    ensures Query(rows, req, rates).None? ==>
      KmFiltered(req) && exists i :: 0 <= i < |rows| && !KmDefined(rows[i].atText)
  {
    var cs := Clauses(req);
    if Query(rows, req, rates).None? {
      ScanRaises(rows, cs, rates, Offset(req.page), PageSize);
      var i :| 0 <= i < |rows| && EvalAll(cs, rows[i], rates).None?;
      ClausesMeaning(req, rows[i], rates);
    }
    if !KmFiltered(req) || forall i :: 0 <= i < |rows| ==> KmDefined(rows[i].atText) {
      forall i | 0 <= i < |rows| ensures EvalAll(cs, rows[i], rates).Some? {
        ClausesMeaning(req, rows[i], rates);
      }
      ScanDefined(rows, cs, rates, Offset(req.page), PageSize);
    }
  }

  /** Without filters every row matches, and page p shows the stored rows from (p - 1) * 24 on. */
  lemma {:induction false} UnfilteredMatchesAll(rows: seq<ItemRow>, req: VehicleRequest, rates: RateTable)
    requires ValidRates(rates) && Unfiltered(req)
    ensures Matching(rows, req, rates) == rows
  {
    if rows != [] {
      UnfilteredMatchesAll(rows[1..], req, rates);
      assert [rows[0]] + rows[1..] == rows;
    }
  }

  /** Without a distance filter every page is served, and it is the page's window of the matching rows. */
  lemma PageServed(rows: seq<ItemRow>, req: VehicleRequest, rates: RateTable, p: int)
    requires ValidRates(rates) && !KmFiltered(req)
    ensures Query(rows, req.(page := p), rates) == Some(Window(Matching(rows, req, rates), Offset(p), PageSize))
  {
    var q := req.(page := p);
    SameFilters(rows, req, q, rates);
    QueryDefined(rows, q, rates);
    QueryPage(rows, q, rates);
  }

  /**
    Thirty matching listings fill page 1 with the first 24, page 2 with the last 6, and leave
    page 3 empty.
  */
  lemma ThirtyMatches(rows: seq<ItemRow>, req: VehicleRequest, rates: RateTable)
    requires ValidRates(rates) && !KmFiltered(req)
    requires |Matching(rows, req, rates)| == 30
    ensures Query(rows, req.(page := 1), rates) == Some(Matching(rows, req, rates)[..24])
    ensures Query(rows, req.(page := 2), rates) == Some(Matching(rows, req, rates)[24..])
    ensures Query(rows, req.(page := 3), rates) == Some([])
  {
    PageServed(rows, req, rates, 1);
    PageServed(rows, req, rates, 2);
    PageServed(rows, req, rates, 3);
    ThirtyWindows(Matching(rows, req, rates));
  }

  lemma ThirtyWindows(m: seq<ItemRow>)
    requires |m| == 30
    ensures Window(m, Offset(1), PageSize) == m[..24]
    ensures Window(m, Offset(2), PageSize) == m[24..]
    ensures Window(m, Offset(3), PageSize) == []
  {
    assert Offset(2) == 24 && Offset(3) == 48;
  }

  /** The page number takes no part in matching. */
  lemma {:induction false} SameFilters(rows: seq<ItemRow>, a: VehicleRequest, b: VehicleRequest, rates: RateTable)
    requires ValidRates(rates) && a.(page := b.page) == b
    ensures Matching(rows, a, rates) == Matching(rows, b, rates)
  {
    if rows != [] {
      SameFilters(rows[1..], a, b, rates);
    }
  }

  /**
    Pages tile the matching rows: the k-th matching row is shown on page k / 24 + 1, at
    position k % 24.
  */
  lemma PageOfRow(rows: seq<ItemRow>, req: VehicleRequest, rates: RateTable, k: nat)
    requires ValidRates(rates)
    requires k < |Matching(rows, req, rates)| && req.page == k / PageSize + 1
    requires Query(rows, req, rates).Some?
    ensures k % PageSize < |Query(rows, req, rates).value|
    ensures Query(rows, req, rates).value[k % PageSize] == Matching(rows, req, rates)[k]
  {
    QueryPage(rows, req, rates);
    PageArithmetic(k);
  }

  lemma PageArithmetic(k: nat)
    ensures Offset(k / PageSize + 1) + k % PageSize == k
    ensures k % PageSize < PageSize
  {
  }

  // ---------------------------------------------------------------------------
  // The display records
  // ---------------------------------------------------------------------------

  /** The JSON object returned for one listing. */
  datatype VehicleView = VehicleView(
    id: string,
    image: string,
    priceRaw: nat,
    currency: Currency,
    year: nat,
    make: string,
    model: string,
    engine: string,
    location: string,
    mileage: string,
    fuel: string)

  /** The display record of a row; None when reading its distance raises. */
  function ViewOf(r: ItemRow): (v: Option<VehicleView>)
    ensures v.Some? <==> KmDefined(r.atText)
    ensures v.Some? ==> v.value.id == r.id && v.value.image == r.imageSrc && GetKm(v.value.mileage) == GetKm(r.atText)
    ensures v.Some? ==> (v.value.priceRaw, v.value.currency) == ParsePrice(r.pText)
    ensures v.Some? ==>
      Title(v.value.year, v.value.make, v.value.model, v.value.engine) == ParseLText(r.lText)
    ensures v.Some? ==>
      AtFields(v.value.location, v.value.mileage, v.value.fuel) == ParseAtText(r.atText).value
  {
    match ParseAtText(r.atText)
    case None => None
    case Some(a) =>
      var price := ParsePrice(r.pText);
      var t := ParseLText(r.lText);
      Some(VehicleView(r.id, r.imageSrc, price.0, price.1, t.year, t.make, t.model, t.spec,
        a.location, a.mileage, a.fuel))
  }

  /**
    A record exists exactly when the row's distance reads, and it shows what the filters test:
    the displayed mileage reads back as the filtered distance, and the displayed price divided
    by its currency's rate is the filtered USD price. The make is one word, the engine holds no
    comma, the location is the text before the first comma, and the fuel is the first keyword found.
  */
  lemma ViewAgrees(r: ItemRow, rates: RateTable)
    requires ValidRates(rates)
    ensures ViewOf(r).Some? <==> KmDefined(r.atText)
    ensures ViewOf(r).Some? ==>
      var v := ViewOf(r).value;
      && v.id == r.id
      && GetKm(v.mileage) == GetKm(r.atText)
      && v.priceRaw as real / UsdDivisor(rates, v.currency) == GetPriceInUsd(r.pText, rates)
      && ' ' !in v.make && ',' !in v.engine
      && v.location == Strip(Before(r.atText, ','))
      && v.fuel == FuelOf(r.atText)
  {
    if KmDefined(r.atText) {
      ParseAtTextSpec(r.atText);
    }
  }

  /**
    The loop over the returned rows: one record per row in the same order; the request fails
    as soon as one row's record cannot be built.
  */
  method CollectViews<R, W>(page: seq<R>, view: R -> Option<W>) returns (r: Option<seq<W>>)
    ensures r.None? <==> exists i :: 0 <= i < |page| && view(page[i]).None?
    ensures r.Some? ==> |r.value| == |page| && forall i :: 0 <= i < |page| ==> view(page[i]) == Some(r.value[i])
  {
    var results: seq<W> := [];
    for i := 0 to |page|
      invariant |results| == i
      invariant forall j :: 0 <= j < i ==> view(page[j]) == Some(results[j])
    {
      var v := view(page[i]);
      if v.None? {
        return None;
      }
      results := results + [v.value];
    }
    return Some(results);
  }

  /**
    `get_vehicles`: the records of the requested page of matching listings, in stored order;
    every shown mileage and USD price lies within the requested bounds. The request is served
    whenever every listing's distance reads.
  */
  method GetVehicles(rows: seq<ItemRow>, req: VehicleRequest, rates: RateTable) returns (resp: Option<seq<VehicleView>>)
    requires ValidRates(rates)
    ensures (forall i :: 0 <= i < |rows| ==> KmDefined(rows[i].atText)) ==> resp.Some?
    ensures resp.Some? ==>
      var shown := Window(Matching(rows, req, rates), Offset(req.page), PageSize);
      && |resp.value| == |shown| <= PageSize
      && forall i :: 0 <= i < |shown| ==> ViewOf(shown[i]) == Some(resp.value[i])
    ensures resp.Some? ==> forall v :: v in resp.value ==> ShownWithin(req, v, rates)
  {
    QueryDefined(rows, req, rates);
    var q := Query(rows, req, rates);
    if q.None? {
      return None;
    }
    QueryPage(rows, req, rates);
    var shown := q.value;
    if forall i :: 0 <= i < |rows| ==> KmDefined(rows[i].atText) {
      forall j | 0 <= j < |shown| ensures KmDefined(shown[j].atText) {
        assert shown[j] in Matching(rows, req, rates);
        var i :| 0 <= i < |rows| && rows[i] == shown[j];
      }
    }
    resp := CollectViews(shown, ViewOf);
    if resp.Some? {
      forall v | v in resp.value ensures ShownWithin(req, v, rates) {
        var i :| 0 <= i < |resp.value| && resp.value[i] == v;
        assert shown[i] in Matching(rows, req, rates);
        ShownRowWithin(req, shown[i], rates);
      }
    }
  }

  /** The displayed mileage and price lie within the distance and USD price bounds the request sets. */
  predicate ShownWithin(req: VehicleRequest, v: VehicleView, rates: RateTable)
    requires ValidRates(rates)
  {
    && (KmFiltered(req) ==> GetKm(v.mileage).Some?)
    && (req.minKm.Some? ==> GetKm(v.mileage).Some? && GetKm(v.mileage).value >= req.minKm.value)
    && (req.maxKm.Some? ==> GetKm(v.mileage).Some? && GetKm(v.mileage).value <= req.maxKm.value)
    && (req.minPrice.Some? ==> v.priceRaw as real / UsdDivisor(rates, v.currency) >= req.minPrice.value)
    && (req.maxPrice.Some? ==> v.priceRaw as real / UsdDivisor(rates, v.currency) <= req.maxPrice.value)
  }

  lemma ShownRowWithin(req: VehicleRequest, r: ItemRow, rates: RateTable)
    requires ValidRates(rates) && Matches(req, r, rates) && ViewOf(r).Some?
    ensures ShownWithin(req, ViewOf(r).value, rates)
  {
    ViewAgrees(r, rates);
  }
}

=== FILE: wrappers.dfy ===
/** The absent-or-present value used wherever the source returns None or reads an optional attribute. */
module Wrappers {
  datatype Option<+T> = None | Some(value: T) {
    function GetOr(default: T): T {
      match this
      case Some(v) => v
      case None => default
    }
  }
}
